=== FILE: README.md ===
# colorino in Dafny

A model of the core of colorino, a console logger for Node.js and browsers.
colorino colours each log call with a per-method palette, at the colour
level the environment supports. It also learns whether the terminal
background is dark or light by sending an OSC 11 query and parsing the
`rgb:` reply.

The model is pure: every operation is a function of its inputs, and each
module follows one source file.

| module | source file | what it holds |
|---|---|---|
| `Types` | `src/types.ts` | console methods, colour levels (including `UnknownEnv`), terminal themes, palettes as ordered records |
| `Theme` | `src/theme.ts` | the six theme names and the two defaults |
| `DetermineBaseTheme` | `src/determine-base-theme.ts` | choosing the base theme from the theme option and the detected theme |
| `InputValidator` | `src/input-validator.ts` | `validateHex` and `validatePalette` |
| `ColorConverter` | `src/color-converter.ts` | `hexToRgb`, `rgbaToRgb`, `rgbToAnsi256`, `rgbToAnsi16` and their compositions |
| `TypeValidator` | `src/type-validator.ts` | the argument classifiers, the SGR (Select Graphic Rendition) escape test, the stack-like string test |
| `NodeColorSupportDetector` | `src/node-color-support-detector.ts` | the environment snapshot and the first-match-wins colour level rules |
| `BrowserColorSupportDetector` | `src/browser-color-support-detector.ts` | the browser level and the `prefers-color-scheme` theme |
| `OscResponse` | `src/osc-theme-querier.ts`, `src/osc-child-probe.js` | the `rgb:` regular expression as a leftmost-match search, the two channel normalisations, luminance |
| `OscThemeQuerier` | `src/osc-theme-querier.ts` | `query`, `_performQuery`, `_parseResponse`, as a state machine driven by a trace of events |
| `OscChildProbe` | `src/osc-child-probe.js` | the child probe script, driven by the same kind of trace |
| `OscThemeSync` | `src/osc-theme-sync.ts` | reading the child's exit status and output |
| `AbstractColorino` | `src/abstract-colorino.ts` | the shared logger base: constructor, `colorize`, `formatValue`, `filterStack`, `cleanErrorStack`, `buildCallerStack` |
| `ColorinoNode` | `src/colorino-node.ts` | the Node subclass: ANSI prefixes, `_applyColors`, `_processArgs`, `gradient` |
| `ColorinoBrowser` | `src/colorino-browser.ts` | the browser subclass: CSS styles, the `%c`/`%o` format string, `_processArgs`, `gradient` |
| `Colorino` | `src/colorino.ts` | the legacy single-class logger `MyColorino` |
| `Text`, `JsNumber`, `Values`, `Events`, `Wrappers` | (shared) | strings as JavaScript treats them, `parseInt` and `Math.round`, argument values and the object heap, event traces, `Option`/`Result` |

A few modelling choices:
- The console, the clock, `process`, the terminal and the child process become parameters.
- The terminal exchange is a trace of events, each a chunk of input or the timer firing.
- Objects live in a heap map from references to records and arrays, so cycles and shared references can be stated.
- `JSON.stringify` of a sanitised value is a parameter `render`.
- Floating-point arithmetic is replaced by exact integer arithmetic wherever it decides an outcome:
  - `Math.round(n / d)` is `(2n + d) / (2d)`;
  - "luminance < 0.5" is `299 R + 587 G + 114 B < 127500`.

Where the code and its documentation disagree, the model follows the code:
- `NO_COLOR` disables colour even when it is set to the empty string (`!== undefined`).
- The reply's channel groups are two to four hex digits (`{2,4}`), not one to four.
- The querier caches an error answer as well as a successful one.
- A chunk that does not parse never ends the query with "no valid OSC response": the exchange keeps waiting until the timer fires.
- `getTerminalThemeSync` consults no terminal allow-list and no override; it only reads the child's exit status and output.
- The child probe normalises each channel by scaling (`value / (16^n - 1) * 255`).
  The querier normalises by keeping the first two digits.
  The two can differ by one (`OscResponse.NormalizationsClose`).

## Model

| member | source | states |
|---|---|---|
| Types.LevelOfRank | src/types.ts:1-24 | the colour level with a given enum value has that value as its rank |
| Types.RankInjective | src/types.ts:1-24 | distinct colour levels have distinct enum values |
| Types.ThemeTokenInjective | src/types.ts:19 | the three terminal theme tokens are distinct |
| Types.ParseConsoleMethod | src/types.ts:10-12 | a name reads as a console method exactly when `isConsoleMethod` accepts it, and then as the method with that name |
| Types.MethodNameRoundTrip | src/types.ts:1-12 | every console method's name passes `isConsoleMethod` and reads back as that method |
| Types.Lookup | src/types.ts:18 | a palette lookup finds a value exactly when the key is among the palette's keys |
| Types.Assign | src/types.ts:18 | after `obj[key] = value` the key reads as the value and every other key reads as before |
| Types.SpreadLookup | src/colorino.ts:119 | in `{...base, ...over}` a key of `over` reads from `over`, and any other key reads from `base` |
| Theme.ParseThemeName | src/theme.ts:11-25 | a string reads as a theme exactly when `isThemeName` accepts it, and then as the theme with that key |
| Theme.ThemeKeyRoundTrip | src/theme.ts:11-25 | each theme's key is a theme name and reads back as that theme |
| Theme.ThemeKeysUnique | src/theme.ts:11-18 | a theme name is the key of exactly one theme, and the six keys are pairwise distinct |
| Theme.DefaultsAreThemeNames | src/theme.ts:20-21 | the defaults are `minimal-dark` and `minimal-light`, both theme names |
| Theme.OptionsAreNotThemeNames | src/theme.ts:23-25 | the theme options `dark`, `light` and `auto` are not theme names |
| DetermineBaseTheme.DetermineBaseTheme | src/determine-base-theme.ts:4-22 | a theme name is kept; `light` and `dark` pick the matching default; any other option picks light only when the detected theme is `light` |
| DetermineBaseTheme.BaseThemeIsThemeName | src/determine-base-theme.ts:4-22 | the result is always a key of the theme table |
| DetermineBaseTheme.ExplicitChoiceIgnoresDetection | src/determine-base-theme.ts:10-15 | with a theme name, `light` or `dark` as the option, the detected theme does not matter |
| DetermineBaseTheme.AutoFollowsTerminal | src/determine-base-theme.ts:16-20 | with `auto`, a dark or light terminal picks the matching default and `unknown` falls back to dark |
| DetermineBaseTheme.ThemeNameKept | src/determine-base-theme.ts:10-11 | a theme name given as the option is the result whatever was detected |
| InputValidator.ValidateHex | src/input-validator.ts:6-14 | accepted exactly when the trimmed input is `#` and six hex digits in either case; the error quotes the untrimmed input |
| InputValidator.ValidatePalette | src/input-validator.ts:16-25 | accepted exactly when every entry validates; otherwise the error is that of the first invalid entry in key order |
| InputValidator.FormatHexValidates | src/input-validator.ts:6-14 | every colour written as `#rrggbb` validates |
| InputValidator.PaddedHexAccepted | src/input-validator.ts:8-9 | `#` and six hex digits, with white space on either side, is accepted |
| InputValidator.ValidHexBytes | src/input-validator.ts:6-14 | an accepted colour, padding included, converts to the three bytes its six digits spell |
| InputValidator.PaddedColorAccepted | src/tests/shared/input-validator.spec.ts:16-20 | `"  #AABBCC  "` is accepted |
| InputValidator.ShorthandRejected | src/tests/shared/input-validator.spec.ts:21-27 | `#123` is rejected with `Invalid hex color: '#123'` |
| InputValidator.ValidatePaletteExample | src/tests/shared/input-validator.spec.ts:47-54 | a palette with one invalid entry is rejected with that entry's message |
| ColorConverter.FindHex3 | src/color-converter.ts:41 | the leftmost position at or after `i` where three hex digits start, with no such position before it |
| ColorConverter.MatchHex | src/color-converter.ts:41 | no match exactly when no three hex digits occur; a match is six digits where six start, else three, at the leftmost such position |
| ColorConverter.HexToRgb | src/color-converter.ts:40-57 | input without three hex digits in a row converts to black |
| ColorConverter.SixDigitsValue | src/color-converter.ts:51-54 | shifting and masking the value of six hex digits yields their three digit pairs |
| ColorConverter.FormatHex | src/color-converter.ts:40-57 | writing a colour as `#rrggbb` gives `#` and six hex digits |
| ColorConverter.MatchAfterHash | src/color-converter.ts:41 | after a `#`, six hex digits are the match, whatever follows |
| ColorConverter.HexToRgbOfSixDigits | src/color-converter.ts:40-57 | a six-digit spelling converts to the bytes of its three digit pairs |
| ColorConverter.HexRoundTrip | src/color-converter.ts:40-57 | writing a colour as `#rrggbb` and converting it back gives the colour |
| ColorConverter.ShorthandExpands | src/color-converter.ts:47-49 | `#abc` converts like `#aabbcc`, to 17 times each digit's value |
| ColorConverter.HexExamples | src/tests/shared/color-converter.spec.ts:6-14 | `#f00` and `#ff0000` are red; `invalid` is black |
| ColorConverter.RgbaToRgb | src/color-converter.ts:59-61 | the first three components |
| ColorConverter.RgbToAnsi256 | src/color-converter.ts:63-77 | greys use 16 below 8, 231 above 248, else the ramp 232..255; other colours use the cube 16..231 |
| ColorConverter.CubeIndex | src/color-converter.ts:73-75 | a cube coordinate is between 0 and 5 |
| ColorConverter.CubeIndexNearest | src/color-converter.ts:73-75 | the cube coordinate is a nearest cube level `51 i` to the channel |
| ColorConverter.Ansi256CubeDecodes | src/color-converter.ts:71-76 | a non-grey code decodes back to three cube coordinates, each within half a step of its channel |
| ColorConverter.GreyRampNearest | src/color-converter.ts:65-69 | a grey's ramp step is a nearest step to the grey level |
| ColorConverter.Ansi256Examples | src/tests/shared/color-converter.spec.ts:27-36 | red is 196, black 16, white 231, mid grey 244 |
| ColorConverter.Bit | src/color-converter.ts:98-100 | `Math.round(c / 255)` is 1 exactly when the channel is at least 128 |
| ColorConverter.RgbToAnsi16 | src/color-converter.ts:87-107 | a code in 30..37 or 90..97; 30 when the brightest channel is below 64; bright exactly when it is at least 192 |
| ColorConverter.Ansi16Bits | src/color-converter.ts:96-100 | above the dark bucket, bits 0, 1 and 2 of the code are the red, green and blue channels that are at least half on |
| ColorConverter.Ansi16Examples | src/tests/shared/color-converter.spec.ts:24-26 | red is 91 |
| ColorConverter.HexConversionsAgree | src/color-converter.ts:109-114 | the hex conversions of a colour written as `#rrggbb` are the RGB conversions of the colour |
| ColorConverter.RgbaIgnoresAlpha | src/color-converter.ts:119-123 | the RGBA conversions ignore alpha and equal the RGB conversions of the first three components |
| ColorConverter.CompositionExamples | src/tests/shared/color-converter.spec.ts:15-47 | `#ff0000` and `[255, 0, 0, 0.5]` are 91 and 196 |
| TypeValidator.IsFormattableObject | src/type-validator.ts:64-71 | true exactly for a plain object or a CSS or `%o` marker; never an error, a colorized marker or a string |
| TypeValidator.FindSgr | src/type-validator.ts:60 | the first position at or after `i` where `ESC [ [0-9;]* m` starts, with none before it |
| TypeValidator.SgrStartsAtIff | src/type-validator.ts:60 | a match of `ESC [ [0-9;]* m` starts at `i` exactly when some run of parameters there is followed by `m` |
| TypeValidator.IsAnsiColoredString | src/type-validator.ts:57-62 | true exactly for a string holding `ESC [`, parameter characters and `m` somewhere |
| TypeValidator.WrappedIsAnsiColored | src/type-validator.ts:57-62 | a text wrapped in a colour escape and the reset is ANSI-coloured |
| TypeValidator.NoEscNotColored | src/type-validator.ts:57-62 | a string without ESC is never ANSI-coloured |
| TypeValidator.PositionSuffixIff | src/type-validator.ts:88 | the scanner finds a `:digits:digits` ending, with an optional `)`, exactly when the regular expression matches |
| TypeValidator.FrameCountAppend | src/type-validator.ts:82-96 | the frame-line count of two line lists together is the sum of their counts |
| TypeValidator.FrameCountPrefix | src/type-validator.ts:82-96 | a prefix of the lines has no more frame lines than the whole |
| TypeValidator.IsStackLikeString | src/type-validator.ts:73-99 | the loop, which stops at the second frame line, answers exactly whether the string has a newline and at least two frame lines |
| TypeValidator.BlankLinesIgnored | src/type-validator.ts:83 | inserting a line that trims to nothing, anywhere among the lines, leaves the frame-line count unchanged |
| TypeValidator.FrameCountPermutation | src/type-validator.ts:82-96 | the count depends only on the multiset of lines, not their order |
| TypeValidator.IndentedAtLine | src/type-validator.ts:79-87 | white space and then `at ...` is a frame line once trimmed |
| TypeValidator.StackLikeJoin | src/type-validator.ts:73-99 | lines joined by newlines are stack-like exactly when at least two are frame lines |
| TypeValidator.TwoFramesMakeStack | src/type-validator.ts:73-99 | a message and two frame lines make a stack |
| TypeValidator.OneFrameNoStack | src/type-validator.ts:93-98 | a message line that is not itself a frame line, followed by one more line, is never a stack |
| TypeValidator.SingleLineNoStack | src/type-validator.ts:77 | a string without a newline is never a stack |
| TypeValidator.IndentedFrameExample | src/type-validator.ts:86 | an indented `at f (a.js:1:2)` line is a frame line |
| TypeValidator.BareFrameExample | src/type-validator.ts:88-91 | `a.js:10:5` is a frame line |
| TypeValidator.MessageNotFrameExample | src/type-validator.ts:82-92 | `Error: boom` is not a frame line |
| JsNumber.DigitRun | src/node-color-support-detector.ts:77 | the leading digit run: all digits, and followed by a non-digit or the end |
| JsNumber.ParseInt | src/node-color-support-detector.ts:77 | `parseInt(s, 10)`: a number only if some digit is present, with the sign of the text |
| JsNumber.ParseIntNoDigits | src/node-color-support-detector.ts:77 | a string without any digit is `NaN` |
| JsNumber.ParseIntOfRendering | src/node-color-support-detector.ts:77 | white space, a sign and a decimal rendering, followed by a non-digit, read back as the number with that sign |
| JsNumber.RoundDiv | src/color-converter.ts:68-75 | `Math.round(n / d)` is the integer nearest `n / d`, halves rounding up |
| NodeColorSupportDetector.Get | src/node-color-support-detector.ts:27-34 | a variable reads as defined exactly when it is in the environment, with its value |
| NodeColorSupportDetector.NewDetector | src/node-color-support-detector.ts:18-55 | without a process nothing is read and the theme is `unknown`; otherwise the seven variables and the TTY flag are read; an override theme is kept and a non-TTY stdout gives `unknown` |
| NodeColorSupportDetector.GetColorLevel | src/node-color-support-detector.ts:65-135 | `NO_COLOR` wins; then `FORCE_COLOR` decides alone; then a non-TTY stdout without `CLICOLOR_FORCE` gets no colour. The later rules are stated by `PastGateColorful`, `TrueColorSignals` and `TermRules` |
| NodeColorSupportDetector.NoColorWins | src/node-color-support-detector.ts:66-68 | `NO_COLOR` with any value, the empty string included, gives no colour whatever else is set |
| NodeColorSupportDetector.ForceColorLevel | src/node-color-support-detector.ts:77-80 | `FORCE_COLOR` spelling a level 0..3, then any non-digit, gives exactly that level |
| NodeColorSupportDetector.ForcedLevelOfDigits | src/node-color-support-detector.ts:70-82 | a decimal rendering of a level, then anything not a digit, forces that level |
| NodeColorSupportDetector.ForceColorWords | src/node-color-support-detector.ts:71-76 | `false` disables colour and `true` gives ANSI |
| NodeColorSupportDetector.ForceColorOther | src/node-color-support-detector.ts:77-81 | a `FORCE_COLOR` that does not read as 0..3 gives ANSI |
| NodeColorSupportDetector.ForceColorIgnoresTTY | src/node-color-support-detector.ts:70-82 | under `FORCE_COLOR` neither the TTY flag nor `TERM=dumb` matters |
| NodeColorSupportDetector.NonTTYGate | src/node-color-support-detector.ts:84-93 | without `FORCE_COLOR`, a non-TTY stdout gives no colour exactly when `CLICOLOR_FORCE` is unset or `0`, or `TERM` is `dumb` |
| NodeColorSupportDetector.PastGateColorful | src/node-color-support-detector.ts:91-134 | past the gate the result is colourless exactly for `TERM=dumb`; every other path gives at least ANSI |
| NodeColorSupportDetector.TrueColorSignals | src/node-color-support-detector.ts:95-101 | `COLORTERM=truecolor` or `24bit`, or any `WT_SESSION`, gives truecolor before any `TERM` family rule |
| NodeColorSupportDetector.TermRules | src/node-color-support-detector.ts:103-124 | truecolor names, then the `-256`/`-256color` suffix, then the legacy ANSI families, in that order |
| NodeColorSupportDetector.NoProcess | src/node-color-support-detector.ts:22-25 | without a process: no colour and an unknown theme |
| NodeColorSupportDetector.ExampleXterm256 | src/tests/node/node-color-support-detector.spec.ts:126-130 | `TERM=xterm-256color` on a TTY is ANSI256 |
| NodeColorSupportDetector.ExampleColorTermTrueColor | src/node-color-support-detector.ts:95-97 | `COLORTERM=truecolor` outranks `TERM=xterm-256color` |
| NodeColorSupportDetector.ExampleXterm | src/tests/node/node-color-support-detector.spec.ts:132-136 | `TERM=xterm` is ANSI |
| NodeColorSupportDetector.ExampleForceBeatsDumb | src/node-color-support-detector.ts:70-82 | `FORCE_COLOR=2` beats `TERM=dumb` and a non-TTY stdout |
| NodeColorSupportDetector.ExampleCliColorForce | src/tests/node/node-color-support-detector.spec.ts:114-124 | `CLICOLOR_FORCE=1` opens the gate for a non-TTY stdout |
| BrowserColorSupportDetector.GetColorLevel | src/browser-color-support-detector.ts:19-34 | 256 colours exactly when there is a window and a non-empty user agent, no colour otherwise |
| BrowserColorSupportDetector.GetTheme | src/browser-color-support-detector.ts:36-57 | an override wins; without a browser or `matchMedia` the theme is unknown |
| BrowserColorSupportDetector.ThemeOfMediaQueries | src/browser-color-support-detector.ts:41-56 | without an override: dark exactly when the dark query matches, light exactly when only the light one does, unknown otherwise |
| BrowserColorSupportDetector.LevelIgnoresUserAgent | src/browser-color-support-detector.ts:28-33 | any non-empty user agent gives the same level, 256 colours |
| BrowserColorSupportDetector.DetectorExamples | src/browser-color-support-detector.ts:19-57 | a browser preferring both schemes is dark; no window, or an empty user agent, gives no colour |
| OscResponse.HexRun | src/osc-theme-querier.ts:85 | the run of hex digits at a position: all hex digits, followed by a non-hex character or the end |
| OscResponse.SlashGroup | src/osc-theme-querier.ts:85 | a group followed by `/` is two to four hex digits right before the `/` |
| OscResponse.LastGroup | src/osc-theme-querier.ts:85 | the last group is two to four hex digits, as many as there are up to four |
| OscResponse.MatchAt | src/osc-theme-querier.ts:84-86 | the match attempt at a position gives three groups of two to four hex digits |
| OscResponse.MatchAtCorrect | src/osc-theme-querier.ts:84-86 | the attempt at `i` succeeds with the captures `c` exactly when `rgb:` and the three groups with slashes occur at `i` |
| OscResponse.FindFirst | src/osc-theme-querier.ts:84-86 | the first successful attempt, with none before it |
| OscResponse.Attempts | src/osc-theme-querier.ts:84-86 | the attempt at each position of the buffer |
| OscResponse.MatchRgb | src/osc-child-probe.js:36-38 | `buffer.match(...)` gives three groups of two to four hex digits |
| OscResponse.MatchRgbCorrect | src/osc-theme-querier.ts:84-90 | something is found exactly when some position holds a match, and what is found is the leftmost match |
| OscResponse.MatchRgbNone | src/osc-theme-querier.ts:88-90 | no match found means no position holds a match |
| OscResponse.IntroducerNoMatch | src/osc-theme-querier.ts:84-86 | no attempt succeeds inside the `ESC ] 11 ;` introducer |
| OscResponse.ReplyParses | src/osc-theme-querier.ts:84-94 | a reply ended by BEL or `ESC \` parses to its own three groups |
| OscResponse.PadNormalize | src/osc-theme-querier.ts:101-104 | `_normalizeHex`: a byte, the value of the first two digits |
| OscResponse.ScaleNormalize | src/osc-child-probe.js:44-48 | the child's `normalize` of a two-to-four-digit group always lands in `0 .. 255` |
| OscResponse.NormalizationsClose | src/osc-child-probe.js:44-48 | the two normalisations agree on two-digit groups and never differ by more than one |
| OscResponse.FullIntensity | src/osc-theme-querier.ts:101-104 | `ff`, `fff` and `ffff` are 255 under both normalisations |
| OscResponse.Classify | src/osc-theme-querier.ts:96-112 | dark exactly when the luminance is below one half; never unknown |
| OscResponse.ClassifyMonotone | src/osc-theme-querier.ts:106-112 | darkening any channel never turns a dark background light |
| OscThemeQuerier.ParseResponse | src/osc-theme-querier.ts:81-99 | an error exactly when the buffer holds no match, with the "no valid OSC response" message; a match is classified dark or light |
| OscThemeQuerier.ParseReply | src/osc-theme-querier.ts:81-112 | a reply parses to the classification of the first two digits of its groups |
| OscThemeQuerier.ParseDarkExample | src/tests/node/osc-theme-querier.integration.spec.ts:43-53 | `0a/0b/0c` is dark |
| OscThemeQuerier.ParseBlackExample | src/tests/node/osc-theme-querier.spec.ts:104-117 | `00/00/00` is dark |
| OscThemeQuerier.ParseLightExample | src/tests/node/osc-theme-querier.integration.spec.ts:55-64 | `ff/fa/f1` is light |
| OscThemeQuerier.Begin | src/osc-theme-querier.ts:41-78 | after set-up the exchange remembers the raw mode seen before it began, is in raw mode with the listener attached, has read nothing and has not settled; the timer is the trace's `Timeout` event and the write is in `OscThemeQuerier.Query` |
| OscThemeQuerier.Step | src/osc-theme-querier.ts:47-72 | an event never changes the remembered raw mode, and a settled exchange ignores every event |
| OscThemeQuerier.StepValid | src/osc-theme-querier.ts:47-72 | every event keeps the exchange's invariant: settled exactly when the listener is detached, with the raw mode restored; a late `Timeout` has no effect (`OscThemeQuerier.SettledStays`) |
| OscThemeQuerier.RunAppend | src/osc-theme-querier.ts:56-72 | running two traces one after the other is running their concatenation |
| OscThemeQuerier.SettledStays | src/osc-theme-querier.ts:47-49 | once settled, later chunks and timer events change nothing |
| OscThemeQuerier.RawModeRestored | src/osc-theme-querier.ts:43-53 | once settled, the raw mode seen before the query is restored and the listener removed |
| OscThemeQuerier.StepPending | src/osc-theme-querier.ts:56-65 | a pending exchange stays pending exactly when the event is a chunk after which the buffer still does not parse |
| OscThemeQuerier.PendingIff | src/osc-theme-querier.ts:56-72 | the exchange is pending exactly when no prefix of the input parses and the timer has not fired; the buffer then holds all input delivered |
| OscThemeQuerier.FirstParseWins | src/osc-theme-querier.ts:59-64 | the first chunk after which the accumulated input parses settles the query with that parse, whatever follows |
| OscThemeQuerier.TimeoutWins | src/osc-theme-querier.ts:67-72 | the timer firing while pending settles the query with the timeout error, whatever follows |
| OscThemeQuerier.TimeoutMessageNamesTimeout | src/osc-theme-querier.ts:70 | the timeout error's message names the timeout |
| OscThemeQuerier.Settles | src/osc-theme-querier.ts:67-72 | since the timer always fires, the exchange always settles |
| OscThemeQuerier.PerformQuery | src/osc-theme-querier.ts:41-79 | the query always settles with the listener removed and the raw mode restored |
| OscThemeQuerier.NewQuerier | src/osc-theme-querier.ts:11-16 | the default timeout is 300 ms and the cache TTL one hour, with an empty cache |
| OscThemeQuerier.Query | src/osc-theme-querier.ts:18-39 | without a TTY the "not a TTY" error, nothing written; a fresh cache answers; otherwise the exchange runs and its result is cached with the time |
| OscThemeQuerier.QueryResultOfTrace | src/osc-theme-querier.ts:33-38 | an uncached query answers with the first parsable reply, or with the timeout error when the timer fires first |
| OscThemeQuerier.SecondQueryCached | src/osc-theme-querier.ts:25-31 | a second query, made after the first settled and within the TTL, answers with the first answer, ok or error, and writes nothing |
| OscThemeQuerier.ExpiredQueryRequeries | src/osc-theme-querier.ts:25-36 | past the TTL the query goes to the terminal again |
| OscThemeQuerier.NotTtyBeforeCache | src/osc-theme-querier.ts:19-21 | the TTY check comes before the cache |
| OscThemeQuerier.QueryReplyExamples | src/tests/node/osc-theme-querier.spec.ts:83-101 | a fresh querier answers dark for a dark reply and light for a light one |
| OscThemeQuerier.QueryCacheExample | src/tests/node/osc-theme-querier.spec.ts:104-117 | after `00/00/00` a second query answers dark and only one query was written |
| OscThemeQuerier.QueryTimeoutExample | src/tests/node/osc-theme-querier.spec.ts:123-131 | a silent terminal gives the timeout error |
| OscChildProbe.Decide | src/osc-child-probe.js:27-56 | wait exactly while the buffer lacks `]11;rgb:` or a terminator; `unknown` exactly when terminated without a match |
| OscChildProbe.DecideAgreesWithQuerier | src/osc-child-probe.js:30-55 | the child answers `unknown` exactly when the querier's parse fails; on two-digit groups both classify alike |
| OscChildProbe.DecideReply | src/osc-child-probe.js:27-56 | a complete reply finishes with the classification of its scaled groups |
| OscChildProbe.DecideWhiteReplies | src/osc-child-probe.js:44-55 | full-intensity two-digit and four-digit replies read as light |
| OscChildProbe.FinishWith | src/osc-child-probe.js:13-25 | the first `finish` prints the token and a newline and exits; later calls change nothing |
| OscChildProbe.ProbeMain | src/osc-child-probe.js:1-66 | without a TTY or `setRawMode` it prints `unknown` and writes nothing; otherwise it writes the OSC 11 query to stderr |
| OscChildProbe.FinishOnce | src/osc-child-probe.js:13-15 | once finished, later chunks and timer events change nothing |
| OscChildProbe.ProbeRunAppend | src/osc-child-probe.js:27-66 | running two traces one after the other is running their concatenation |
| OscChildProbe.ProbeOutputIsToken | src/osc-child-probe.js:1-66 | on every path the probe prints exactly one of `dark`, `light` or `unknown` and a newline |
| OscChildProbe.WaitingRun | src/osc-child-probe.js:27-34 | while waiting the probe has printed nothing and its buffer holds all input delivered |
| OscChildProbe.FirstDecisionWins | src/osc-child-probe.js:27-56 | the first chunk that leaves a terminated buffer decides the output, whatever follows |
| OscChildProbe.TimeoutPrintsUnknown | src/osc-child-probe.js:64-66 | the timer firing while waiting prints `unknown`, whatever follows |
| OscChildProbe.SilentTerminalExample | src/osc-child-probe.js:64-66 | with no reply at all the probe prints `unknown` |
| OscChildProbe.BlackReplyExample | src/osc-child-probe.js:27-56 | a single `00/00/00` reply prints `dark` |
| OscThemeSync.ThemeOfSpawn | src/osc-theme-sync.ts:9-27 | a spawn error or non-zero status is `unknown`; otherwise the trimmed output is the theme if it is `dark` or `light`, else `unknown` |
| OscThemeSync.TokenLineRoundTrip | src/osc-theme-sync.ts:22-25 | each line the probe prints reads back as the theme it names |
| OscThemeSync.SyncReadsProbe | src/osc-theme-sync.ts:9-27 | whatever the probe did, a clean exit yields the theme it printed |
| OscThemeSync.SyncPaddedLight | src/osc-theme-sync.ts:22-25 | surrounding white space is ignored |
| OscThemeSync.SyncOtherWord | src/osc-theme-sync.ts:23-27 | any other word is `unknown` |
| AbstractColorino.NewLogger | src/abstract-colorino.ts:17-30 | construction succeeds exactly when every palette entry validates; otherwise it throws the validator's error |
| AbstractColorino.LoggerPaletteBytes | src/abstract-colorino.ts:17-30 | each colour of a constructed logger converts to the bytes it spells |
| AbstractColorino.ConsoleTarget | src/abstract-colorino.ts:32-60 | each method prints through the console method of the same name, except `trace`, which prints through `console.log` |
| AbstractColorino.Colorize | src/abstract-colorino.ts:62-82 | the plain text exactly when there is no colour or, outside a browser, no prefix; a colorized marker holding the text and hex exactly in a coloured browser; otherwise the prefix, the text and the reset |
| AbstractColorino.Sanitize | src/abstract-colorino.ts:101-145 | a primitive is itself; a reference already seen is `[Circular]`; one at the depth limit is `[Object]`; any other keeps its record or array shape. The visited set only grows, and the result is no deeper than the depth left |
| AbstractColorino.SanitizeItems | src/abstract-colorino.ts:107-109 | one sanitised item per item, each within the depth bound |
| AbstractColorino.SanitizeFields | src/abstract-colorino.ts:111-120 | one sanitised field per key, with the same keys in the same order |
| AbstractColorino.SanitizeArg | src/abstract-colorino.ts:101-145 | strings and primitives pass unchanged; an object at the depth limit is `[Object]`; the result is within the depth bound |
| AbstractColorino.SelfReferenceExample | src/abstract-colorino.ts:130 | an object holding itself prints the inner reference as `[Circular]` |
| AbstractColorino.SharedReferenceExample | src/abstract-colorino.ts:105-131 | an object reached twice without a cycle is also `[Circular]` the second time |
| AbstractColorino.DepthLimitExample | src/abstract-colorino.ts:133 | with `maxDepth` 1 a nested object is `[Object]` |
| AbstractColorino.StackOf | src/abstract-colorino.ts:152-156 | a string is the stack exactly when it is stack-like, and then it is used unchanged; a string that is not stack-like gives `''` |
| AbstractColorino.FilterLines | src/abstract-colorino.ts:165-176 | the kept lines are an ordered subsequence of the input, each kept by the rule, and every input line the rule keeps is among them |
| AbstractColorino.FilterLinesCounts | src/abstract-colorino.ts:165-176 | each line the rule keeps survives exactly as often as it occurs in the input and no other line survives; with the subsequence clause of `FilterLines` this fixes the result |
| AbstractColorino.FilterStack | src/abstract-colorino.ts:147-181 | nothing without a stack text |
| AbstractColorino.FilterStackWithHeader | src/abstract-colorino.ts:159-179 | with a header, the result's lines are the header verbatim and then the kept lines in order |
| AbstractColorino.FilterStackWithoutHeader | src/abstract-colorino.ts:162-180 | without a header, and when some line is kept, the result's lines are exactly the kept lines |
| AbstractColorino.DefaultKeepLine | src/abstract-colorino.ts:148-175 | by default only lines mentioning colorino, in any case, are dropped |
| AbstractColorino.InvertedKeepLine | src/abstract-colorino.ts:148-175 | showing colorino frames and hiding node frames drops exactly the lines mentioning `node:` |
| AbstractColorino.HeaderMentioningColorinoKept | src/abstract-colorino.ts:162-179 | a header line survives even when it mentions colorino |
| AbstractColorino.CleanErrorStackAsWritten | src/abstract-colorino.ts:183-190 | the message is kept; an error without a stack is unchanged; a non-empty stack that is not stack-like ends up empty |
| AbstractColorino.CleanAgreesOnStackLike | src/abstract-colorino.ts:183-190 | on a stack-like stack the cleaning as written equals the intended cleaning, so only stacks with fewer than two frames are affected |
| AbstractColorino.OneFrameStackWiped | src/abstract-colorino.ts:183-190 | an error with a one-frame stack loses its whole stack |
| AbstractColorino.OneFrameStackWipedExample | src/abstract-colorino.ts:183-190 | `Error: boom` with one `at` line loses its stack |
| AbstractColorino.CleanErrorStack | src/abstract-colorino.ts:183-190 | the message is kept; an error without a stack is unchanged; otherwise the stack becomes the error's stack filtered as an error's stack, header included |
| AbstractColorino.CleanErrorStackKeepsHeader | src/abstract-colorino.ts:183-190 | the cleaned stack's first line is the error's header and its other lines are exactly the filtered frame lines |
| AbstractColorino.BuildCallerStack | src/abstract-colorino.ts:192-201 | nothing exactly when the fresh error has no stack or an empty one |
| AbstractColorino.CallerStackDropsHeader | src/abstract-colorino.ts:195-200 | the caller stack is the filter of everything after the first line |
| ColorinoNode.ForegroundOf | src/colorino-node.ts:119-133 | truecolor takes the hex colour's bytes; 256 colours a code in 16..255; every other level a code in 30..37 or 90..97 |
| ColorinoNode.ForegroundParams | src/colorino-node.ts:119-133 | the parameter text of a foreground consists of digits and `;` only |
| ColorinoNode.DecodeEncode | src/colorino-node.ts:119-133 | decoding an escape undoes building it |
| ColorinoNode.ToAnsiPrefix | src/colorino-node.ts:111-134 | empty exactly without colour; otherwise an SGR escape |
| ColorinoNode.ToAnsiPrefixDecodes | src/colorino-node.ts:111-134 | the escape decodes to the level's foreground for the hex colour |
| ColorinoNode.PrefixedIsColored | src/colorino-node.ts:71 | an escape and the reset around a text make an ANSI-coloured string |
| ColorinoNode.Fg24Escape | src/colorino-node.ts:122 | the truecolor escape is `ESC[38;2;r;g;bm` |
| ColorinoNode.Fg256Escape | src/colorino-node.ts:126 | the 256-colour escape is `ESC[38;5;codem` |
| ColorinoNode.Fg16Escape | src/colorino-node.ts:131 | the 16-colour escape is `ESC[codem` |
| ColorinoNode.TrueColorPrefixExample | src/tests/node/colorino.spec.ts:51-63 | `#ff5733` in truecolor is `ESC[38;2;255;87;51m` |
| ColorinoNode.Ansi256PrefixExample | src/tests/node/colorino.spec.ts:65-77 | `#00ff00` in 256 colours is `ESC[38;5;46m` |
| ColorinoNode.Ansi16PrefixExample | src/tests/node/colorino.spec.ts:79-93 | `#00ff00` in 16 colours is `ESC[92m` |
| ColorinoNode.ColorAll | src/colorino-node.ts:65-72 | one result per argument, each coloured by the same rule |
| ColorinoNode.ApplyColors | src/colorino-node.ts:56-73 | same length; nothing changes without a prefix; non-strings and ANSI-coloured strings are kept; other strings are wrapped in the prefix and the reset |
| ColorinoNode.ApplyColorsIdempotent | src/colorino-node.ts:56-73 | colouring twice is colouring once |
| ColorinoNode.ProcessOne | src/colorino-node.ts:87-101 | an error gives exactly a newline and the error as the base `cleanErrorStack` as written leaves it; an object gives its formatted text after a newline; a string right after an object or error gains a leading newline; anything else passes unchanged; nothing formattable is left |
| ColorinoNode.ProcessFrom | src/colorino-node.ts:83-105 | one entry per argument plus one per error, with no formattable object left |
| ColorinoNode.ProcessAppend | src/colorino-node.ts:83-105 | the pass over two runs of arguments is the pass over each, the `previousWasObject` flag carried across |
| ColorinoNode.ProcessPlainUnchanged | src/colorino-node.ts:95-100 | arguments with no object or error pass through unchanged |
| ColorinoNode.ObjectThenStringExample | src/tests/node/colorino.spec.ts:263-275 | an object and then a string: both start on a new line |
| ColorinoNode.ErrorThenStringExample | src/tests/node/colorino.spec.ts:317-328 | an error becomes a newline and the error as the as-written `cleanErrorStack` leaves it, and the string after it starts on a new line |
| ColorinoNode.OneFrameErrorLogged | src/colorino-node.ts:91-92 | `_processArgs` turns `Error: boom` with one frame into a newline and the error with its message and an empty stack |
| ColorinoNode.NodeColorizeAsWritten | src/abstract-colorino.ts:78-81 | as written, the refactored `colorize` in Node always returns the bare text |
| ColorinoNode.NodeColorize | src/colorino.ts:86-108 | the bare text without colour; otherwise the prefix, the text and the reset, an ANSI-coloured string |
| ColorinoNode.ColorizeFindingExample | src/tests/node/colorino.spec.ts:463-479 | in truecolor, `colorize('OVERRIDE', '#ff5733')` as written is the bare text, where the escape-wrapped text is meant |
| ColorinoNode.Gradient | src/colorino-node.ts:24-54 | plain text without colour or with only 16 colours; otherwise text ending in the reset |
| ColorinoNode.GradientStripsToText | src/colorino-node.ts:33-53 | removing the escapes from a gradient gives the text back |
| ColorinoBrowser.Declarations | src/colorino-browser.ts:72-81 | every truthy property gives a declaration, and there are no more declarations than properties |
| ColorinoBrowser.DeclarationsCons | src/colorino-browser.ts:72-81 | a truthy property in front contributes its declaration in front of the rest's |
| ColorinoBrowser.DeclarationsAppend | src/colorino-browser.ts:72-81 | the declarations of two property lists in a row are the first list's then the second's; with `DeclarationsCons` and `FalsyDropped` this fixes their order and multiplicity |
| ColorinoBrowser.DeclarationsFromTruthy | src/colorino-browser.ts:72-81 | every declaration comes from a truthy property |
| ColorinoBrowser.NormalizeCssStyle | src/colorino-browser.ts:67-84 | text is used as it is; an object gives its declarations joined by `;`, so `''` when no property is truthy |
| ColorinoBrowser.NormalizeSplits | src/colorino-browser.ts:67-84 | splitting the CSS text at `;` gives back the declarations in order, when no name or value holds `;` |
| ColorinoBrowser.FalsyDropped | src/colorino-browser.ts:77-78 | a falsy property contributes nothing |
| ColorinoBrowser.CssObjectExample | src/tests/browser/colorino.spec.ts:190-205 | the test suite's object style is `color:red;background-color:black;font-weight:bold` |
| ColorinoBrowser.ApplyCss | src/colorino-browser.ts:50-65 | plain text without colour; otherwise a CSS marker holding the text and the normalised style |
| ColorinoBrowser.Gradient | src/colorino-browser.ts:29-48 | plain text without colour; otherwise a CSS marker whose style names both colours |
| ColorinoBrowser.GradientCssContains | src/colorino-browser.ts:41 | the gradient style holds both colours and the `linear-gradient` |
| ColorinoBrowser.FormatArg | src/colorino-browser.ts:95-122 | an argument with a style placeholder gives a CSS string |
| ColorinoBrowser.FormatArgs | src/colorino-browser.ts:95-123 | one value per argument, in argument order |
| ColorinoBrowser.ApplyColors | src/colorino-browser.ts:86-128 | no arguments are kept as they are; otherwise the format string, then one value per argument in order |
| ColorinoBrowser.SlotsOf | src/colorino-browser.ts:95-123 | one placeholder kind per argument, in order |
| ColorinoBrowser.FormatStringSlots | src/colorino-browser.ts:95-127 | the placeholders of the format string are the arguments' kinds, in order |
| ColorinoBrowser.PlaceholdersMatchArgs | src/colorino-browser.ts:86-128 | the k-th placeholder consumes the k-th value: a CSS string for every `%c` |
| ColorinoBrowser.OverrideExample | src/tests/browser/colorino.spec.ts:85-97 | a colorized override and then a plain string |
| ColorinoBrowser.ProcessOne | src/colorino-browser.ts:138-166 | an error gives exactly a newline and the error as the base `cleanErrorStack` as written leaves it; an object is wrapped for `%o`; a string right after an object or error gains a leading newline; markers, other primitives and other strings pass unchanged; no plain object is left |
| ColorinoBrowser.ProcessFrom | src/colorino-browser.ts:134-170 | one entry per argument plus one per error |
| ColorinoBrowser.OneFrameErrorLogged | src/colorino-browser.ts:157-158 | in the browser too, `_processArgs` turns `Error: boom` with one frame into a newline and the error with its message and an empty stack |
| ColorinoBrowser.ProcessWrapsObjects | src/colorino-browser.ts:149-155 | no plain object is left: each one is wrapped for `%o` |
| ColorinoBrowser.ProcessAppend | src/colorino-browser.ts:134-170 | the pass over two runs of arguments is the pass over each, the flag carried across |
| ColorinoBrowser.ProcessPlainUnchanged | src/colorino-browser.ts:138-166 | markers, strings and primitives pass unchanged when no object or error precedes them |
| ColorinoBrowser.OrderExample | src/tests/browser/colorino.spec.ts:120-139 | strings, colorized markers and an object in the test suite's order |
| ColorinoBrowser.CssFormattedAsStyle | src/tests/browser/colorino.spec.ts:176-188 | `_processArgs` then `_applyColors` turn a `css` style into `%c<text>` and its CSS |
| Colorino.SanitizerOptions | src/colorino.ts:141-144 | the legacy sanitiser reads only `maxDepth`, 5 by default |
| Colorino.DetectColorSupport | src/colorino.ts:122-131 | a browser detector gives its level; otherwise a Node process gives the Node level, and anything else is `UnknownEnv` |
| Colorino.MaybeWarnUser | src/colorino.ts:133-139 | the warning goes out unless it already has, and the instance is marked as warned |
| Colorino.WarnsAtMostOnce | src/colorino.ts:133-139 | however often asked, an instance warns at most once, and only if it had not warned before |
| Colorino.NewLogger | src/colorino.ts:29-60 | construction succeeds exactly when every palette entry validates, with the first invalid entry's error otherwise; the level is the detected one; an `UnknownEnv` level warns once unless warnings are disabled; the logger follows the terminal theme exactly under `auto` in Node |
| Colorino.BrowserNeverWarns | src/tests/browser/colorino.spec.ts:37-40 | a browser logger never warns |
| Colorino.ApplyResolvedTheme | src/colorino.ts:115-120 | only the palette changes |
| Colorino.ResolvedThemeLookup | src/colorino.ts:115-120 | user entries override the base theme's; every other key has the base theme's value |
| Colorino.ExplicitThemeIgnoresTerminal | src/colorino.ts:115-120 | with an explicit theme the reported terminal theme does not matter |
| Colorino.ToAnsiPrefix | src/colorino.ts:266-289 | empty exactly without colour; otherwise it starts with ESC and ends with `m` |
| Colorino.ToAnsiPrefixAgrees | src/colorino.ts:266-289 | the legacy and refactored prefixes agree for every level and hex colour |
| Colorino.Colorize | src/colorino.ts:86-108 | the plain text without colour; a marker in a browser; an ANSI-coloured string in Node |
| Colorino.ColorizeMatchesNode | src/colorino.ts:86-108 | outside a browser the legacy `colorize` is the corrected Node one |
| Colorino.ProcessOne | src/colorino.ts:181-213 | an error gives two entries, anything else one; a colorized marker passes unchanged; in a browser an object is wrapped for `%o` |
| Colorino.ProcessFrom | src/colorino.ts:177-217 | one entry per argument plus one per error |
| Colorino.ProcessMatchesNode | src/colorino.ts:177-217 | outside a browser, with no error, the legacy pass is the Node subclass's |
| Colorino.ProcessMatchesBrowser | src/colorino.ts:177-217 | in a browser, with no error and no CSS marker, the legacy pass is the browser subclass's |
| Colorino.CssMarkerTreatedAsObject | src/colorino.ts:184-200 | the legacy pass wraps a CSS marker as an object, where the browser subclass keeps it as a style |
| Colorino.ApplyBrowserColors | src/colorino.ts:219-264 | no arguments are kept as they are; otherwise the format string and one value per argument |
| Colorino.FormatStringAgrees | src/colorino.ts:232-263 | without CSS markers the legacy format string is the refactored one |
| Colorino.ValuesPermuted | src/colorino.ts:223-263 | the legacy values are the refactored ones reordered, styles first and then objects |
| Colorino.BrowserSameValues | src/colorino.ts:219-264 | both generations pass the console the same format string and the same values, as multisets |
| Colorino.BrowserAgreesOnStyles | src/colorino.ts:219-264 | with only styled arguments the two generations agree exactly |
| Colorino.BrowserOrderMismatch | src/colorino.ts:219-264 | with an object before a string, the legacy `%o` receives the CSS text and `%c` receives the object |
| Colorino.FirstStringIndex | src/colorino.ts:296-298 | the first string's index, with no string before it; none when there is no string |
| Colorino.ApplyNodeColors | src/colorino.ts:291-320 | same length; only the first string can change; nothing changes without colour |
| Colorino.ApplyNodeColorsIdempotent | src/colorino.ts:291-320 | colouring twice is colouring once |
| Colorino.NodeAgreesOnFirstString | src/colorino.ts:291-320 | when every string after the first is already coloured, the legacy colouring is the refactored one |
| Colorino.SecondStringLeftPlain | src/colorino.ts:291-320 | of two plain strings the legacy class colours only the first, and the refactored one both |
| Colorino.FilterStackHidesColorino | src/colorino.ts:349-354 | no line of the result mentions colorino, every input line that does not mention it survives, and when any line survives the result's lines are exactly `FilterLines` of the input's, in order and with multiplicity |
| Colorino.UnmentionedStackUnchanged | src/colorino.ts:349-354 | a stack with no line mentioning colorino is unchanged |
| Colorino.FilterStackIdempotent | src/colorino.ts:349-354 | filtering twice is filtering once |
| Colorino.HeaderMentioningColorinoDropped | src/colorino.ts:349-354 | a header mentioning colorino is dropped with the frames |
| Colorino.CleanErrorStack | src/colorino.ts:356-366 | an error without a stack is returned as it is; otherwise the copy's stack is the filtered stack, and its message is empty, because `Object.assign` copies only enumerable properties and an error's own `message` is not enumerable |
| Colorino.CleanedStackHidesColorino | src/colorino.ts:356-366 | no line of a cleaned error's stack mentions colorino |
| Colorino.CleanKeepsUnmentionedStack | src/colorino.ts:356-366 | a stack that does not mention colorino survives cleaning unchanged, one-frame stacks included; only the message is lost, to the copy |
| Colorino.PrintCleanTrace | src/colorino.ts:368-377 | prints through `console.log` the arguments, followed by one more entry exactly when a non-empty stack is given |
| Colorino.Output | src/colorino.ts:322-325 | `trace` prints the clean trace; any other method prints the arguments through itself |
| Colorino.MethodOf | src/colorino.ts:328 | a console method name selects that method, and anything else `log` |
| Colorino.Out | src/colorino.ts:327-347 | prints through the method's console target; without colour, the processed arguments |
| Colorino.TraceHidesColorino | src/colorino.ts:368-377 | the trace line a `trace` call appends never mentions colorino |
| Text.Trim | src/input-validator.ts:8 | `trim()` is no longer than its input and neither starts nor ends with JavaScript white space |
| Text.TrimDropsOnlySpace | src/input-validator.ts:8 | the trim is a slice of the input with only JavaScript white space outside it |
| Text.TrimInfix | src/input-validator.ts:8 | the trim is an infix of the input |
| Text.TrimIdempotent | src/osc-theme-sync.ts:22 | trimming twice trims nothing more |
| Text.Split | src/type-validator.ts:79 | `split` on a one-character separator is never empty, and no piece holds the separator |
| Text.JoinSplit | src/type-validator.ts:79 | joining the pieces of a split restores the string |
| Text.SplitJoin | src/abstract-colorino.ts:159-180 | splitting a join of separator-free pieces gives the pieces back |
| Text.NatToString | src/colorino-node.ts:122-131 | a decimal rendering: at least one digit, all digits, and no leading zero |
| Text.DigitsValueOfNatToString | src/colorino-node.ts:122-131 | reading a decimal rendering back gives the number |
| Text.NatToStringInjective | src/colorino-node.ts:122-131 | distinct numbers render differently |

## Left out

- I/O: the console, `process.stdout`/`stdin`, `spawnSync`, timers and `Date.now()` are parameters, traces of events or results; nothing is printed.
- `hex.gradient` and `hslToRgb`: `hex.gradient` is called by `src/colorino-node.ts:34` but is not defined in `src/color-converter.ts`, and `hslToRgb` is floating-point arithmetic. The Node `gradient` takes its colour list as a parameter, and the HSL compositions are not modelled.
- `palettes.js` is not part of this model: the theme palettes are a parameter from theme name to palette.
- `onTheme` is not defined by the detector classes shown, so the legacy constructor only records that it would subscribe.
- The Node detector's live query: `query()` is `async` (src/osc-theme-querier.ts:18), so the constructor's `result` is a promise, which has no `isOk` method (src/node-color-support-detector.ts:53-54). As written, on a TTY with no theme override, the constructor throws a `TypeError`. Before it throws, `_performQuery` has already set raw mode, attached the listener, armed the timer and written the query, and that exchange keeps running. The model does not model the throw. It takes as the input `liveTheme` the theme the awaited query would settle with, which is evidently what was intended.
- OscThemeQuerier.Query: calls are modelled as not overlapping, each settling before the next begins. The source writes the cache only after `await this._performQuery()` (src/osc-theme-querier.ts:33-36). Two overlapping calls therefore both miss the cache and both write the query. Their exchanges also interleave raw mode on the one stdin: the second captures raw mode as already on and restores it on, leaving the terminal raw. None of this is modelled, and OscThemeQuerier.SecondQueryCached holds only for a second call made after the first settled.
- `enums.js`, `interfaces.js`, `errors.js`, the `index.ts`, `node.ts` and `browser.ts` entry points, and the build configuration hold no logic to model.
- Naming drift:
  - The subclasses read `_colorLevel` and `_palette` and call `_formatValue` and `_cleanErrorStack`. The base class declares none of these; it declares `colorLevel`, `palette`, `formatValue` and `cleanErrorStack`. The model treats each pair as one member, because the subclass name exists nowhere else. In particular, the subclasses clean errors with the base `cleanErrorStack` as written (`AbstractColorino.CleanErrorStackAsWritten`).
  - `_toAnsiPrefix` is kept apart from `toAnsiPrefix`. Here both names are defined: the base class defines `toAnsiPrefix` and calls it from `colorize`, and the Node subclass defines `_toAnsiPrefix`. So as written the call resolves to the base method, even though the Node method is marked `override`, and no base `_toAnsiPrefix` exists for it to override. This is Findings row 1.
  - `_printCleanTrace` is called by the Node `_output` for `trace`, but no counterpart exists in the base class. The base's caller-stack helper is `buildCallerStack`, and it is modelled (`AbstractColorino.BuildCallerStack`). The refactored `_output` of the two subclasses is not modelled; `trace` output is modelled in the legacy class (`Colorino.Output`, `Colorino.PrintCleanTrace`).
- Key order of `for ... in` is the order of the palette and object records; integer-like keys are not reordered first.
- `NaN`, infinities and fractional numbers in arguments and styles are left out: numbers are integers, and `parseInt`'s `NaN` is `None`.
- Lower-casing and the `i` flag of regular expressions fold only ASCII letters, which covers every pattern the code tests.
- `Math.round` is exact integer rounding of a rational, halves up. Luminance is compared exactly. A float computation could differ only on an exact tie.
- `isThemeName` uses `in`, which would also accept inherited property names such as `toString`. The model accepts only the six keys.
- `String` objects (`new String(...)`), symbols and functions as arguments are left out; a string is a primitive string.
- Shared references: the sanitiser's `seen` set spans the whole traversal. An object reached twice prints `[Circular]` the second time, as the code does (`AbstractColorino.SharedReferenceExample`).
- `formatArgs`: every logging method of the refactored base class calls `this.formatArgs` (src/abstract-colorino.ts:32-60). The base declares it abstract (src/abstract-colorino.ts:84-87), and neither src/colorino-node.ts nor src/colorino-browser.ts defines it. As written, every refactored logging call therefore fails on the missing method, and `_processArgs`, `_applyColors` and `_output` are never called. The model takes `_applyColors` applied to the result of `_processArgs` as the intended path, and its lemmas are about those two functions, not about a log call. This covers ColorinoNode.OneFrameErrorLogged, ColorinoBrowser.OneFrameErrorLogged and ColorinoBrowser.CssFormattedAsStyle.
- AbstractColorino.CleanErrorStackAsWritten: `cleanErrorStack` assigns `error.stack` on the caller's own error object and returns that object. The model returns the updated value; it does not model that the user's error object itself changes, so after a one-frame error is logged the user's own error has an empty stack too. The same holds for `AbstractColorino.CleanErrorStack`.
- Colorino.Out: states the console target, the colourless case and the shape of the browser case. The coloured Node case follows from `Colorino.ApplyNodeColors` and is not restated.
- Colorino.ApplyResolvedTheme: its ensures states only that nothing but the palette changes. What the palette becomes is in `Colorino.ResolvedThemeLookup`.
- ColorConverter.HexToRgb: its ensures states only the no-match case. The match cases are in `ColorConverter.HexToRgbOfSixDigits`, `ColorConverter.ShorthandExpands` and `ColorConverter.HexRoundTrip`.
- ColorinoBrowser.PlaceholdersMatchArgs: requires that no shown text holds `%`, because a `%` in the text would add placeholders the arguments do not fill.
- NodeColorSupportDetector.NewDetector: the live branch's theme is an input, and the `TypeError` the constructor throws there as written is not modelled; see above.

## Findings

| source | as written | input that shows it | evidently intended | confidence | as-written member | corrected member |
|---|---|---|---|---|---|---|
| src/abstract-colorino.ts:78-81, src/abstract-colorino.ts:97-99, src/colorino-node.ts:111 | `colorize` calls `toAnsiPrefix`, which the base class defines to return `''`; the Node subclass overrides `_toAnsiPrefix` instead, so `colorize` in Node always returns the bare text | truecolor, `colorize('OVERRIDE', '#ff5733')` | `ESC[38;2;255;87;51mOVERRIDE ESC[0m`, as the legacy class and the tests have it | not executed; medium: the snapshot's `override` has no base `_toAnsiPrefix` to override, so the two names were probably meant to be one, and if they are reconciled `colorize` colours as ColorinoNode.NodeColorize does | ColorinoNode.NodeColorizeAsWritten, ColorinoNode.ColorizeFindingExample | ColorinoNode.NodeColorize |
| src/abstract-colorino.ts:183-190, src/abstract-colorino.ts:152-157 | `cleanErrorStack` hands the stack to `filterStack` as a string, and a string survives only if it is stack-like (two frame lines), so a one-frame stack is replaced by `''` | `new Error('boom')` with stack `"Error: boom\n    at f (a.js:1:2)"` | the header and the frame kept, as for any error's stack | not executed; high for `cleanErrorStack` and `_processArgs`; a log call reaches them only once `formatArgs` is defined (see `formatArgs` under Left out) | AbstractColorino.CleanErrorStackAsWritten, AbstractColorino.OneFrameStackWiped, AbstractColorino.OneFrameStackWipedExample, ColorinoNode.OneFrameErrorLogged, ColorinoBrowser.OneFrameErrorLogged | AbstractColorino.CleanErrorStack, AbstractColorino.CleanErrorStackKeepsHeader |
| src/colorino.ts:219-264 | the legacy `_applyBrowserColors` emits every style value before every object value, but the format string interleaves `%c` and `%o` in argument order | `log({a: 1}, 'after')` in a coloured browser | the values in placeholder order, as the refactored browser class emits them | not executed; high | Colorino.ApplyBrowserColors, Colorino.BrowserOrderMismatch | ColorinoBrowser.ApplyColors, ColorinoBrowser.PlaceholdersMatchArgs |

=== FILE: abstract_colorino.dfy ===
/** The logger base class of the refactored generation: construction,
    `colorize`, the depth- and cycle-limited sanitiser behind `formatValue`,
    and the stack filtering used for errors and traces. */
module AbstractColorino {
  import opened Wrappers
  import opened Text
  import opened Types
  import opened Values
  import opened TypeValidator
  import opened InputValidator
  import opened ColorConverter

  /** The options the base class reads; `None` is an option left unset. */
  datatype Options = Options(
    maxDepth: Option<int>,
    areNodeFramesVisible: Option<bool>,
    areColorinoFramesVisible: Option<bool>)

  const NoOptions := Options(None, None, None)

  const DefaultMaxDepth: int := 5

  /** `options.maxDepth ?? 5`: only an unset option takes the default. */
  function MaxDepth(o: Options): int {
    if o.maxDepth.Some? then o.maxDepth.value else DefaultMaxDepth
  }

  /** `areNodeFramesVisible ?? true`. */
  predicate NodeFramesShown(o: Options) {
    if o.areNodeFramesVisible.Some? then o.areNodeFramesVisible.value else true
  }

  /** `areColorinoFramesVisible ?? false`. */
  predicate ColorinoFramesShown(o: Options) {
    if o.areColorinoFramesVisible.Some? then o.areColorinoFramesVisible.value else false
  }

  /** The state a logger keeps: its colour level, palette and options. */
  datatype Logger = Logger(level: Level, palette: Palette, options: Options)

  /** The constructor: a palette that fails validation makes it throw the
      validator's error. */
  function NewLogger(palette: Palette, level: Level, options: Options): (r: Result<Logger, string>)
    ensures r.Ok? <==> forall i :: 0 <= i < |palette| ==> ValidateHex(palette[i].value).Ok?
    ensures r.Ok? ==> r.value == Logger(level, palette, options)
    ensures r.Err? ==>
      exists i :: 0 <= i < |palette| && FirstInvalid(palette, i) && r.error == InvalidHexMessage(palette[i].value)
  {
    var v := ValidatePalette(palette);
    if v.Err? then Err(v.error) else Ok(Logger(level, palette, options))
  }

  /** A constructed logger's colours each read as the bytes they spell. */
  lemma {:induction false} LoggerPaletteBytes(palette: Palette, level: Level, options: Options, i: int)
    requires NewLogger(palette, level, options).Ok?
    requires 0 <= i < |palette|
    ensures IsHexColor(Trim(palette[i].value))
    ensures var d := Trim(palette[i].value)[1..];
      HexToRgb(palette[i].value) == Rgb(ByteOf(d[0], d[1]), ByteOf(d[2], d[3]), ByteOf(d[4], d[5]))
  {
    ValidHexBytes(palette[i].value);
  }

  /** `log`, `info`, `warn`, `error` and `debug` print through the console
      method of the same name; `trace` prints through `console.log`. */
  function ConsoleTarget(m: ConsoleMethod): (t: ConsoleMethod)
    ensures t != Trace
    ensures m != Trace ==> t == m
  {
    if m == Trace then Log else m
  }

  // ---------------------------------------------------------------
  // colorize
  // ---------------------------------------------------------------

  const Reset: string := [ESC] + "[0m"

  /** The base class's `toAnsiPrefix`. */
  function BaseToAnsiPrefix(hex: string): string {
    ""
  }

  /** `colorize`, given the prefix the receiver's `toAnsiPrefix(hex)`
      produced: plain text without colour, a marker in a browser, and the
      text between the prefix and the reset otherwise. */
  function Colorize(level: Level, isBrowser: bool, prefix: string, text: string, hex: string): (r: Arg)
    ensures r.Str? || r.Colorized?
    ensures r == Str(text) <==> IsColorless(level) || (!isBrowser && prefix == "")
    ensures r.Colorized? <==> !IsColorless(level) && isBrowser
    ensures r.Colorized? ==> r.text == text && r.hex == hex
    ensures r.Str? && r != Str(text) ==> r.s == prefix + text + Reset
  {
    if IsColorless(level) then Str(text)
    else if isBrowser then Colorized(text, hex)
    else if prefix == "" then Str(text)
    else Str(prefix + text + Reset)
  }

  // ---------------------------------------------------------------
  // formatValue: the sanitiser
  // ---------------------------------------------------------------

  /** What `sanitize` hands to `JSON.stringify`: primitives, strings (the
      two placeholders among them), arrays and records. */
  datatype Clean = CPrim(repr: string) | CStr(s: string) | CArray(items: seq<Clean>) | CRecord(fields: seq<CField>)

  datatype CField = CField(key: string, value: Clean)

  const CircularMark: string := "[Circular]"

  const ObjectMark: string := "[Object]"

  /** `c` nests at most `n` arrays or records deep. */
  predicate DepthAtMost(c: Clean, n: int)
    decreases c
  {
    match c
    case CArray(items) => n >= 1 && forall i :: 0 <= i < |items| ==> DepthAtMost(items[i], n - 1)
    case CRecord(fields) => n >= 1 && forall i :: 0 <= i < |fields| ==> DepthAtMost(fields[i].value, n - 1)
    case _ => true
  }

  /** The sanitised object keeps the kind, length and keys of the original. */
  predicate Shaped(o: Obj, c: Clean) {
    match o
    case ArrayObj(items) => c.CArray? && |c.items| == |items|
    case RecordObj(fields) =>
      c.CRecord? && |c.fields| == |fields| && forall i :: 0 <= i < |fields| ==> c.fields[i].key == fields[i].key
  }

  lemma {:induction false} SubsetCard(a: set<nat>, b: set<nat>)
    requires a <= b
    ensures |a| <= |b|
  {
    assert b == a + (b - a);
  }

  /** `sanitize(val, depth)` on a value inside an object, with the set of
      objects seen so far threaded through: the result and the new set.
      Objects are marked seen before the depth test, and the set is shared
      by the whole traversal. */
  function Sanitize(h: Heap, v: Value, depth: int, maxDepth: int, seen: set<nat>): (res: (Clean, set<nat>))
    requires Closed(h) && ValueIn(h, v) && seen <= h.Keys
    ensures seen <= res.1 <= h.Keys
    ensures DepthAtMost(res.0, maxDepth - depth)
    ensures v.Prim? ==> res == (CPrim(v.repr), seen)
    ensures v.Ref? && v.id in seen ==> res == (CStr(CircularMark), seen)
    ensures v.Ref? && v.id !in seen && depth >= maxDepth ==> res == (CStr(ObjectMark), seen + {v.id})
    ensures v.Ref? && v.id !in seen && depth < maxDepth ==> v.id in res.1 && Shaped(h[v.id], res.0)
    decreases |h.Keys - seen|, 0, 0
  {
    match v
    case Prim(repr) => (CPrim(repr), seen)
    case Ref(id) =>
      if id in seen then (CStr(CircularMark), seen)
      else
        var seen' := seen + {id};
        assert h.Keys - seen == (h.Keys - seen') + {id};
        if depth >= maxDepth then (CStr(ObjectMark), seen')
        else
          match h[id]
          case ArrayObj(items) =>
            var r := SanitizeItems(h, items, depth + 1, maxDepth, seen');
            (CArray(r.0), r.1)
          case RecordObj(fields) =>
            var r := SanitizeFields(h, fields, depth + 1, maxDepth, seen');
            (CRecord(r.0), r.1)
  }

  /** `items.map(item => sanitize(item, depth))`, left to right. */
  function SanitizeItems(h: Heap, items: seq<Value>, depth: int, maxDepth: int, seen: set<nat>): (res: (seq<Clean>, set<nat>))
    requires Closed(h) && seen <= h.Keys
    requires forall i :: 0 <= i < |items| ==> ValueIn(h, items[i])
    ensures seen <= res.1 <= h.Keys
    ensures |res.0| == |items|
    ensures forall i :: 0 <= i < |items| ==> DepthAtMost(res.0[i], maxDepth - depth)
    decreases |h.Keys - seen|, 1, |items|
  {
    if items == [] then ([], seen)
    else
      var first := Sanitize(h, items[0], depth, maxDepth, seen);
      SubsetCard(h.Keys - first.1, h.Keys - seen);
      var rest := SanitizeItems(h, items[1..], depth, maxDepth, first.1);
      ([first.0] + rest.0, rest.1)
  }

  /** The `for ... in` loop of `sanitizeObject`, in key order. */
  function SanitizeFields(h: Heap, fields: seq<Field>, depth: int, maxDepth: int, seen: set<nat>): (res: (seq<CField>, set<nat>))
    requires Closed(h) && seen <= h.Keys
    requires forall i :: 0 <= i < |fields| ==> ValueIn(h, fields[i].value)
    ensures seen <= res.1 <= h.Keys
    ensures |res.0| == |fields|
    ensures forall i :: 0 <= i < |fields| ==> res.0[i].key == fields[i].key
    ensures forall i :: 0 <= i < |fields| ==> DepthAtMost(res.0[i].value, maxDepth - depth)
    decreases |h.Keys - seen|, 1, |fields|
  {
    if fields == [] then ([], seen)
    else
      var first := Sanitize(h, fields[0].value, depth, maxDepth, seen);
      SubsetCard(h.Keys - first.1, h.Keys - seen);
      var rest := SanitizeFields(h, fields[1..], depth, maxDepth, first.1);
      ConsField(fields, first.0, rest.0, maxDepth - depth);
      ([CField(fields[0].key, first.0)] + rest.0, rest.1)
  }

  /** Putting the first sanitised field before the rest keeps the keys and
      the depth bound. */
  lemma {:induction false} ConsField(fields: seq<Field>, c: Clean, rest: seq<CField>, bound: int)
    requires fields != [] && |rest| == |fields| - 1 && DepthAtMost(c, bound)
    requires forall i :: 0 <= i < |rest| ==> rest[i].key == fields[1..][i].key
    requires forall i :: 0 <= i < |rest| ==> DepthAtMost(rest[i].value, bound)
    ensures var out := [CField(fields[0].key, c)] + rest;
      && |out| == |fields|
      && (forall i :: 0 <= i < |fields| ==> out[i].key == fields[i].key)
      && (forall i :: 0 <= i < |fields| ==> DepthAtMost(out[i].value, bound))
  {
  }

  /** An argument whose heap references all resolve. */
  predicate WellFormed(a: Arg) {
    match a
    case Obj(h, root) => Closed(h) && root in h
    case BrowserObj(v) => WellFormed(v)
    case _ => true
  }

  /** `sanitize` on an argument, with a fresh `seen` set. Only the
      string-keyed own properties of the library's markers are enumerable;
      an error has none. */
  function SanitizeArg(a: Arg, depth: int, maxDepth: int): (c: Clean)
    requires WellFormed(a)
    ensures DepthAtMost(c, maxDepth - depth)
    ensures a.Str? ==> c == CStr(a.s)
    ensures a.Other? ==> c == CPrim(a.repr)
    ensures !a.Str? && !a.Other? && depth >= maxDepth ==> c == CStr(ObjectMark)
  {
    match a
    case Str(s) => CStr(s)
    case Other(repr) => CPrim(repr)
    case Obj(h, root) => Sanitize(h, Ref(root), depth, maxDepth, {}).0
    case Exception(_, _) => if depth >= maxDepth then CStr(ObjectMark) else CRecord([])
    case Colorized(text, hex) =>
      if depth >= maxDepth then CStr(ObjectMark)
      else CRecord([CField("text", CStr(text)), CField("hex", CStr(hex))])
    case Css(text, css) =>
      if depth >= maxDepth then CStr(ObjectMark)
      else CRecord([CField("text", CStr(text)), CField("css", CStr(css))])
    case BrowserObj(v) =>
      if depth >= maxDepth then CStr(ObjectMark)
      else CRecord([CField("value", SanitizeArg(v, depth + 1, maxDepth))])
  }

  /** `formatValue`: `JSON.stringify` of the sanitised value, the rendering
      being left to `render`. */
  function FormatValue(render: Clean -> string, a: Arg, o: Options): string
    requires WellFormed(a)
  {
    render(SanitizeArg(a, 0, MaxDepth(o)))
  }

  /** An object holding itself prints the inner reference as `[Circular]`. */
  lemma {:induction false} SelfReferenceExample()
    ensures var h := map[0 := RecordObj([Field("self", Ref(0))])];
      Closed(h) && Sanitize(h, Ref(0), 0, 5, {}).0 == CRecord([CField("self", CStr(CircularMark))])
  {
    var h := map[0 := RecordObj([Field("self", Ref(0))])];
    var fields := [Field("self", Ref(0))];
    assert ObjClosed(h, h[0]);
    var first := Sanitize(h, fields[0].value, 1, 5, {0});
    assert first == (CStr(CircularMark), {0});
    var rest := SanitizeFields(h, fields[1..], 1, 5, first.1);
    assert fields[1..] == [];
    assert rest == ([], {0});
    assert SanitizeFields(h, fields, 1, 5, {0}) == ([CField(fields[0].key, first.0)] + rest.0, rest.1);
    assert {} + {0} == {0};
  }

  /** The `seen` set spans the whole traversal, so an object reached twice
      without any cycle is also printed as `[Circular]` the second time. */
  lemma {:induction false} SharedReferenceExample()
    ensures var h := map[0 := ArrayObj([Ref(1), Ref(1)]), 1 := RecordObj([])];
      Closed(h) && Sanitize(h, Ref(0), 0, 5, {}).0 == CArray([CRecord([]), CStr(CircularMark)])
  {
    var h := map[0 := ArrayObj([Ref(1), Ref(1)]), 1 := RecordObj([])];
    var items := [Ref(1), Ref(1)];
    assert ObjClosed(h, h[0]) && ObjClosed(h, h[1]);
    assert {0} + {1} == {0, 1};
    assert SanitizeFields(h, [], 2, 5, {0, 1}) == ([], {0, 1});
    var first := Sanitize(h, items[0], 1, 5, {0});
    assert first == (CRecord([]), {0, 1});
    var second := Sanitize(h, items[1..][0], 1, 5, first.1);
    assert second == (CStr(CircularMark), {0, 1});
    var last := SanitizeItems(h, items[1..][1..], 1, 5, second.1);
    assert items[1..][1..] == [];
    assert last == ([], {0, 1});
    var tail := SanitizeItems(h, items[1..], 1, 5, first.1);
    assert tail == ([second.0] + last.0, last.1);
    assert SanitizeItems(h, items, 1, 5, {0}) == ([first.0] + tail.0, tail.1);
    assert {} + {0} == {0};
  }

  /** With `maxDepth` 1 a nested object is cut off as `[Object]`. */
  lemma {:induction false} DepthLimitExample()
    ensures var h := map[0 := RecordObj([Field("a", Ref(1))]), 1 := RecordObj([])];
      Closed(h) && Sanitize(h, Ref(0), 0, 1, {}).0 == CRecord([CField("a", CStr(ObjectMark))])
  {
    var h := map[0 := RecordObj([Field("a", Ref(1))]), 1 := RecordObj([])];
    var fields := [Field("a", Ref(1))];
    assert ObjClosed(h, h[0]) && ObjClosed(h, h[1]);
    assert {0} + {1} == {0, 1};
    var first := Sanitize(h, fields[0].value, 1, 1, {0});
    assert first == (CStr(ObjectMark), {0, 1});
    var rest := SanitizeFields(h, fields[1..], 1, 1, first.1);
    assert fields[1..] == [];
    assert rest == ([], {0, 1});
    assert SanitizeFields(h, fields, 1, 1, {0}) == ([CField(fields[0].key, first.0)] + rest.0, rest.1);
    assert {} + {0} == {0};
  }

  // ---------------------------------------------------------------
  // filterStack, cleanErrorStack, buildCallerStack
  // ---------------------------------------------------------------

  /** What `filterStack` may be handed: a string, an error (with its
      optional stack), or nothing. */
  datatype StackInput = StackText(text: string) | StackOfError(stack: Option<string>) | NoStack

  /** The stack text `filterStack` works on: an error's stack, a stack-like
      string, and `''` for anything else. */
  function StackOf(input: StackInput): (s: string)
    ensures input.StackText? && s != "" ==> StackLike(input.text) && s == input.text
    ensures input.StackText? && StackLike(input.text) ==> s == input.text
  {
    match input
    case StackOfError(stack) => if stack.Some? then stack.value else ""
    case StackText(text) => if StackLike(text) then text else ""
    case NoStack => ""
  }

  /** A first line that does not start with `at ` once trimmed is a header. */
  predicate IsErrorHeader(line: string) {
    !StartsWith(Trim(line), "at ")
  }

  /** A line survives unless it mentions `colorino` or `node:` (in any
      case) while frames of that kind are hidden. */
  predicate KeepLine(o: Options, line: string) {
    var lower := Lower(line);
    !((!ColorinoFramesShown(o) && Contains(lower, "colorino")) || (!NodeFramesShown(o) && Contains(lower, "node:")))
  }

  /** The `filter` over the lines after the header. */
  function FilterLines(o: Options, lines: seq<string>): (r: seq<string>)
    ensures |r| <= |lines|
    ensures forall i :: 0 <= i < |r| ==> KeepLine(o, r[i]) && r[i] in lines
    ensures forall i :: 0 <= i < |lines| && KeepLine(o, lines[i]) ==> lines[i] in r
    ensures IsSubsequence(r, lines)
  {
    if lines == [] then []
    else
      var rest := FilterLines(o, lines[1..]);
      if KeepLine(o, lines[0]) then [lines[0]] + rest else rest
  }

  /** Every kept line survives as often as it occurs, and no other line
      survives; with the order `FilterLines` keeps, this fixes the result. */
  lemma {:induction false} FilterLinesCounts(o: Options, lines: seq<string>, x: string)
    ensures multiset(FilterLines(o, lines))[x] == if KeepLine(o, x) then multiset(lines)[x] else 0
  {
    if lines != [] {
      FilterLinesCounts(o, lines[1..], x);
      assert lines == [lines[0]] + lines[1..];
      assert multiset(lines) == multiset([lines[0]]) + multiset(lines[1..]);
      if KeepLine(o, lines[0]) {
        assert multiset([lines[0]] + FilterLines(o, lines[1..])) == multiset([lines[0]]) + multiset(FilterLines(o, lines[1..]));
      }
    }
  }

  /** `filterStack`: nothing without a stack; otherwise the header, if
      any, and the surviving lines, joined by newlines. */
  function FilterStack(o: Options, input: StackInput): (r: string)
    ensures StackOf(input) == "" ==> r == ""
  {
    var stack := StackOf(input);
    if stack == "" then ""
    else
      var lines := Split(stack, '\n');
      var firstLine := lines[0];
      if IsErrorHeader(firstLine) then Join([firstLine] + FilterLines(o, lines[1..]), "\n")
      else Join(FilterLines(o, lines), "\n")
  }

  /** Read back by lines, a filtered stack with a header is the header,
      verbatim, and then the surviving lines in their original order. */
  lemma {:induction false} FilterStackWithHeader(o: Options, input: StackInput)
    requires StackOf(input) != ""
    requires IsErrorHeader(Split(StackOf(input), '\n')[0])
    ensures var lines := Split(StackOf(input), '\n');
      var out := Split(FilterStack(o, input), '\n');
      |out| >= 1 && out[0] == lines[0] && out[1..] == FilterLines(o, lines[1..]) &&
      IsSubsequence(out, lines)
  {
    var lines := Split(StackOf(input), '\n');
    var parts := [lines[0]] + FilterLines(o, lines[1..]);
    assert forall k :: 0 <= k < |parts| ==> '\n' !in parts[k] by {
      forall k | 0 <= k < |parts| ensures '\n' !in parts[k] {
        if k > 0 {
          assert parts[k] in lines[1..];
        }
      }
    }
    SplitJoin(parts, '\n');
    assert parts[1..] == FilterLines(o, lines[1..]);
    assert lines[1..][..] == lines[1..];
  }

  /** Without a header every surviving line is a kept line of the input. */
  lemma {:induction false} FilterStackWithoutHeader(o: Options, input: StackInput)
    requires StackOf(input) != ""
    requires !IsErrorHeader(Split(StackOf(input), '\n')[0])
    requires FilterLines(o, Split(StackOf(input), '\n')) != []
    ensures Split(FilterStack(o, input), '\n') == FilterLines(o, Split(StackOf(input), '\n'))
  {
    var lines := Split(StackOf(input), '\n');
    var parts := FilterLines(o, lines);
    assert forall k :: 0 <= k < |parts| ==> '\n' !in parts[k] by {
      forall k | 0 <= k < |parts| ensures '\n' !in parts[k] {
        assert parts[k] in lines;
      }
    }
    SplitJoin(parts, '\n');
  }

  /** With the default options only `colorino` frames are dropped. */
  lemma {:induction false} DefaultKeepLine(line: string)
    ensures KeepLine(NoOptions, line) <==> !Contains(Lower(line), "colorino")
  {
  }

  /** Showing colorino frames and hiding node frames swaps the rule. */
  lemma {:induction false} InvertedKeepLine(maxDepth: Option<int>, line: string)
    ensures KeepLine(Options(maxDepth, Some(false), Some(true)), line) <==> !Contains(Lower(line), "node:")
  {
  }

  /** A header line survives even when it mentions colorino. */
  lemma {:induction false} HeaderMentioningColorinoKept(o: Options, header: string, rest: string)
    requires '\n' !in header && IsErrorHeader(header)
    ensures Split(FilterStack(o, StackOfError(Some(header + "\n" + rest))), '\n')[0] == header
  {
    var s := header + "\n" + rest;
    SplitFirst(header, rest);
    FilterStackWithHeader(o, StackOfError(Some(s)));
  }

  /** Splitting a line and a rest at the first newline. */
  lemma {:induction false} SplitFirst(head: string, rest: string)
    requires '\n' !in head
    ensures Split(head + "\n" + rest, '\n') == [head] + Split(rest, '\n')
  {
    var s := head + "\n" + rest;
    assert s[|head|] == '\n';
    assert s[..|head|] == head;
    IndexOfUnique(s, '\n', |head|);
    assert s[|head| + 1..] == rest;
  }

  /** `cleanErrorStack` as written: the error's stack is passed on as a
      string, so it must look like a stack to survive. */
  function CleanErrorStackAsWritten(o: Options, e: Arg): (r: Arg)
    requires e.Exception?
    ensures r.Exception? && r.message == e.message
    ensures e.stack.None? || e.stack == Some("") ==> r == e
    ensures e.stack.Some? && e.stack.value != "" && !StackLike(e.stack.value) ==> r.stack == Some("")
  {
    if e.stack.None? || e.stack.value == "" then e
    else e.(stack := Some(FilterStack(o, StackText(e.stack.value))))
  }

  /** An error whose stack has a single frame loses the whole stack. */
  lemma {:induction false} OneFrameStackWiped(o: Options, message: string, m: string, f: string)
    requires '\n' !in m && '\n' !in f
    requires !IsFrameLine(Trim(m))
    ensures CleanErrorStackAsWritten(o, Exception(message, Some(m + "\n" + f))).stack == Some("")
  {
    OneFrameNoStack(m, f);
  }

  /** The typical one-frame stack of a thrown error. */
  lemma {:induction false} OneFrameStackWipedExample(o: Options)
    ensures CleanErrorStackAsWritten(o, Exception("boom", Some("Error: boom" + "\n" + "    at f (a.js:1:2)"))).stack == Some("")
  {
    OneFrameExampleLines();
    OneFrameStackWiped(o, "boom", "Error: boom", "    at f (a.js:1:2)");
  }

  /** The two lines of that stack are single lines, and the first is not
      a frame. */
  lemma {:induction false} OneFrameExampleLines()
    ensures '\n' !in "Error: boom" && '\n' !in "    at f (a.js:1:2)"
    ensures !IsFrameLine(Trim("Error: boom"))
  {
    NoNewline("Error: boom");
    NoNewline("    at f (a.js:1:2)");
    BoomHeaderNotFrame();
  }

  /** A literal without a newline character. */
  lemma {:induction false} NoNewline(s: string)
    requires forall i :: 0 <= i < |s| ==> s[i] != '\n'
    ensures '\n' !in s
  {
  }

  lemma {:induction false} BoomHeaderNotFrame()
    ensures !IsFrameLine(Trim("Error: boom"))
  {
    TrimNoSpace("Error: boom");
    MessageNotFrameExample();
  }


  /** `cleanErrorStack` as intended: the stack of the error is filtered as
      an error's stack, whatever its length. */
  function CleanErrorStack(o: Options, e: Arg): (r: Arg)
    requires e.Exception?
    ensures r.Exception? && r.message == e.message
    ensures e.stack.None? || e.stack == Some("") ==> r == e
    ensures e.stack.Some? && e.stack.value != "" ==> r.stack == Some(FilterStack(o, StackOfError(e.stack)))
  {
    if e.stack.None? || e.stack.value == "" then e
    else e.(stack := Some(FilterStack(o, StackOfError(e.stack))))
  }

  /** On a stack that looks like one, the cleaning as written is the
      intended cleaning: only shorter stacks are affected. */
  lemma {:induction false} CleanAgreesOnStackLike(o: Options, e: Arg)
    requires e.Exception? && e.stack.Some? && StackLike(e.stack.value)
    ensures CleanErrorStackAsWritten(o, e) == CleanErrorStack(o, e)
  {
    if e.stack.value != "" {
      assert StackOf(StackText(e.stack.value)) == StackOf(StackOfError(e.stack));
    }
  }

  /** The intended cleaning keeps an error's header line. */
  lemma {:induction false} CleanErrorStackKeepsHeader(o: Options, e: Arg)
    requires e.Exception? && e.stack.Some? && e.stack.value != ""
    requires IsErrorHeader(Split(e.stack.value, '\n')[0])
    ensures var lines := Split(e.stack.value, '\n');
      var out := Split(CleanErrorStack(o, e).stack.value, '\n');
      out[0] == lines[0] && out[1..] == FilterLines(o, lines[1..])
  {
    FilterStackWithHeader(o, StackOfError(e.stack));
  }

  /** `buildCallerStack`, given the stack of the fresh `Error('Trace')`:
      the header line is cut and the frames are filtered as a string. */
  function BuildCallerStack(o: Options, stack: Option<string>): (r: Option<string>)
    ensures r.None? <==> stack.None? || stack.value == ""
  {
    if stack.None? || stack.value == "" then None
    else
      var lines := Split(stack.value, '\n');
      Some(FilterStack(o, StackText(Join(lines[1..], "\n"))))
  }

  /** The caller stack is the filter of everything after the first line. */
  lemma {:induction false} CallerStackDropsHeader(o: Options, head: string, frames: string)
    requires '\n' !in head
    ensures BuildCallerStack(o, Some(head + "\n" + frames)) == Some(FilterStack(o, StackText(frames)))
  {
    SplitFirst(head, frames);
    var lines := Split(head + "\n" + frames, '\n');
    assert lines[1..] == Split(frames, '\n');
    JoinSplit(frames, '\n');
  }

  // ---------------------------------------------------------------
  // Shared by the subclasses' `_processArgs`
  // ---------------------------------------------------------------

  /** Number of errors among the arguments. */
  function ErrorCount(args: seq<Arg>): (n: nat)
    ensures n <= |args|
  {
    if args == [] then 0 else (if args[0].Exception? then 1 else 0) + ErrorCount(args[1..])
  }

  predicate AllWellFormed(args: seq<Arg>) {
    forall i :: 0 <= i < |args| ==> WellFormed(args[i])
  }
}

=== FILE: browser_color_support_detector.dfy ===
/** Colour support and theme in a browser. The `window`, `navigator` and
    `matchMedia` objects are reduced to what the detector reads of them. */
module BrowserColorSupportDetector {
  import opened Wrappers
  import opened Text
  import opened Types

  /** What the detector sees: whether `window` exists, `navigator.userAgent`
      (`None` without a navigator), whether `matchMedia` is a function, the
      answers to the dark and light media queries, and the theme override. */
  datatype BrowserEnv = BrowserEnv(
    hasWindow: bool,
    userAgent: Option<string>,
    hasMatchMedia: bool,
    prefersDark: bool,
    prefersLight: bool,
    overrideTheme: Option<TerminalTheme>)

  /** `isBrowserEnv`: a window and a non-empty user agent. */
  predicate IsBrowserEnv(b: BrowserEnv) {
    b.hasWindow && b.userAgent.Some? && b.userAgent.value != ""
  }

  /** `getColorLevel`: every browser gets 256 colours, whatever its user
      agent; outside a browser there is no colour. */
  function GetColorLevel(b: BrowserEnv): (l: ColorLevel)
    ensures l == (if IsBrowserEnv(b) then Ansi256 else NoColor)
  {
    if !IsBrowserEnv(b) then NoColor
    else
      var userAgent := Lower(b.userAgent.value);
      if Contains(userAgent, "chrome") then Ansi256
      else if Contains(userAgent, "firefox") then Ansi256
      else Ansi256
  }

  /** `getTheme`: an override wins; without a browser or `matchMedia` the
      theme is unknown; a dark match is checked before a light one. */
  function GetTheme(b: BrowserEnv): (t: TerminalTheme)
    ensures b.overrideTheme.Some? ==> t == b.overrideTheme.value
    ensures b.overrideTheme.None? && (!IsBrowserEnv(b) || !b.hasMatchMedia) ==> t == Unknown
  {
    if b.overrideTheme.Some? then b.overrideTheme.value
    else if !IsBrowserEnv(b) || !b.hasMatchMedia then Unknown
    else if b.prefersDark then Dark
    else if b.prefersLight then Light
    else Unknown
  }

  /** Without an override, the detected theme is dark iff the dark query
      matches, light iff only the light one does, and unknown otherwise. */
  lemma {:induction false} ThemeOfMediaQueries(b: BrowserEnv)
    requires b.overrideTheme.None? && IsBrowserEnv(b) && b.hasMatchMedia
    ensures GetTheme(b) == Dark <==> b.prefersDark
    ensures GetTheme(b) == Light <==> !b.prefersDark && b.prefersLight
    ensures GetTheme(b) == Unknown <==> !b.prefersDark && !b.prefersLight
  {
  }

  /** The level never depends on which browser it is. */
  lemma {:induction false} LevelIgnoresUserAgent(b: BrowserEnv, ua: string)
    requires IsBrowserEnv(b) && ua != ""
    ensures GetColorLevel(b.(userAgent := Some(ua))) == GetColorLevel(b) == Ansi256
  {
  }

  /** A browser that prefers both schemes is reported dark; one with no
      window, or with an empty user agent, has no colour. */
  lemma {:induction false} DetectorExamples()
    ensures GetTheme(BrowserEnv(true, Some("Mozilla/5.0"), true, true, true, None)) == Dark
    ensures GetColorLevel(BrowserEnv(false, Some("Mozilla/5.0"), true, false, false, None)) == NoColor
    ensures GetColorLevel(BrowserEnv(true, Some(""), true, false, false, None)) == NoColor
    ensures GetTheme(BrowserEnv(false, None, false, false, false, None)) == Unknown
  {
  }
}

=== FILE: color_converter.dfy ===
/** Integer model of the colour converter: hex text to RGB, RGB to the
    xterm 256-colour and 16-colour SGR codes, RGBA to RGB, and their
    compositions. `Math.round` of a ratio is `RoundDiv`. */
module ColorConverter {
  import opened Wrappers
  import opened Text
  import opened JsNumber

  type Channel = x: int | 0 <= x <= 255

  datatype Rgb = Rgb(r: Channel, g: Channel, b: Channel)

  /** `[r, g, b, a]`; the alpha component is carried but never read. */
  datatype Rgba = Rgba(r: Channel, g: Channel, b: Channel, a: real)

  /** Three hexadecimal digits start at `i`. */
  predicate Hex3At(s: string, i: int) {
    0 <= i && i + 3 <= |s| && IsHexDigit(s[i]) && IsHexDigit(s[i + 1]) && IsHexDigit(s[i + 2])
  }

  /** Six hexadecimal digits start at `i`. */
  predicate Hex6At(s: string, i: int) {
    Hex3At(s, i) && Hex3At(s, i + 3)
  }

  /** The leftmost position at or after `i` where three hex digits start. */
  function FindHex3(s: string, i: nat): (r: Option<nat>)
    requires i <= |s|
    ensures r.Some? ==> i <= r.value && Hex3At(s, r.value)
    ensures r.Some? ==> forall j :: i <= j < r.value ==> !Hex3At(s, j)
    ensures r.None? ==> forall j :: i <= j < |s| ==> !Hex3At(s, j)
    decreases |s| - i
  {
    if i + 3 > |s| then None
    else if Hex3At(s, i) then Some(i)
    else FindHex3(s, i + 1)
  }

  /** What `/[a-f0-9]{6}|[a-f0-9]{3}/i` matches: at the leftmost position
      where a hex run of three starts, six digits when six are there, else
      three. */
  function MatchHex(s: string): (m: Option<string>)
    ensures m.None? <==> forall j :: 0 <= j < |s| ==> !Hex3At(s, j)
    ensures m.Some? ==> exists i :: (0 <= i < |s| && Hex3At(s, i)
      && (forall j :: 0 <= j < i ==> !Hex3At(s, j))
      && m.value == (if Hex6At(s, i) then s[i..i + 6] else s[i..i + 3]))
  {
    match FindHex3(s, 0)
    case None => None
    case Some(i) => Some(if Hex6At(s, i) then s[i..i + 6] else s[i..i + 3])
  }

  /** The six digits a match stands for: a three-digit match doubles each digit. */
  function Expand(m: string): string
    requires |m| == 3 || |m| == 6
  {
    if |m| == 3 then [m[0], m[0], m[1], m[1], m[2], m[2]] else m
  }

  /** The byte spelled by two hex digits. */
  function ByteOf(hi: char, lo: char): (v: Channel)
    requires IsHexDigit(hi) && IsHexDigit(lo)
  {
    16 * HexValue(hi) + HexValue(lo)
  }

  /** `hexToRgb`: `parseInt` of the six digits, then `>> 16 & 0xff`,
      `>> 8 & 0xff` and `& 0xff`. No match gives black. */
  function HexToRgb(s: string): (c: Rgb)
    ensures MatchHex(s).None? ==> c == Rgb(0, 0, 0)
  {
    match MatchHex(s)
    case None => Rgb(0, 0, 0)
    case Some(m) =>
      var digits := Expand(m);
      assert AllHex(digits);
      var v := HexDigitsValue(digits);
      Rgb((v / 65536) % 256, (v / 256) % 256, v % 256)
  }

  lemma {:induction false} DivOfSum(q: int, r: int, d: int)
    requires d > 0 && 0 <= r < d
    ensures (q * d + r) / d == q && (q * d + r) % d == r
  {
    var x := q * d + r;
    var k := x / d - q;
    assert d * k == r - x % d;
    assert -d < d * k < d;
  }

  /** The three bytes of six hex digits are their three digit pairs. */
  lemma {:induction false} SixDigitsValue(s: string)
    requires |s| == 6 && AllHex(s)
    ensures var v := HexDigitsValue(s);
      && (v / 65536) % 256 == ByteOf(s[0], s[1])
      && (v / 256) % 256 == ByteOf(s[2], s[3])
      && v % 256 == ByteOf(s[4], s[5])
  {
    SixDigitsBytes(s);
    ThreeBytes(ByteOf(s[0], s[1]), ByteOf(s[2], s[3]), ByteOf(s[4], s[5]));
  }

  /** Six hex digits read as one number are three bytes, high byte first. */
  lemma {:induction false} SixDigitsBytes(s: string)
    requires |s| == 6 && AllHex(s)
    ensures HexDigitsValue(s) == ByteOf(s[0], s[1]) * 65536 + ByteOf(s[2], s[3]) * 256 + ByteOf(s[4], s[5])
  {
    var h0, h1, h2, h3, h4, h5 := HexValue(s[0]), HexValue(s[1]), HexValue(s[2]), HexValue(s[3]), HexValue(s[4]), HexValue(s[5]);
    assert s[..1][..0] == [];
    assert HexDigitsValue(s[..1]) == h0;
    assert s[..2][..1] == s[..1];
    assert HexDigitsValue(s[..2]) == h0 * 16 + h1;
    assert s[..3][..2] == s[..2];
    assert HexDigitsValue(s[..3]) == (h0 * 16 + h1) * 16 + h2;
    assert s[..4][..3] == s[..3];
    assert HexDigitsValue(s[..4]) == ((h0 * 16 + h1) * 16 + h2) * 16 + h3;
    assert s[..5][..4] == s[..4];
    assert HexDigitsValue(s[..5]) == (((h0 * 16 + h1) * 16 + h2) * 16 + h3) * 16 + h4;
    assert s[..5] == s[..|s| - 1];
  }

  /** The three bytes of a 24-bit number are recovered by shifting and
      masking. */
  lemma {:induction false} ThreeBytes(r: Channel, g: Channel, b: Channel)
    ensures var v := r * 65536 + g * 256 + b;
      && (v / 65536) % 256 == r && (v / 256) % 256 == g && v % 256 == b
  {
    var v := r * 65536 + g * 256 + b;
    DivOfSum(r, g * 256 + b, 65536);
    DivOfSum(r, 0, 256);
    assert v == (r * 256 + g) * 256 + b;
    DivOfSum(r * 256 + g, b, 256);
    DivOfSum(r, g, 256);
  }


  /** `#rrggbb` in lower-case digits. */
  function FormatHex(c: Rgb): (s: string)
    ensures |s| == 7 && s[0] == '#' && AllHex(s[1..])
  {
    ['#', HexChar(c.r / 16), HexChar(c.r % 16), HexChar(c.g / 16), HexChar(c.g % 16),
     HexChar(c.b / 16), HexChar(c.b % 16)]
  }

  /** A `#` and six hex digits: the match is those six digits. */
  lemma {:induction false} MatchAfterHash(p: string, d: string, rest: string)
    requires forall i :: 0 <= i < |p| ==> !IsHexDigit(p[i])
    requires |d| == 6 && AllHex(d)
    ensures MatchHex(p + d + rest) == Some(d)
  {
    var s := p + d + rest;
    forall j | 0 <= j < |p| ensures !Hex3At(s, j) {
      assert s[j] == p[j];
    }
    assert s[|p|..|p| + 6] == d;
    assert Hex6At(s, |p|);
    var i := FindHex3(s, 0).value;
    assert i == |p|;
  }

  /** With an exact six-digit spelling, `hexToRgb` returns the three digit pairs. */
  lemma {:induction false} HexToRgbOfSixDigits(p: string, d: string, rest: string)
    requires forall i :: 0 <= i < |p| ==> !IsHexDigit(p[i])
    requires |d| == 6 && AllHex(d)
    ensures HexToRgb(p + d + rest) == Rgb(ByteOf(d[0], d[1]), ByteOf(d[2], d[3]), ByteOf(d[4], d[5]))
  {
    MatchAfterHash(p, d, rest);
    SixDigitsValue(d);
  }

  /** Round trip: formatting a colour as `#rrggbb` and reading it back gives the colour. */
  lemma {:induction false} HexRoundTrip(c: Rgb)
    ensures HexToRgb(FormatHex(c)) == c
  {
    var s := FormatHex(c);
    assert s == "#" + s[1..] + "";
    HexToRgbOfSixDigits("#", s[1..], "");
  }

  /** The shorthand `#abc` reads like `#aabbcc`, e.g. `#f00` and `#ff0000`. */
  lemma {:induction false} ShorthandExpands(a: char, b: char, c: char)
    requires IsHexDigit(a) && IsHexDigit(b) && IsHexDigit(c)
    ensures HexToRgb(['#', a, b, c]) == HexToRgb(['#', a, a, b, b, c, c])
    ensures HexToRgb(['#', a, b, c]) == Rgb(17 * HexValue(a), 17 * HexValue(b), 17 * HexValue(c))
  {
    var s := ['#', a, b, c];
    assert !Hex3At(s, 0);
    assert Hex3At(s, 1) && !Hex6At(s, 1);
    assert FindHex3(s, 1) == Some(1);
    assert FindHex3(s, 0) == Some(1);
    assert !Hex6At(s, 1);
    assert s[1..4] == [a, b, c];
    assert MatchHex(s) == Some([a, b, c]);
    var e := [a, a, b, b, c, c];
    assert Expand([a, b, c]) == e;
    SixDigitsValue(e);
    assert ['#', a, a, b, b, c, c] == "#" + e + "";
    HexToRgbOfSixDigits("#", e, "");
  }

  /** The test suite's vectors: `#f00` and `#ff0000` are red, `invalid` is black. */
  lemma {:induction false} HexExamples()
    ensures HexToRgb("#f00") == Rgb(255, 0, 0)
    ensures HexToRgb("#ff0000") == Rgb(255, 0, 0)
    ensures HexToRgb("invalid") == Rgb(0, 0, 0)
  {
    ShorthandExpands('f', '0', '0');
    RedLongExample();
    InvalidExample();
  }

  lemma {:induction false} RedLongExample()
    ensures HexToRgb("#ff0000") == Rgb(255, 0, 0)
  {
    assert "#ff0000" == "#" + "ff0000" + "";
    assert AllHex("ff0000");
    HexToRgbOfSixDigits("#", "ff0000", "");
  }

  lemma {:induction false} InvalidExample()
    ensures HexToRgb("invalid") == Rgb(0, 0, 0)
  {
    var s := "invalid";
    forall j | 0 <= j < |s| ensures !Hex3At(s, j) {
    }
  }

  /** `rgbaToRgb`: the first three components. */
  function RgbaToRgb(c: Rgba): (rgb: Rgb)
    ensures rgb.r == c.r && rgb.g == c.g && rgb.b == c.b
  {
    Rgb(c.r, c.g, c.b)
  }

  /** `rgbToAnsi256`: the 24-step grey ramp for greys, else the 6x6x6 cube. */
  function RgbToAnsi256(c: Rgb): (code: int)
    ensures c.r == c.g == c.b ==> (code == 16 || code == 231 || 232 <= code <= 255)
    ensures c.r == c.g == c.b && c.r < 8 ==> code == 16
    ensures c.r == c.g == c.b && c.r > 248 ==> code == 231
    ensures !(c.r == c.g == c.b) ==> 16 <= code <= 231
  {
    if c.r == c.g && c.g == c.b then
      if c.r < 8 then 16
      else if c.r > 248 then 231
      else RoundDiv((c.r - 8) * 24, 247) + 232
    else
      16 + 36 * CubeIndex(c.r) + 6 * CubeIndex(c.g) + CubeIndex(c.b)
  }

  /** `Math.round(c / 255 * 5)`: the nearest of the six cube levels. */
  function CubeIndex(c: Channel): (i: int)
    ensures 0 <= i <= 5
  {
    RoundDiv(5 * c, 255)
  }

  /** The cube coordinate is the nearest cube level `51 * i` to the channel. */
  lemma {:induction false} CubeIndexNearest(c: Channel, j: int)
    requires 0 <= j <= 5
    ensures var i := CubeIndex(c);
      (51 * i - c) * (51 * i - c) <= (51 * j - c) * (51 * j - c)
  {
    var i := CubeIndex(c);
    assert 2 * (51 * i - c) <= 51 && 2 * (c - 51 * i) <= 51;
    if j != i {
      NearestSquare(51 * i - c, 51 * j - c);
    }
  }

  /** A number within half a step of zero is no farther from it than one
      a whole step away from the first. */
  lemma {:induction false} NearestSquare(x: int, y: int)
    requires 2 * x <= 51 && -2 * x <= 51 && (y >= x + 51 || y <= x - 51)
    ensures x * x <= y * y
  {
    var ax, ay := if x < 0 then -x else x, if y < 0 then -y else y;
    assert ax <= ay;
    assert x * x == ax * ax && y * y == ay * ay;
    assert ax * ax <= ax * ay <= ay * ay;
  }

  /** Decoding a cube code gives back the three cube coordinates, so each
      channel is within half a step (25.5) of its decoded level. */
  lemma {:induction false} Ansi256CubeDecodes(c: Rgb)
    requires !(c.r == c.g == c.b)
    ensures var k := RgbToAnsi256(c) - 16;
      && k / 36 == CubeIndex(c.r) && (k / 6) % 6 == CubeIndex(c.g) && k % 6 == CubeIndex(c.b)
      && 2 * (51 * (k / 36) - c.r) <= 51 && 2 * (c.r - 51 * (k / 36)) <= 51
      && 2 * (51 * ((k / 6) % 6) - c.g) <= 51 && 2 * (c.g - 51 * ((k / 6) % 6)) <= 51
      && 2 * (51 * (k % 6) - c.b) <= 51 && 2 * (c.b - 51 * (k % 6)) <= 51
  {
    var a, g, b := CubeIndex(c.r), CubeIndex(c.g), CubeIndex(c.b);
    var k := 36 * a + 6 * g + b;
    DivOfSum(a, 6 * g + b, 36);
    DivOfSum(6 * a + g, b, 6);
    assert k == (6 * a + g) * 6 + b;
    DivOfSum(a, g, 6);
  }

  /** Grey codes lie on the ramp nearest the grey level: for `8 <= r <= 248`
      the step `j` satisfies `|24 (r - 8) - 247 j| <= 123.5`. */
  lemma {:induction false} GreyRampNearest(v: Channel)
    requires 8 <= v <= 248
    ensures var j := RgbToAnsi256(Rgb(v, v, v)) - 232;
      && 0 <= j <= 23
      && 2 * (24 * (v - 8) - 247 * j) <= 247 && 2 * (247 * j - 24 * (v - 8)) <= 247
  {
  }

  /** The test suite's vectors: red is 196, black 16, white 231, mid grey 244. */
  lemma {:induction false} Ansi256Examples()
    ensures RgbToAnsi256(Rgb(255, 0, 0)) == 196
    ensures RgbToAnsi256(Rgb(0, 0, 0)) == 16
    ensures RgbToAnsi256(Rgb(255, 255, 255)) == 231
    ensures RgbToAnsi256(Rgb(128, 128, 128)) == 244
  {
    assert RoundDiv(120 * 24, 247) == 12;
    assert CubeIndex(255) == 5 && CubeIndex(0) == 0;
  }

  function Max3(a: int, b: int, c: int): (m: int)
    ensures m >= a && m >= b && m >= c && (m == a || m == b || m == c)
  {
    if a >= b && a >= c then a else if b >= c then b else c
  }

  /** `Math.round(c / 255)`: whether the channel is at least half on. */
  function Bit(c: Channel): (k: int)
    ensures k == (if c >= 128 then 1 else 0)
  {
    RoundDiv(c, 255)
  }

  /** `rgbToAnsi16`: the brightness bucket `round(max / 255 * 100 / 50)`
      picks black (0), normal (1) or bright (2); the code's low bits are the
      channels that are at least half on. */
  function RgbToAnsi16(c: Rgb): (code: int)
    ensures 30 <= code <= 37 || 90 <= code <= 97
    ensures Max3(c.r, c.g, c.b) < 64 ==> code == 30
    ensures code >= 90 <==> Max3(c.r, c.g, c.b) >= 192
  {
    var bucket := RoundDiv(2 * Max3(c.r, c.g, c.b), 255);
    if bucket == 0 then 30
    else
      var ansi := 30 + (4 * Bit(c.b) + 2 * Bit(c.g) + Bit(c.r));
      if bucket == 2 then ansi + 60 else ansi
  }

  /** Above the dark bucket, the code spells out which channels are at least
      half on: bit 0 red, bit 1 green, bit 2 blue. */
  lemma {:induction false} Ansi16Bits(c: Rgb)
    requires Max3(c.r, c.g, c.b) >= 64
    ensures var k := RgbToAnsi16(c) - (if RgbToAnsi16(c) >= 90 then 90 else 30);
      && (k % 2 == 1 <==> c.r >= 128)
      && ((k / 2) % 2 == 1 <==> c.g >= 128)
      && (k / 4 == 1 <==> c.b >= 128)
  {
  }

  /** The test suite's vector: red is bright red, 91. */
  lemma {:induction false} Ansi16Examples()
    ensures RgbToAnsi16(Rgb(255, 0, 0)) == 91
  {
  }

  /** `colorConverter.hex.toAnsi16`. */
  function HexToAnsi16(hex: string): int { RgbToAnsi16(HexToRgb(hex)) }

  /** `colorConverter.hex.toAnsi256`. */
  function HexToAnsi256(hex: string): int { RgbToAnsi256(HexToRgb(hex)) }

  /** `colorConverter.rgba.toAnsi16`. */
  function RgbaToAnsi16(c: Rgba): int { RgbToAnsi16(RgbaToRgb(c)) }

  /** `colorConverter.rgba.toAnsi256`. */
  function RgbaToAnsi256(c: Rgba): int { RgbToAnsi256(RgbaToRgb(c)) }

  /** The hex conversions agree with the RGB ones on the decoded colour, and
      any colour written as `#rrggbb` converts like the colour itself. */
  lemma {:induction false} HexConversionsAgree(c: Rgb)
    ensures HexToAnsi16(FormatHex(c)) == RgbToAnsi16(c)
    ensures HexToAnsi256(FormatHex(c)) == RgbToAnsi256(c)
  {
    HexRoundTrip(c);
  }

  /** The RGBA conversions ignore alpha: they are the RGB conversions of the
      first three components. */
  lemma {:induction false} RgbaIgnoresAlpha(c: Rgba, a: real)
    ensures RgbaToRgb(c.(a := a)) == RgbaToRgb(c)
    ensures RgbaToAnsi16(c) == RgbToAnsi16(Rgb(c.r, c.g, c.b))
    ensures RgbaToAnsi256(c.(a := a)) == RgbaToAnsi256(c)
  {
  }

  /** The test suite's vectors of the compositions: `#ff0000` is 91 and 196, as is
      `[255, 0, 0, 0.5]`. */
  lemma {:induction false} CompositionExamples()
    ensures HexToAnsi16("#ff0000") == 91 && HexToAnsi256("#ff0000") == 196
    ensures RgbaToRgb(Rgba(255, 0, 0, 0.5)) == Rgb(255, 0, 0)
    ensures RgbaToAnsi16(Rgba(255, 0, 0, 0.5)) == 91 && RgbaToAnsi256(Rgba(255, 0, 0, 0.5)) == 196
  {
    HexExamples();
    Ansi256Examples();
  }
}

=== FILE: colorino.dfy ===
/** The first-generation logger, one class doing everything: colour
    detection, the constructor's checks, `colorize`, argument processing,
    browser `%c` formatting (styles listed before objects), Node colouring
    of the first string only, and the legacy stack filter that drops every
    line mentioning colorino. Each operation is related to its counterpart
    in the refactored classes. */
module Colorino {
  import opened Wrappers
  import opened Text
  import opened Types
  import opened Values
  import opened TypeValidator
  import opened InputValidator
  import opened ColorConverter
  import opened Theme
  import DetermineBaseTheme
  import AbstractColorino
  import ColorinoNode
  import ColorinoBrowser
  import NodeColorSupportDetector
  import BrowserColorSupportDetector

  /** The options this class reads; `None` is an option left unset. */
  datatype Options = Options(theme: Option<string>, disableWarnings: Option<bool>, maxDepth: Option<int>)

  /** `options.theme ?? 'auto'`. */
  function ThemeOption(o: Options): string {
    if o.theme.Some? then o.theme.value else "auto"
  }

  predicate WarningsDisabled(o: Options) {
    o.disableWarnings.Some? && o.disableWarnings.value
  }

  /** The options the shared sanitiser reads: only `maxDepth`. */
  function SanitizerOptions(o: Options): (b: AbstractColorino.Options)
    ensures AbstractColorino.MaxDepth(b) == (if o.maxDepth.Some? then o.maxDepth.value else 5)
  {
    AbstractColorino.Options(o.maxDepth, None, None)
  }

  /** The instance state. `alreadyWarned` is the once-only warning flag. */
  datatype Logger = Logger(
    level: Level,
    isBrowser: bool,
    palette: Palette,
    userPalette: Palette,
    options: Options,
    alreadyWarned: bool)

  // ---------------------------------------------------------------
  // _detectColorSupport
  // ---------------------------------------------------------------

  /** `_detectColorSupport`: a browser detector decides in a browser; a
      Node detector decides when it sees a process; otherwise the
      environment is unknown. */
  function DetectColorSupport(
    browser: Option<BrowserColorSupportDetector.BrowserEnv>,
    node: Option<NodeColorSupportDetector.Detector>): (l: Level)
    ensures browser.Some? ==>
      l == Known(if BrowserColorSupportDetector.IsBrowserEnv(browser.value) then Ansi256 else NoColor)
    ensures browser.None? ==> (l == UnknownEnv <==> node.None? || !NodeColorSupportDetector.IsNodeEnv(node.value))
    ensures browser.None? && l.Known? ==> l.level == NodeColorSupportDetector.GetColorLevel(node.value)
  {
    if browser.Some? then Known(BrowserColorSupportDetector.GetColorLevel(browser.value))
    else if node.Some? && NodeColorSupportDetector.IsNodeEnv(node.value) then
      Known(NodeColorSupportDetector.GetColorLevel(node.value))
    else UnknownEnv
  }

  // ---------------------------------------------------------------
  // Construction and the once-only warning
  // ---------------------------------------------------------------

  const NoColorWarning: string :=
    "No ANSI color support detected in this terminal. See " +
    "[https://github.com/chalk/supports-color#support-matrix](https://github.com/chalk/supports-color#support-matrix)" +
    " to learn how to enable terminal color."

  /** `_maybeWarnUser`: the warning goes out unless it already has. */
  function MaybeWarnUser(l: Logger): (r: (Logger, seq<string>))
    ensures r.0 == l.(alreadyWarned := true)
    ensures r.1 == (if l.alreadyWarned then [] else [NoColorWarning])
  {
    if l.alreadyWarned then (l, []) else (l.(alreadyWarned := true), [NoColorWarning])
  }

  /** `n` calls of `_maybeWarnUser` in a row, with all they emit. */
  function WarnRepeatedly(l: Logger, n: nat): (Logger, seq<string>)
    decreases n
  {
    if n == 0 then (l, [])
    else
      var first := MaybeWarnUser(l);
      var rest := WarnRepeatedly(first.0, n - 1);
      (rest.0, first.1 + rest.1)
  }

  /** However often it is asked, an instance warns at most once, and only
      if it had not warned before. */
  lemma {:induction false} WarnsAtMostOnce(l: Logger, n: nat)
    ensures |WarnRepeatedly(l, n).1| <= 1
    ensures |WarnRepeatedly(l, n).1| == 1 <==> n > 0 && !l.alreadyWarned
    ensures n > 0 ==> WarnRepeatedly(l, n).0.alreadyWarned
    decreases n
  {
    if n > 0 {
      var first := MaybeWarnUser(l);
      WarnsAtMostOnce(first.0, n - 1);
      assert first.0.alreadyWarned;
    }
  }

  /** What the constructor leaves behind: the instance, the warnings it
      printed, and whether it subscribed to theme updates. */
  datatype Construction = Construction(logger: Logger, warnings: seq<string>, followsTheme: bool)

  /** The constructor. The palette is validated after colour detection and
      an invalid entry makes it throw the validator's error; an unknown
      environment draws the warning unless warnings are disabled; with the
      `auto` theme and a Node detector it subscribes to theme updates. */
  function NewLogger(
    initialPalette: Palette,
    userPalette: Palette,
    browser: Option<BrowserColorSupportDetector.BrowserEnv>,
    node: Option<NodeColorSupportDetector.Detector>,
    options: Options): (r: Result<Construction, string>)
    ensures r.Ok? <==> forall i :: 0 <= i < |initialPalette| ==> ValidateHex(initialPalette[i].value).Ok?
    ensures r.Err? ==>
      exists i :: 0 <= i < |initialPalette| && FirstInvalid(initialPalette, i) && r.error == InvalidHexMessage(initialPalette[i].value)
    ensures r.Ok? ==>
      var c := r.value;
      && c.logger.level == DetectColorSupport(browser, node)
      && c.logger.isBrowser == browser.Some?
      && c.logger.palette == initialPalette
      && c.logger.userPalette == userPalette
      && c.logger.options == options
      && |c.warnings| <= 1
      && (|c.warnings| == 1 <==> c.logger.level == UnknownEnv && !WarningsDisabled(options))
      && c.logger.alreadyWarned == (|c.warnings| == 1)
      && (c.followsTheme <==> ThemeOption(options) == "auto" && node.Some?)
  {
    var level := DetectColorSupport(browser, node);
    var v := ValidatePalette(initialPalette);
    if v.Err? then Err(v.error)
    else
      var l := Logger(level, browser.Some?, initialPalette, userPalette, options, false);
      var warned :=
        if level != Known(NoColor) && !WarningsDisabled(options) && level == UnknownEnv then MaybeWarnUser(l)
        else (l, []);
      Ok(Construction(warned.0, warned.1, ThemeOption(options) == "auto" && node.Some?))
  }

  /** A browser detector always yields a known level, so a browser logger
      never warns. */
  lemma {:induction false} BrowserNeverWarns(
    initialPalette: Palette, userPalette: Palette,
    browser: BrowserColorSupportDetector.BrowserEnv,
    node: Option<NodeColorSupportDetector.Detector>, options: Options)
    requires NewLogger(initialPalette, userPalette, Some(browser), node, options).Ok?
    ensures NewLogger(initialPalette, userPalette, Some(browser), node, options).value.warnings == []
  {
  }

  // ---------------------------------------------------------------
  // _applyResolvedTheme
  // ---------------------------------------------------------------

  /** `_applyResolvedTheme`: the base theme chosen from the theme option
      and the resolved terminal theme, overlaid with the user's palette.
      The built-in palettes are data outside this model: `palettes` maps
      each theme to its palette. */
  function ApplyResolvedTheme(l: Logger, palettes: ThemeName -> Palette, resolvedTheme: string): (r: Logger)
    ensures r == l.(palette := r.palette)
  {
    var base := palettes(DetermineBaseTheme.DetermineBaseTheme(ThemeOption(l.options), resolvedTheme));
    l.(palette := Spread(base, l.userPalette))
  }

  /** User entries override the base theme's; every other key keeps the
      base theme's value. */
  lemma {:induction false} ResolvedThemeLookup(l: Logger, palettes: ThemeName -> Palette, resolvedTheme: string, k: string)
    requires DistinctKeys(l.userPalette)
    ensures var base := palettes(DetermineBaseTheme.DetermineBaseTheme(ThemeOption(l.options), resolvedTheme));
      Lookup(ApplyResolvedTheme(l, palettes, resolvedTheme).palette, k) ==
        (if Lookup(l.userPalette, k).Some? then Lookup(l.userPalette, k) else Lookup(base, k))
  {
    var base := palettes(DetermineBaseTheme.DetermineBaseTheme(ThemeOption(l.options), resolvedTheme));
    SpreadLookup(base, l.userPalette, k);
  }

  /** With an explicit theme, what the terminal reports does not matter. */
  lemma {:induction false} ExplicitThemeIgnoresTerminal(l: Logger, palettes: ThemeName -> Palette, t1: string, t2: string)
    requires IsThemeName(ThemeOption(l.options)) || ThemeOption(l.options) == "light" || ThemeOption(l.options) == "dark"
    ensures ApplyResolvedTheme(l, palettes, t1) == ApplyResolvedTheme(l, palettes, t2)
  {
    DetermineBaseTheme.ExplicitChoiceIgnoresDetection(ThemeOption(l.options), t1, t2);
  }

  // ---------------------------------------------------------------
  // _toAnsiPrefix and colorize
  // ---------------------------------------------------------------

  /** `_toAnsiPrefix`, as its template literals spell it. */
  function ToAnsiPrefix(level: Level, hex: string): (p: string)
    ensures p == "" <==> IsColorless(level)
    ensures p != "" ==> p[0] == ESC && p[|p| - 1] == 'm'
  {
    if IsColorless(level) then ""
    else if level.level == TrueColor then
      var c := HexToRgb(hex);
      [ESC] + "[38;2;" + NatToString(c.r) + ";" + NatToString(c.g) + ";" + NatToString(c.b) + "m"
    else if level.level == Ansi256 then
      [ESC] + "[38;5;" + NatToString(HexToAnsi256(hex)) + "m"
    else
      [ESC] + "[" + NatToString(HexToAnsi16(hex)) + "m"
  }

  /** The two generations build the same escape for every level and hex. */
  lemma {:induction false} ToAnsiPrefixAgrees(level: Level, hex: string)
    ensures ToAnsiPrefix(level, hex) == ColorinoNode.ToAnsiPrefix(level, hex)
  {
    if !IsColorless(level) {
      var f := ColorinoNode.ForegroundOf(level.level, hex);
      if level.level == TrueColor {
        var c := HexToRgb(hex);
        TrueColorEscapeAgrees(NatToString(c.r), NatToString(c.g), NatToString(c.b));
        assert f == ColorinoNode.Fg24(c.r, c.g, c.b);
      } else if level.level == Ansi256 {
        Ansi256EscapeAgrees(NatToString(HexToAnsi256(hex)));
      } else {
        assert f == ColorinoNode.Fg16(HexToAnsi16(hex));
        assert ColorinoNode.ForegroundParams(f) == NatToString(HexToAnsi16(hex));
      }
    }
  }

  lemma {:induction false} TrueColorEscapeAgrees(r: string, g: string, b: string)
    ensures ColorinoNode.SgrPrefix(Join(["38", "2", r, g, b], ";")) ==
      [ESC] + "[38;2;" + r + ";" + g + ";" + b + "m"
  {
    var ps := ["38", "2", r, g, b];
    assert ps[1..] == ["2", r, g, b];
    assert ps[1..][1..] == [r, g, b];
    assert ps[1..][1..][1..] == [g, b];
    assert ps[1..][1..][1..][1..] == [b];
    assert Join([b], ";") == b;
    assert Join([g, b], ";") == g + ";" + b;
    assert Join([r, g, b], ";") == r + ";" + (g + ";" + b);
    assert Join(["2", r, g, b], ";") == "2" + ";" + (r + ";" + (g + ";" + b));
    assert Join(ps, ";") == "38" + ";" + ("2" + ";" + (r + ";" + (g + ";" + b)));
    assert [ESC, '['] + "38" + ";" + "2" + ";" == [ESC] + "[38;2;";
  }

  lemma {:induction false} Ansi256EscapeAgrees(code: string)
    ensures ColorinoNode.SgrPrefix(Join(["38", "5", code], ";")) == [ESC] + "[38;5;" + code + "m"
  {
    var ps := ["38", "5", code];
    assert ps[1..] == ["5", code];
    assert ps[1..][1..] == [code];
    assert Join([code], ";") == code;
    assert Join(["5", code], ";") == "5" + ";" + code;
    assert Join(ps, ";") == "38" + ";" + ("5" + ";" + code);
    assert [ESC, '['] + "38" + ";" + "5" + ";" == [ESC] + "[38;5;";
  }

  /** `colorize`: plain text without colour, the `{ text, hex }` marker in
      a browser, and otherwise the text wrapped in the prefix and the
      reset. */
  function Colorize(l: Logger, text: string, hex: string): (r: Arg)
    ensures IsColorless(l.level) ==> r == Str(text)
    ensures !IsColorless(l.level) && l.isBrowser ==> r == Colorized(text, hex)
    ensures !IsColorless(l.level) && !l.isBrowser ==> r.Str? && IsAnsiColoredString(r)
  {
    var prefix := ToAnsiPrefix(l.level, hex);
    if !IsColorless(l.level) && !l.isBrowser then
      ToAnsiPrefixAgrees(l.level, hex);
      ColorinoNode.PrefixedIsColored(prefix, text);
      AbstractColorino.Colorize(l.level, l.isBrowser, prefix, text, hex)
    else AbstractColorino.Colorize(l.level, l.isBrowser, prefix, text, hex)
  }

  /** Outside a browser the legacy `colorize` is the corrected Node one. */
  lemma {:induction false} ColorizeMatchesNode(l: Logger, text: string, hex: string)
    requires !l.isBrowser
    ensures Colorize(l, text, hex) == ColorinoNode.NodeColorize(l.level, text, hex)
  {
    ToAnsiPrefixAgrees(l.level, hex);
  }

  // ---------------------------------------------------------------
  // _processArgs
  // ---------------------------------------------------------------

  /** What one argument becomes: a colorized marker itself; an object (a
      CSS marker included) the browser-object marker around it in a
      browser, its formatted text after a newline elsewhere; an error a
      newline and the cleaned error; a string right after an object or
      error the string with a leading newline. */
  function ProcessOne(isBrowser: bool, o: Options, render: AbstractColorino.Clean -> string, a: Arg, previousWasObject: bool): (r: seq<Arg>)
    requires !isBrowser ==> AbstractColorino.WellFormed(a)
    ensures |r| == if a.Exception? then 2 else 1
    ensures a.Colorized? ==> r == [a]
    ensures isBrowser && IsFormattableObject(a) ==> r == [BrowserObj(a)]
    ensures !isBrowser ==> forall i :: 0 <= i < |r| ==> !IsFormattableObject(r[i])
  {
    if IsBrowserColorizedArg(a) then [a]
    else if IsFormattableObject(a) then
      if isBrowser then [BrowserObj(a)]
      else [Str("\n" + AbstractColorino.FormatValue(render, a, SanitizerOptions(o)))]
    else if IsError(a) then [Str("\n"), CleanErrorStack(a)]
    else [if IsString(a) && previousWasObject then Str("\n" + a.s) else a]
  }

  function ProcessFrom(isBrowser: bool, o: Options, render: AbstractColorino.Clean -> string, args: seq<Arg>, previousWasObject: bool): (r: seq<Arg>)
    requires !isBrowser ==> AbstractColorino.AllWellFormed(args)
    ensures |r| == |args| + AbstractColorino.ErrorCount(args)
  {
    if args == [] then []
    else
      ProcessOne(isBrowser, o, render, args[0], previousWasObject) +
      ProcessFrom(isBrowser, o, render, args[1..], ColorinoNode.BreaksLine(args[0]))
  }

  /** `_processArgs`. */
  function ProcessArgs(isBrowser: bool, o: Options, render: AbstractColorino.Clean -> string, args: seq<Arg>): seq<Arg>
    requires !isBrowser ==> AbstractColorino.AllWellFormed(args)
  {
    ProcessFrom(isBrowser, o, render, args, false)
  }

  predicate NoErrors(args: seq<Arg>) {
    forall i :: 0 <= i < |args| ==> !args[i].Exception?
  }

  predicate NoCss(args: seq<Arg>) {
    forall i :: 0 <= i < |args| ==> !args[i].Css?
  }

  /** Outside a browser, and with no error to clean, the legacy pass is
      the Node subclass's. */
  lemma {:induction false} ProcessMatchesNode(o: Options, render: AbstractColorino.Clean -> string, args: seq<Arg>, prev: bool)
    requires AbstractColorino.AllWellFormed(args) && NoErrors(args)
    ensures ProcessFrom(false, o, render, args, prev) == ColorinoNode.ProcessFrom(SanitizerOptions(o), render, args, prev)
  {
    if args != [] {
      ProcessMatchesNode(o, render, args[1..], ColorinoNode.BreaksLine(args[0]));
    }
  }

  /** In a browser, with no error and no CSS marker, the legacy pass is
      the browser subclass's. */
  lemma {:induction false} ProcessMatchesBrowser(o: Options, render: AbstractColorino.Clean -> string, args: seq<Arg>, prev: bool)
    requires NoErrors(args) && NoCss(args)
    ensures ProcessFrom(true, o, render, args, prev) == ColorinoBrowser.ProcessFrom(SanitizerOptions(o), args, prev)
  {
    if args != [] {
      assert ColorinoNode.BreaksLine(args[0]) == ColorinoBrowser.BreaksLine(args[0]);
      ProcessMatchesBrowser(o, render, args[1..], ColorinoNode.BreaksLine(args[0]));
    }
  }

  /** Where the generations part: the legacy class treats a CSS marker as
      an object to print with `%o`, and the string after it starts a new
      line; the browser subclass passes the marker on as a style. */
  lemma {:induction false} CssMarkerTreatedAsObject(o: Options, render: AbstractColorino.Clean -> string, t: string, css: string, s: string)
    ensures ProcessArgs(true, o, render, [Css(t, css), Str(s)]) == [BrowserObj(Css(t, css)), Str("\n" + s)]
    ensures ColorinoBrowser.ProcessFrom(SanitizerOptions(o), [Css(t, css), Str(s)], false) == [Css(t, css), Str(s)]
  {
    var args := [Css(t, css), Str(s)];
    assert args[1..] == [Str(s)];
    assert args[1..][1..] == [];
    assert ColorinoNode.BreaksLine(Css(t, css));
    assert ProcessFrom(true, o, render, [Str(s)], true) == [Str("\n" + s)] by {
      assert ProcessFrom(true, o, render, [Str(s)], true) ==
        ProcessOne(true, o, render, Str(s), true) + ProcessFrom(true, o, render, [], false);
    }
    assert ProcessOne(true, o, render, Css(t, css), false) == [BrowserObj(Css(t, css))];
  }

  // ---------------------------------------------------------------
  // _applyBrowserColors
  // ---------------------------------------------------------------

  /** The format piece an argument adds. */
  function Part(a: Arg): string {
    if IsBrowserColorizedArg(a) then "%c" + a.text
    else if IsBrowserObjectArg(a) then "%o"
    else if IsString(a) then "%c" + a.s
    else "%o"
  }

  function Parts(args: seq<Arg>): (r: seq<string>)
    ensures |r| == |args|
    ensures forall i :: 0 <= i < |args| ==> r[i] == Part(args[i])
  {
    if args == [] then [] else [Part(args[0])] + Parts(args[1..])
  }

  /** `cssArgs`: a CSS string for every colorized marker and string. */
  function StyleValues(args: seq<Arg>, paletteHex: string): seq<Arg> {
    if args == [] then []
    else
      var a := args[0];
      (if a.Colorized? then [Str("color:" + a.hex)]
       else if a.Str? then [Str("color:" + paletteHex)]
       else []) + StyleValues(args[1..], paletteHex)
  }

  /** `otherArgs`: the wrapped value of a browser-object marker, and any
      other argument as it is. */
  function ObjectValues(args: seq<Arg>): seq<Arg> {
    if args == [] then []
    else
      var a := args[0];
      (if a.Colorized? || a.Str? then []
       else if a.BrowserObj? then [a.value]
       else [a]) + ObjectValues(args[1..])
  }

  /** `_applyBrowserColors`: the joined format pieces, then every CSS
      string, then every object; with no piece, the arguments as they
      are. */
  function ApplyBrowserColors(palette: Palette, m: ConsoleMethod, args: seq<Arg>): (r: seq<Arg>)
    requires IsComplete(palette)
    ensures args == [] ==> r == args
    ensures args != [] ==> |r| == |args| + 1 && r[0].Str?
  {
    var parts := Parts(args);
    if |parts| == 0 then args
    else
      StyleObjectCount(args);
      [Str(Concat(parts))] + StyleValues(args, PaletteHex(palette, m)) + ObjectValues(args)
  }

  lemma {:induction false} StyleObjectCount(args: seq<Arg>)
    ensures forall h :: |StyleValues(args, h)| + |ObjectValues(args)| == |args|
  {
    if args != [] {
      StyleObjectCount(args[1..]);
    }
  }

  /** Without CSS markers the legacy format string is the refactored one. */
  lemma {:induction false} FormatStringAgrees(args: seq<Arg>)
    requires NoCss(args)
    ensures Concat(Parts(args)) == ColorinoBrowser.FormatString(args)
  {
    if args != [] {
      FormatStringAgrees(args[1..]);
      assert Parts(args)[1..] == Parts(args[1..]);
      assert Part(args[0]) == ColorinoBrowser.Placeholder(args[0]);
    }
  }

  /** The legacy values are the refactored ones reordered: styles, then
      objects. */
  lemma {:induction false} ValuesPermuted(args: seq<Arg>, h: string)
    requires NoCss(args)
    ensures multiset(StyleValues(args, h) + ObjectValues(args)) == multiset(ColorinoBrowser.FormatArgs(args, h))
  {
    if args != [] {
      var a := args[0];
      var x := ColorinoBrowser.FormatArg(a, h);
      var s' := StyleValues(args[1..], h);
      var o' := ObjectValues(args[1..]);
      ValuesPermuted(args[1..], h);
      assert ColorinoBrowser.FormatArgs(args, h) == [x] + ColorinoBrowser.FormatArgs(args[1..], h);
      if a.Colorized? || a.Str? {
        assert StyleValues(args, h) == [x] + s';
        assert ObjectValues(args) == o';
        MultisetFront(x, s', o');
      } else {
        assert StyleValues(args, h) == s';
        assert ObjectValues(args) == [x] + o';
        MultisetMiddle(x, s', o');
      }
    }
  }

  /** Both generations pass the console the same values, in a different
      order when an object comes before a style. */
  lemma {:induction false} BrowserSameValues(palette: Palette, m: ConsoleMethod, args: seq<Arg>)
    requires IsComplete(palette) && args != [] && NoCss(args)
    ensures var legacy := ApplyBrowserColors(palette, m, args);
      var refactored := ColorinoBrowser.ApplyColors(palette, m, args);
      legacy[0] == refactored[0] && multiset(legacy[1..]) == multiset(refactored[1..])
  {
    var h := PaletteHex(palette, m);
    FormatStringAgrees(args);
    LegacyShape(palette, m, args);
    ValuesPermuted(args, h);
  }

  /** With arguments, the legacy call is the joined pieces followed by the
      style values and then the object values. */
  lemma {:induction false} LegacyShape(palette: Palette, m: ConsoleMethod, args: seq<Arg>)
    requires IsComplete(palette) && args != []
    ensures var legacy := ApplyBrowserColors(palette, m, args);
      && legacy[0] == Str(Concat(Parts(args)))
      && legacy[1..] == StyleValues(args, PaletteHex(palette, m)) + ObjectValues(args)
  {
    var head, styles, objects := Str(Concat(Parts(args))), StyleValues(args, PaletteHex(palette, m)), ObjectValues(args);
    assert ApplyBrowserColors(palette, m, args) == [head] + styles + objects;
    AppendAssoc([head], styles, objects);
    HeadAndTail(head, styles + objects);
  }

  /** Only styled arguments: the legacy result is the refactored one. */
  lemma {:induction false} BrowserAgreesOnStyles(palette: Palette, m: ConsoleMethod, args: seq<Arg>)
    requires IsComplete(palette)
    requires forall i :: 0 <= i < |args| ==> args[i].Colorized? || args[i].Str?
    ensures ApplyBrowserColors(palette, m, args) == ColorinoBrowser.ApplyColors(palette, m, args)
  {
    if args != [] {
      var h := PaletteHex(palette, m);
      FormatStringAgrees(args);
      StylesAreFormatArgs(args, h);
      assert ApplyBrowserColors(palette, m, args) == [Str(Concat(Parts(args)))] + ColorinoBrowser.FormatArgs(args, h);
    }
  }

  lemma {:induction false} StylesAreFormatArgs(args: seq<Arg>, h: string)
    requires forall i :: 0 <= i < |args| ==> args[i].Colorized? || args[i].Str?
    ensures ObjectValues(args) == []
    ensures StyleValues(args, h) == ColorinoBrowser.FormatArgs(args, h)
  {
    if args != [] {
      StylesAreFormatArgs(args[1..], h);
      assert ColorinoBrowser.FormatArgs(args, h) ==
        [ColorinoBrowser.FormatArg(args[0], h)] + ColorinoBrowser.FormatArgs(args[1..], h);
    }
  }

  /** An object logged before a string: the format string asks for `%o`
      then `%c`, but the CSS string comes first, so the object placeholder
      shows the CSS text and the style placeholder gets the object. */
  lemma {:induction false} BrowserOrderMismatch(palette: Palette, m: ConsoleMethod, v: Arg, s: string)
    requires IsComplete(palette) && '%' !in s
    ensures var r := ApplyBrowserColors(palette, m, [BrowserObj(v), Str(s)]);
      && ColorinoBrowser.Slots(r[0].s) == [ColorinoBrowser.ObjectSlot, ColorinoBrowser.StyleSlot]
      && r[1] == Str("color:" + PaletteHex(palette, m))
      && r[2] == v
  {
    var args := [BrowserObj(v), Str(s)];
    assert args[1..] == [Str(s)];
    assert args[1..][1..] == [];
    var h := PaletteHex(palette, m);
    assert StyleValues(args, h) == [Str("color:" + h)] by {
      assert StyleValues(args, h) == [] + StyleValues(args[1..], h);
      assert StyleValues(args[1..], h) == [Str("color:" + h)] + StyleValues([], h);
    }
    assert ObjectValues(args) == [v] by {
      assert ObjectValues(args) == [v] + ObjectValues(args[1..]);
      assert ObjectValues(args[1..]) == [] + ObjectValues([]);
    }
    assert Concat(Parts(args)) == "%o" + ("%c" + s) by {
      assert Parts(args) == ["%o", "%c" + s];
      assert Concat(["%o", "%c" + s]) == "%o" + Concat(["%c" + s]);
      assert ["%o", "%c" + s][1..] == ["%c" + s];
      assert Concat(["%c" + s]) == "%c" + s + Concat([]);
    }
    FormatStringAgrees(args);
    ColorinoBrowser.FormatStringSlots(args);
  }

  // ---------------------------------------------------------------
  // _applyNodeColors
  // ---------------------------------------------------------------

  /** `findIndex(arg => typeof arg === 'string')`. */
  function FirstStringIndex(args: seq<Arg>): (r: Option<nat>)
    ensures r.Some? ==> r.value < |args| && args[r.value].Str? && forall j :: 0 <= j < r.value ==> !args[j].Str?
    ensures r.None? ==> forall j :: 0 <= j < |args| ==> !args[j].Str?
  {
    if args == [] then None
    else if args[0].Str? then Some(0)
    else
      var rest := FirstStringIndex(args[1..]);
      if rest.Some? then Some(rest.value + 1) else None
  }

  /** `_applyNodeColors`: only the first string is coloured, and only if
      it is not coloured already and there is a prefix; everything else is
      left as it is. */
  function ApplyNodeColors(level: Level, palette: Palette, m: ConsoleMethod, args: seq<Arg>): (r: seq<Arg>)
    requires IsComplete(palette)
    ensures |r| == |args|
    ensures forall j :: 0 <= j < |args| && FirstStringIndex(args) != Some(j) ==> r[j] == args[j]
    ensures IsColorless(level) ==> r == args
    ensures FirstStringIndex(args).Some? && IsAnsiColoredString(args[FirstStringIndex(args).value]) ==> r == args
    ensures !IsColorless(level) && FirstStringIndex(args).Some? ==>
      var i := FirstStringIndex(args).value;
      r[i].Str? && IsAnsiColoredString(r[i]) &&
      (!IsAnsiColoredString(args[i]) ==> r[i].s == ToAnsiPrefix(level, PaletteHex(palette, m)) + args[i].s + AbstractColorino.Reset)
  {
    var first := FirstStringIndex(args);
    if first.None? then args
    else if IsAnsiColoredString(args[first.value]) then args
    else
      var prefix := ToAnsiPrefix(level, PaletteHex(palette, m));
      if prefix == "" then args
      else
        ToAnsiPrefixAgrees(level, PaletteHex(palette, m));
        ColorinoNode.PrefixedIsColored(prefix, args[first.value].s);
        args[first.value := Str(prefix + args[first.value].s + AbstractColorino.Reset)]
  }

  /** Arguments with strings in the same places find the same first string. */
  lemma {:induction false} FirstStringIndexSame(a: seq<Arg>, b: seq<Arg>)
    requires |a| == |b|
    requires forall j :: 0 <= j < |a| ==> (a[j].Str? <==> b[j].Str?)
    ensures FirstStringIndex(a) == FirstStringIndex(b)
  {
    if a != [] && !a[0].Str? {
      FirstStringIndexSame(a[1..], b[1..]);
    }
  }

  /** Colouring twice is colouring once. */
  lemma {:induction false} ApplyNodeColorsIdempotent(level: Level, palette: Palette, m: ConsoleMethod, args: seq<Arg>)
    requires IsComplete(palette)
    ensures ApplyNodeColors(level, palette, m, ApplyNodeColors(level, palette, m, args)) ==
      ApplyNodeColors(level, palette, m, args)
  {
    var once := ApplyNodeColors(level, palette, m, args);
    FirstStringIndexSame(args, once);
  }

  /** When every string after the first is already coloured, the legacy
      colouring is the refactored one. */
  lemma {:induction false} NodeAgreesOnFirstString(level: Level, palette: Palette, m: ConsoleMethod, args: seq<Arg>)
    requires IsComplete(palette)
    requires forall j :: 0 <= j < |args| && args[j].Str? && FirstStringIndex(args) != Some(j) ==> IsAnsiColoredString(args[j])
    ensures ApplyNodeColors(level, palette, m, args) == ColorinoNode.ApplyColors(level, palette, m, args)
  {
    ToAnsiPrefixAgrees(level, PaletteHex(palette, m));
    var legacy := ApplyNodeColors(level, palette, m, args);
    var refactored := ColorinoNode.ApplyColors(level, palette, m, args);
    if !IsColorless(level) {
      forall j | 0 <= j < |args| ensures legacy[j] == refactored[j] {
      }
    }
  }

  /** Two plain strings: the legacy class colours only the first, the
      refactored one both. */
  lemma {:induction false} SecondStringLeftPlain(level: Level, palette: Palette, m: ConsoleMethod, a: string, b: string)
    requires IsComplete(palette) && !IsColorless(level) && ESC !in a && ESC !in b
    ensures ApplyNodeColors(level, palette, m, [Str(a), Str(b)])[1] == Str(b)
    ensures ColorinoNode.ApplyColors(level, palette, m, [Str(a), Str(b)])[1] != Str(b)
  {
    NoEscNotColored(a);
    NoEscNotColored(b);
    var r := ColorinoNode.ApplyColors(level, palette, m, [Str(a), Str(b)]);
    assert IsAnsiColoredString(r[1]);
  }

  // ---------------------------------------------------------------
  // _filterStack, _cleanErrorStack, _printCleanTrace
  // ---------------------------------------------------------------

  predicate MentionsColorino(line: string) {
    Contains(Lower(line), "colorino")
  }

  /** The shared line filter, set to hide colorino lines and show the rest. */
  const HideColorino: AbstractColorino.Options := AbstractColorino.Options(None, Some(true), Some(false))

  lemma {:induction false} HideColorinoKeeps(line: string)
    ensures AbstractColorino.KeepLine(HideColorino, line) <==> !MentionsColorino(line)
  {
  }

  /** `_filterStack`: every line the case-insensitive pattern for
      colorino matches (any line that mentions it, in any case) is dropped,
      the first line included; the rest are joined again. */
  function FilterStack(stack: string): string {
    Join(AbstractColorino.FilterLines(HideColorino, Split(stack, '\n')), "\n")
  }

  /** The lines of the result: the surviving lines, or a single empty line
      when none survives. */
  lemma {:induction false} FilterStackLines(stack: string)
    ensures var kept := AbstractColorino.FilterLines(HideColorino, Split(stack, '\n'));
      Split(FilterStack(stack), '\n') == if kept == [] then [""] else kept
  {
    var lines := Split(stack, '\n');
    var kept := AbstractColorino.FilterLines(HideColorino, lines);
    if kept != [] {
      assert forall k :: 0 <= k < |kept| ==> '\n' !in kept[k];
      SplitJoin(kept, '\n');
    }
  }

  /** No line of the result mentions colorino, and every line of the
      input that does not survives; when any survives, the lines of the
      result are exactly the surviving ones, in order and as often as they
      occur (`AbstractColorino.FilterLinesCounts`). */
  lemma {:induction false} FilterStackHidesColorino(stack: string)
    ensures forall k :: 0 <= k < |Split(FilterStack(stack), '\n')| ==> !MentionsColorino(Split(FilterStack(stack), '\n')[k])
    ensures forall k :: 0 <= k < |Split(stack, '\n')| && !MentionsColorino(Split(stack, '\n')[k]) ==>
      Split(stack, '\n')[k] in Split(FilterStack(stack), '\n')
    ensures var kept := AbstractColorino.FilterLines(HideColorino, Split(stack, '\n'));
      kept != [] ==> Split(FilterStack(stack), '\n') == kept
  {
    var lines := Split(stack, '\n');
    var kept := AbstractColorino.FilterLines(HideColorino, lines);
    FilterStackLines(stack);
    forall k | 0 <= k < |kept| ensures !MentionsColorino(kept[k]) {
      HideColorinoKeeps(kept[k]);
    }
    assert !MentionsColorino("") by {
      assert Lower("") == "";
    }
    forall k | 0 <= k < |lines| && !MentionsColorino(lines[k]) ensures lines[k] in kept {
      HideColorinoKeeps(lines[k]);
    }
  }

  /** Lines that all pass the filter are all kept. */
  lemma {:induction false} FilterLinesAllKept(lines: seq<string>)
    requires forall k :: 0 <= k < |lines| ==> !MentionsColorino(lines[k])
    ensures AbstractColorino.FilterLines(HideColorino, lines) == lines
  {
    if lines != [] {
      HideColorinoKeeps(lines[0]);
      FilterLinesAllKept(lines[1..]);
    }
  }

  /** A stack with no line mentioning colorino is left as it is. */
  lemma {:induction false} UnmentionedStackUnchanged(stack: string)
    requires forall k :: 0 <= k < |Split(stack, '\n')| ==> !MentionsColorino(Split(stack, '\n')[k])
    ensures FilterStack(stack) == stack
  {
    FilterLinesAllKept(Split(stack, '\n'));
    JoinSplit(stack, '\n');
  }

  /** Filtering twice is filtering once. */
  lemma {:induction false} FilterStackIdempotent(stack: string)
    ensures FilterStack(FilterStack(stack)) == FilterStack(stack)
  {
    FilterStackHidesColorino(stack);
    UnmentionedStackUnchanged(FilterStack(stack));
  }

  /** Unlike the refactored filter, which keeps an error's header line, a
      header that mentions colorino is dropped with the frames. */
  lemma {:induction false} HeaderMentioningColorinoDropped(header: string, rest: string)
    requires '\n' !in header && MentionsColorino(header)
    ensures FilterStack(header + "\n" + rest) == FilterStack(rest)
  {
    AbstractColorino.SplitFirst(header, rest);
    HideColorinoKeeps(header);
    var lines := [header] + Split(rest, '\n');
    assert lines[0] == header && lines[1..] == Split(rest, '\n');
  }

  /** `_cleanErrorStack`: an error without a stack is returned as it is;
      otherwise a copy whose stack is the filtered one. The copy is made
      with `Object.assign`, which copies only enumerable properties, so
      it does not carry the error's own `message`: it reads the
      prototype's empty one. */
  function CleanErrorStack(e: Arg): (r: Arg)
    requires e.Exception?
    ensures r.Exception?
    ensures e.stack.None? || e.stack == Some("") ==> r == e
    ensures e.stack.Some? && e.stack.value != "" ==> r.message == "" && r.stack == Some(FilterStack(e.stack.value))
    ensures r.stack.Some? <==> e.stack.Some?
  {
    if e.stack.None? || e.stack.value == "" then e
    else Exception("", Some(FilterStack(e.stack.value)))
  }

  /** Cleaning keeps a stack that never mentions colorino, whatever its
      length: the one-frame stack that the refactored class as written
      wipes survives here. Only the message is lost, to the copy. */
  lemma {:induction false} CleanKeepsUnmentionedStack(e: Arg)
    requires e.Exception? && e.stack.Some?
    requires forall k :: 0 <= k < |Split(e.stack.value, '\n')| ==> !MentionsColorino(Split(e.stack.value, '\n')[k])
    ensures CleanErrorStack(e) == if e.stack.value == "" then e else e.(message := "")
  {
    UnmentionedStackUnchanged(e.stack.value);
  }

  /** No line of a cleaned non-empty stack mentions colorino. */
  lemma {:induction false} CleanedStackHidesColorino(e: Arg)
    requires e.Exception? && e.stack.Some? && e.stack.value != ""
    ensures var s := CleanErrorStack(e).stack.value;
      forall k :: 0 <= k < |Split(s, '\n')| ==> !MentionsColorino(Split(s, '\n')[k])
  {
    FilterStackHidesColorino(e.stack.value);
  }

  /** What reaches the console: the method called and its arguments. */
  datatype ConsoleCall = ConsoleCall(target: ConsoleMethod, args: seq<Arg>)

  /** `_printCleanTrace`, given the stack of the fresh `new Error()`: the
      arguments, then the filtered stack on a new line when there is one,
      through `console.log`. */
  function PrintCleanTrace(args: seq<Arg>, stack: Option<string>): (r: ConsoleCall)
    ensures r.target == Log
    ensures |r.args| == |args| + (if stack.Some? && stack.value != "" then 1 else 0)
    ensures r.args[..|args|] == args
  {
    if stack.Some? && stack.value != "" then ConsoleCall(Log, args + [Str("\n" + FilterStack(stack.value))])
    else ConsoleCall(Log, args)
  }

  /** `_output`: `trace` prints the clean trace, any other method prints
      the arguments through itself. */
  function Output(m: ConsoleMethod, args: seq<Arg>, traceStack: Option<string>): (r: ConsoleCall)
    ensures r.target == AbstractColorino.ConsoleTarget(m)
    ensures |r.args| >= |args|
    ensures m != Trace ==> r.args == args
    ensures m == Trace ==> r.args[..|args|] == args
  {
    if m == Trace then PrintCleanTrace(args, traceStack) else ConsoleCall(m, args)
  }

  /** `isConsoleMethod(level) ? level : 'log'`. */
  function MethodOf(level: string): (m: ConsoleMethod)
    ensures IsConsoleMethod(level) ==> MethodName(m) == level
    ensures !IsConsoleMethod(level) ==> m == Log
  {
    var parsed := ParseConsoleMethod(level);
    if parsed.Some? then parsed.value else Log
  }

  /** `_out`: the arguments are processed; without colour they go out as
      they are, in a browser through the `%c` formatter, and otherwise with
      the first string coloured. */
  function Out(l: Logger, level: string, render: AbstractColorino.Clean -> string, args: seq<Arg>, traceStack: Option<string>): (r: ConsoleCall)
    requires IsComplete(l.palette)
    requires !l.isBrowser ==> AbstractColorino.AllWellFormed(args)
    ensures r.target == AbstractColorino.ConsoleTarget(MethodOf(level))
    ensures IsColorless(l.level) && MethodOf(level) != Trace ==> r.args == ProcessArgs(l.isBrowser, l.options, render, args)
    ensures !IsColorless(l.level) && l.isBrowser && args != [] ==> |r.args| > 0 && r.args[0].Str?
  {
    var m := MethodOf(level);
    var processed := ProcessArgs(l.isBrowser, l.options, render, args);
    if IsColorless(l.level) then Output(m, processed, traceStack)
    else if l.isBrowser then Output(m, ApplyBrowserColors(l.palette, m, processed), traceStack)
    else Output(m, ApplyNodeColors(l.level, l.palette, m, processed), traceStack)
  }

  /** The trace line a `trace` call appends never mentions colorino. */
  lemma {:induction false} TraceHidesColorino(args: seq<Arg>, stack: string)
    requires stack != ""
    ensures var r := PrintCleanTrace(args, Some(stack));
      r.args[|args|].Str? && r.args[|args|].s == "\n" + FilterStack(stack) &&
      forall k :: 0 <= k < |Split(FilterStack(stack), '\n')| ==> !MentionsColorino(Split(FilterStack(stack), '\n')[k])
  {
    FilterStackHidesColorino(stack);
  }
}

=== FILE: colorino_browser.dfy ===
/** The browser logger of the refactored generation: CSS styles, the
    `%c`/`%o` format string built for the console, and argument
    sequencing. */
module ColorinoBrowser {
  import opened Wrappers
  import opened Text
  import opened Types
  import opened Values
  import opened TypeValidator
  import opened AbstractColorino

  // ---------------------------------------------------------------
  // _normalizeCssStyle
  // ---------------------------------------------------------------

  /** A style property value: a string, a number (integers only), or a
      value that is always falsy (`undefined`, `null`, `false`). */
  datatype CssValue = CssString(s: string) | CssNumber(n: int) | CssAbsent

  /** An own property of a style object, in insertion order. */
  datatype CssProp = CssProp(name: string, value: CssValue)

  /** A style: CSS text, or an object of properties. */
  datatype CssStyle = CssText(text: string) | CssObject(props: seq<CssProp>)

  /** JavaScript truthiness of a property value. */
  predicate Truthy(v: CssValue) {
    match v
    case CssString(s) => s != ""
    case CssNumber(n) => n != 0
    case CssAbsent => false
  }

  /** Decimal rendering of an integer, `${n}`. */
  function IntToString(n: int): (r: string)
    ensures r != "" && ';' !in r
  {
    var d := NatToString(if n < 0 then -n else n);
    assert forall j :: 0 <= j < |d| ==> IsDigit(d[j]);
    if n < 0 then "-" + d else d
  }

  function RenderValue(v: CssValue): string {
    match v
    case CssString(s) => s
    case CssNumber(n) => IntToString(n)
    case CssAbsent => ""
  }

  /** `${propertyName}:${value}`. */
  function Declaration(p: CssProp): string {
    p.name + ":" + RenderValue(p.value)
  }

  /** The declarations of the truthy properties, in order; every truthy
      property gives one. */
  function Declarations(props: seq<CssProp>): (ds: seq<string>)
    ensures |ds| <= |props|
    ensures forall j :: 0 <= j < |props| && Truthy(props[j].value) ==> Declaration(props[j]) in ds
  {
    DeclarationListFacts(props);
    DeclarationList(props)
  }

  /** The loop over the own properties, keeping the truthy ones. */
  function DeclarationList(props: seq<CssProp>): seq<string> {
    if props == [] then []
    else
      var rest := DeclarationList(props[1..]);
      if Truthy(props[0].value) then [Declaration(props[0])] + rest else rest
  }

  lemma {:induction false} DeclarationListFacts(props: seq<CssProp>)
    ensures |DeclarationList(props)| <= |props|
    ensures forall j :: 0 <= j < |props| && Truthy(props[j].value) ==> Declaration(props[j]) in DeclarationList(props)
  {
    if props != [] {
      DeclarationListFacts(props[1..]);
      forall j | 0 <= j < |props| && Truthy(props[j].value)
        ensures Declaration(props[j]) in DeclarationList(props)
      {
        if j > 0 {
          assert props[1..][j - 1] == props[j];
        }
      }
    }
  }

  /** Conversely, every declaration comes from a truthy property. */
  lemma {:induction false} DeclarationsFromTruthy(props: seq<CssProp>, d: string)
    requires d in Declarations(props)
    ensures exists j :: 0 <= j < |props| && Truthy(props[j].value) && Declaration(props[j]) == d
  {
    if !(Truthy(props[0].value) && d == Declaration(props[0])) {
      DeclarationsFromTruthy(props[1..], d);
      var j :| 0 <= j < |props[1..]| && Truthy(props[1..][j].value) && Declaration(props[1..][j]) == d;
      assert props[j + 1] == props[1..][j];
    }
  }

  /** `_normalizeCssStyle`: text is used as it is; an object becomes its
      truthy properties as `name:value`, joined by `;`. */
  function NormalizeCssStyle(style: CssStyle): (css: string)
    ensures style.CssText? ==> css == style.text
    ensures style.CssObject? && Declarations(style.props) == [] ==> css == ""
    ensures style.CssObject? ==> css == Join(Declarations(style.props), ";")
  {
    match style
    case CssText(t) => t
    case CssObject(props) => Join(Declarations(props), ";")
  }

  /** Property names and string values free of `;`. */
  predicate NoSemicolons(props: seq<CssProp>) {
    forall j :: 0 <= j < |props| ==>
      ';' !in props[j].name && (props[j].value.CssString? ==> ';' !in props[j].value.s)
  }

  /** Splitting the CSS text at `;` gives back one declaration per truthy
      property, in order, when no name or value holds a `;`. */
  lemma {:induction false} NormalizeSplits(props: seq<CssProp>)
    requires NoSemicolons(props)
    requires Declarations(props) != []
    ensures Split(NormalizeCssStyle(CssObject(props)), ';') == Declarations(props)
  {
    var ds := Declarations(props);
    forall k | 0 <= k < |ds| ensures ';' !in ds[k] {
      DeclarationsFromTruthy(props, ds[k]);
      var j :| 0 <= j < |props| && Truthy(props[j].value) && Declaration(props[j]) == ds[k];
      DeclarationNoSemicolon(props[j]);
    }
    SplitJoin(ds, ';');
  }

  lemma {:induction false} DeclarationNoSemicolon(p: CssProp)
    requires ';' !in p.name && (p.value.CssString? ==> ';' !in p.value.s)
    ensures ';' !in Declaration(p)
  {
    var r := RenderValue(p.value);
    assert ';' !in r;
    assert Declaration(p) == p.name + ":" + r;
  }

  /** A falsy property contributes nothing. */
  lemma {:induction false} FalsyDropped(a: seq<CssProp>, p: CssProp, b: seq<CssProp>)
    requires !Truthy(p.value)
    ensures Declarations(a + [p] + b) == Declarations(a + b)
  {
    if a == [] {
      assert a + [p] + b == [p] + b;
      assert ([p] + b)[1..] == b;
      assert a + b == b;
    } else {
      FalsyDropped(a[1..], p, b);
      assert (a + [p] + b)[0] == a[0] && (a + b)[0] == a[0];
      assert (a + [p] + b)[1..] == a[1..] + [p] + b;
      assert (a + b)[1..] == a[1..] + b;
    }
  }

  /** One truthy property in front contributes its declaration in front. */
  lemma {:induction false} DeclarationsCons(p: CssProp, rest: seq<CssProp>)
    requires Truthy(p.value)
    ensures Declarations([p] + rest) == [Declaration(p)] + Declarations(rest)
  {
    assert ([p] + rest)[0] == p;
    assert ([p] + rest)[1..] == rest;
  }

  /** The declarations of two property lists in a row are those of the
      first and then those of the second: with `DeclarationsCons` and
      `FalsyDropped` this fixes both their order and how often each occurs. */
  lemma {:induction false} DeclarationsAppend(a: seq<CssProp>, b: seq<CssProp>)
    ensures Declarations(a + b) == Declarations(a) + Declarations(b)
  {
    DeclarationListAppend(a, b);
  }

  lemma {:induction false} DeclarationListAppend(a: seq<CssProp>, b: seq<CssProp>)
    ensures DeclarationList(a + b) == DeclarationList(a) + DeclarationList(b)
  {
    if a == [] {
      assert a + b == b;
    } else {
      DeclarationListAppend(a[1..], b);
      assert (a + b)[0] == a[0];
      assert (a + b)[1..] == a[1..] + b;
    }
  }

  /** The test suite's object style. */
  lemma {:induction false} CssObjectExample()
    ensures NormalizeCssStyle(CssObject([
      CssProp("color", CssString("red")),
      CssProp("background-color", CssString("black")),
      CssProp("font-weight", CssString("bold"))])) ==
      ("color" + ":" + "red") + ";" + ("background-color" + ":" + "black") + ";" + ("font-weight" + ":" + "bold")
  {
    var p0 := CssProp("color", CssString("red"));
    var p1 := CssProp("background-color", CssString("black"));
    var p2 := CssProp("font-weight", CssString("bold"));
    DeclarationsCons(p2, []);
    assert [p2] + [] == [p2];
    DeclarationsCons(p1, [p2]);
    assert [p1] + [p2] == [p1, p2];
    DeclarationsCons(p0, [p1, p2]);
    assert [p0] + [p1, p2] == [p0, p1, p2];
    assert DeclarationList([p0, p1, p2]) == [Declaration(p0), Declaration(p1), Declaration(p2)];
    JoinThree(Declaration(p0), Declaration(p1), Declaration(p2), ";");
  }

  // ---------------------------------------------------------------
  // css and gradient
  // ---------------------------------------------------------------

  /** `css`: plain text without colour, otherwise a CSS marker carrying
      the normalised style. */
  function ApplyCss(level: Level, text: string, style: CssStyle): (r: Arg)
    ensures IsColorless(level) ==> r == Str(text)
    ensures !IsColorless(level) ==> r.Css? && r.text == text && r.css == NormalizeCssStyle(style)
  {
    if IsColorless(level) then Str(text) else Arg.Css(text, NormalizeCssStyle(style))
  }

  const LinearGradient: string := "background: linear-gradient"
  const WebkitClip: string := "-webkit-background-clip: text"
  const FillTransparent: string := "; -webkit-text-fill-color: transparent; "
  const BackgroundClip: string := "background-clip: text"

  /** The CSS a gradient is drawn with: `background: linear-gradient(to
      right, <start>, <end>); -webkit-background-clip: text;
      -webkit-text-fill-color: transparent; background-clip: text;`. */
  function GradientCss(startHex: string, endHex: string): string {
    LinearGradient + "(to right, " + startHex + ", " + endHex + "); " + WebkitClip + FillTransparent + BackgroundClip + ";"
  }

  /** `gradient`: plain text without colour; otherwise a CSS marker whose
      style is a linear gradient between the two colours, clipped to the
      text. */
  function Gradient(level: Level, text: string, startHex: string, endHex: string): (r: Arg)
    ensures IsColorless(level) ==> r == Str(text)
    ensures !IsColorless(level) ==> r.Css? && r.text == text
    ensures !IsColorless(level) ==> Contains(r.css, startHex) && Contains(r.css, endHex)
    ensures !IsColorless(level) ==> Contains(r.css, LinearGradient)
    ensures !IsColorless(level) ==> Contains(r.css, BackgroundClip) && Contains(r.css, WebkitClip)
  {
    if IsColorless(level) then Str(text)
    else
      GradientCssContains(startHex, endHex);
      Arg.Css(text, GradientCss(startHex, endHex))
  }

  lemma {:induction false} GradientCssContains(startHex: string, endHex: string)
    ensures Contains(GradientCss(startHex, endHex), startHex)
    ensures Contains(GradientCss(startHex, endHex), endHex)
    ensures Contains(GradientCss(startHex, endHex), LinearGradient)
    ensures Contains(GradientCss(startHex, endHex), BackgroundClip)
    ensures Contains(GradientCss(startHex, endHex), WebkitClip)
  {
    ContainsStart(startHex, endHex);
    ContainsEnd(startHex, endHex);
    ContainsLinear(startHex, endHex);
    ContainsWebkit(startHex, endHex);
    ContainsClip(startHex, endHex);
  }

  lemma {:induction false} ContainsStart(startHex: string, endHex: string)
    ensures Contains(GradientCss(startHex, endHex), startHex)
  {
    var a := LinearGradient + "(to right, ";
    var b := ", " + endHex + "); " + WebkitClip + FillTransparent + BackgroundClip + ";";
    assert GradientCss(startHex, endHex) == a + startHex + b;
    ContainsInfix(a, startHex, b);
  }

  lemma {:induction false} ContainsEnd(startHex: string, endHex: string)
    ensures Contains(GradientCss(startHex, endHex), endHex)
  {
    var a := LinearGradient + "(to right, " + startHex + ", ";
    var b := "); " + WebkitClip + FillTransparent + BackgroundClip + ";";
    assert GradientCss(startHex, endHex) == a + endHex + b;
    ContainsInfix(a, endHex, b);
  }

  lemma {:induction false} ContainsLinear(startHex: string, endHex: string)
    ensures Contains(GradientCss(startHex, endHex), LinearGradient)
  {
    var css := GradientCss(startHex, endHex);
    assert css[..|LinearGradient|] == LinearGradient;
    assert OccursAt(css, LinearGradient, 0);
  }

  lemma {:induction false} ContainsWebkit(startHex: string, endHex: string)
    ensures Contains(GradientCss(startHex, endHex), WebkitClip)
  {
    var a := LinearGradient + "(to right, " + startHex + ", " + endHex + "); ";
    var b := FillTransparent + BackgroundClip + ";";
    assert GradientCss(startHex, endHex) == a + WebkitClip + b;
    ContainsInfix(a, WebkitClip, b);
  }

  lemma {:induction false} ContainsClip(startHex: string, endHex: string)
    ensures Contains(GradientCss(startHex, endHex), BackgroundClip)
  {
    var a := LinearGradient + "(to right, " + startHex + ", " + endHex + "); " + WebkitClip + FillTransparent;
    assert GradientCss(startHex, endHex) == a + BackgroundClip + ";";
    ContainsInfix(a, BackgroundClip, ";");
  }

  // ---------------------------------------------------------------
  // _applyColors
  // ---------------------------------------------------------------

  /** The kind of a format placeholder: `%c` takes a CSS string, `%o` an
      object. */
  datatype Slot = StyleSlot | ObjectSlot

  /** Which placeholder an argument gets: colorized and CSS markers and
      strings are styled text, everything else is shown as an object. */
  function SlotOf(a: Arg): Slot {
    if a.Colorized? || a.Css? || a.Str? then StyleSlot else ObjectSlot
  }

  /** The text a styled argument shows. */
  function TextOf(a: Arg): string {
    match a
    case Colorized(t, _) => t
    case Css(t, _) => t
    case Str(s) => s
    case _ => ""
  }

  /** The piece of the format string for one argument. */
  function Placeholder(a: Arg): string {
    if SlotOf(a) == StyleSlot then "%c" + TextOf(a) else "%o"
  }

  /** The value that fills an argument's placeholder: `color:<hex>` for a
      colorized marker, its CSS for a CSS marker, the wrapped value for a
      browser-object marker, `color:<palette hex>` for a string, and the
      argument itself otherwise. */
  function FormatArg(a: Arg, paletteHex: string): (r: Arg)
    ensures SlotOf(a) == StyleSlot ==> r.Str?
  {
    match a
    case Colorized(_, hex) => Str("color:" + hex)
    case Css(_, css) => Str(css)
    case BrowserObj(v) => v
    case Str(_) => Str("color:" + paletteHex)
    case _ => a
  }

  function FormatString(args: seq<Arg>): string {
    if args == [] then "" else Placeholder(args[0]) + FormatString(args[1..])
  }

  function FormatArgs(args: seq<Arg>, paletteHex: string): (r: seq<Arg>)
    ensures |r| == |args|
    ensures forall i :: 0 <= i < |args| ==> r[i] == FormatArg(args[i], paletteHex)
  {
    if args == [] then [] else [FormatArg(args[0], paletteHex)] + FormatArgs(args[1..], paletteHex)
  }

  /** `_applyColors`: no arguments are returned as they are; otherwise the
      format string and then, argument by argument, what fills each
      placeholder. */
  function ApplyColors(palette: Palette, m: ConsoleMethod, args: seq<Arg>): (r: seq<Arg>)
    requires IsComplete(palette)
    ensures args == [] ==> r == args
    ensures args != [] ==> |r| == |args| + 1 && r[0].Str?
    ensures args != [] ==> forall i :: 0 <= i < |args| ==> r[i + 1] == FormatArg(args[i], PaletteHex(palette, m))
  {
    if args == [] then args
    else [Str(FormatString(args))] + FormatArgs(args, PaletteHex(palette, m))
  }

  /** The placeholders of a format string, left to right. */
  function Slots(f: string): seq<Slot>
    decreases |f|
  {
    if |f| < 2 then []
    else if f[0] == '%' && f[1] == 'c' then [StyleSlot] + Slots(f[2..])
    else if f[0] == '%' && f[1] == 'o' then [ObjectSlot] + Slots(f[2..])
    else Slots(f[1..])
  }

  /** Text without `%` holds no placeholder. */
  lemma {:induction false} SlotsSkip(t: string, rest: string)
    requires '%' !in t
    ensures Slots(t + rest) == Slots(rest)
    decreases |t|
  {
    if t != [] {
      var s := t + rest;
      assert s[0] == t[0] && t[0] in t;
      assert s[1..] == t[1..] + rest;
      assert forall x :: x in t[1..] ==> x in t;
      SlotsSkip(t[1..], rest);
      if |s| < 2 {
        assert rest == [];
        assert t[1..] + rest == [];
      }
    } else {
      assert t + rest == rest;
    }
  }

  /** One placeholder, then the rest. */
  lemma {:induction false} SlotsPlaceholder(a: Arg, rest: string)
    requires '%' !in TextOf(a)
    ensures Slots(Placeholder(a) + rest) == [SlotOf(a)] + Slots(rest)
  {
    var s := Placeholder(a) + rest;
    if SlotOf(a) == StyleSlot {
      assert s[0] == '%' && s[1] == 'c';
      assert s[2..] == TextOf(a) + rest;
      SlotsSkip(TextOf(a), rest);
    } else {
      assert s[0] == '%' && s[1] == 'o';
      assert s[2..] == rest;
    }
  }

  /** The arguments' placeholder kinds, in order. */
  function SlotsOf(args: seq<Arg>): (r: seq<Slot>)
    ensures |r| == |args|
    ensures forall i :: 0 <= i < |args| ==> r[i] == SlotOf(args[i])
  {
    if args == [] then [] else [SlotOf(args[0])] + SlotsOf(args[1..])
  }

  lemma {:induction false} FormatStringSlots(args: seq<Arg>)
    requires forall i :: 0 <= i < |args| ==> '%' !in TextOf(args[i])
    ensures Slots(FormatString(args)) == SlotsOf(args)
  {
    if args != [] {
      FormatStringSlots(args[1..]);
      SlotsPlaceholder(args[0], FormatString(args[1..]));
    }
  }

  /** The format string's placeholders follow the arguments one for one,
      and the i-th placeholder is filled by the i-th format argument: a
      CSS string for every `%c`. Holds when no shown text contains `%`. */
  lemma {:induction false} PlaceholdersMatchArgs(palette: Palette, m: ConsoleMethod, args: seq<Arg>)
    requires IsComplete(palette) && args != []
    requires forall i :: 0 <= i < |args| ==> '%' !in TextOf(args[i])
    ensures var r := ApplyColors(palette, m, args);
      Slots(r[0].s) == SlotsOf(args) &&
      forall i :: 0 <= i < |args| && Slots(r[0].s)[i] == StyleSlot ==> r[i + 1].Str?
  {
    FormatStringSlots(args);
    assert ApplyColors(palette, m, args)[0] == Str(FormatString(args));
  }

  /** A colorized override, then a plain string. */
  lemma {:induction false} OverrideExample(palette: Palette)
    requires IsComplete(palette) && PaletteHex(palette, Log) == "#ffffff"
    ensures ApplyColors(palette, Log, [Colorized("OVERRIDE", "#ff5733"), Str("normal")]) ==
      [Str("%cOVERRIDE" + "%cnormal"), Str("color:" + "#ff5733"), Str("color:" + "#ffffff")]
  {
    var args := [Colorized("OVERRIDE", "#ff5733"), Str("normal")];
    assert args[1..] == [Str("normal")];
    assert args[1..][1..] == [];
    assert FormatString(args[1..]) == "%cnormal" by {
      assert FormatString(args[1..]) == "%cnormal" + "";
      assert "%cnormal" + "" == "%cnormal";
    }
    assert FormatString(args) == "%cOVERRIDE" + "%cnormal";
    var r := ApplyColors(palette, Log, args);
    assert |r| == 3;
    assert r[0] == Str("%cOVERRIDE" + "%cnormal");
    assert r[1] == Str("color:" + "#ff5733");
    assert r[2] == Str("color:" + "#ffffff");
  }

  // ---------------------------------------------------------------
  // _processArgs
  // ---------------------------------------------------------------

  /** Whether an argument makes the next string start on a new line:
      objects and errors do, the colour markers do not. */
  predicate BreaksLine(a: Arg) {
    !IsBrowserColorizedArg(a) && !IsBrowserCssArg(a) && (IsFormattableObject(a) || IsError(a))
  }

  /** What one argument becomes: a marker itself, an object the
      browser-object marker around it, an error a newline and the error as
      the base `cleanErrorStack` leaves it, a string right after an object or error the string with a
      leading newline. */
  function ProcessOne(o: Options, a: Arg, previousWasObject: bool): (r: seq<Arg>)
    ensures |r| == if a.Exception? then 2 else 1
    ensures forall i :: 0 <= i < |r| ==> !r[i].Obj?
    ensures a.Colorized? || a.Css? ==> r == [a]
    ensures a.Obj? || a.BrowserObj? ==> r == [BrowserObj(a)]
    ensures a.Exception? ==> r == [Str("\n"), CleanErrorStackAsWritten(o, a)]
    ensures a.Str? && previousWasObject ==> r == [Str("\n" + a.s)]
    ensures a.Other? || (a.Str? && !previousWasObject) ==> r == [a]
  {
    if IsBrowserColorizedArg(a) || IsBrowserCssArg(a) then [a]
    else if IsFormattableObject(a) then [BrowserObj(a)]
    else if IsError(a) then [Str("\n"), CleanErrorStackAsWritten(o, a)]
    else [if IsString(a) && previousWasObject then Str("\n" + a.s) else a]
  }

  /** Every plain object has been wrapped for `%o`. */
  predicate NoPlainObjects(r: seq<Arg>) {
    forall i :: 0 <= i < |r| ==> !r[i].Obj?
  }

  /** `_processArgs` from a given `previousWasObject`. */
  function ProcessFrom(o: Options, args: seq<Arg>, previousWasObject: bool): (r: seq<Arg>)
    ensures |r| == |args| + ErrorCount(args)
  {
    if args == [] then []
    else ProcessOne(o, args[0], previousWasObject) + ProcessFrom(o, args[1..], BreaksLine(args[0]))
  }

  /** No plain object is left: each has been wrapped for `%o`. */
  lemma {:induction false} ProcessWrapsObjects(o: Options, args: seq<Arg>, prev: bool)
    ensures NoPlainObjects(ProcessFrom(o, args, prev))
  {
    if args != [] {
      ProcessWrapsObjects(o, args[1..], BreaksLine(args[0]));
      var h: seq<Arg> := ProcessOne(o, args[0], prev);
      var t: seq<Arg> := ProcessFrom(o, args[1..], BreaksLine(args[0]));
      forall i | 0 <= i < |h + t| ensures !(h + t)[i].Obj? {
        if i < |h| {
          assert (h + t)[i] == h[i];
        } else {
          assert (h + t)[i] == t[i - |h|];
        }
      }
    }
  }

  function ProcessArgs(o: Options, args: seq<Arg>): seq<Arg> {
    ProcessFrom(o, args, false)
  }

  /** In the browser too, `_processArgs` turns a thrown error with a
      single frame into a newline and the error with its message and an
      empty stack. */
  lemma {:induction false} OneFrameErrorLogged(o: Options)
    ensures ProcessArgs(o, [Exception("boom", Some("Error: boom" + "\n" + "    at f (a.js:1:2)"))])
      == [Str("\n"), Exception("boom", Some(""))]
  {
    var e := Exception("boom", Some("Error: boom" + "\n" + "    at f (a.js:1:2)"));
    OneFrameStackWipedExample(o);
    assert [e][1..] == [];
    assert ProcessFrom(o, [e], false) == ProcessOne(o, e, false) + ProcessFrom(o, [], true);
  }

  function EndsAfterObject(args: seq<Arg>, previousWasObject: bool): bool {
    if args == [] then previousWasObject else BreaksLine(args[|args| - 1])
  }

  /** One step of the pass. */
  lemma {:induction false} ProcessCons(o: Options, x: Arg, rest: seq<Arg>, prev: bool)
    ensures ProcessFrom(o, [x] + rest, prev) == ProcessOne(o, x, prev) + ProcessFrom(o, rest, BreaksLine(x))
  {
    assert ([x] + rest)[0] == x;
    assert ([x] + rest)[1..] == rest;
  }

  /** Processing is a left-to-right pass. */
  lemma {:induction false} ProcessAppend(o: Options, a: seq<Arg>, b: seq<Arg>, prev: bool)
    ensures ProcessFrom(o, a + b, prev) == ProcessFrom(o, a, prev) + ProcessFrom(o, b, EndsAfterObject(a, prev))
  {
    if a == [] {
      assert a + b == b;
    } else {
      var x := a[0];
      var t := a[1..];
      var p := BreaksLine(x);
      var head := ProcessOne(o, x, prev);
      var u := ProcessFrom(o, t, p);
      var v := ProcessFrom(o, b, EndsAfterObject(a, prev));
      ProcessAppend(o, t, b, p);
      EndsAfterTail(a, prev);
      ProcessConsAppend(o, a, b, prev);
      AppendAssoc(head, u, v);
    }
  }

  /** The first step of the pass over `a + b` and over `a`. */
  lemma {:induction false} ProcessConsAppend(o: Options, a: seq<Arg>, b: seq<Arg>, prev: bool)
    requires a != []
    ensures ProcessFrom(o, a + b, prev) == ProcessOne(o, a[0], prev) + ProcessFrom(o, a[1..] + b, BreaksLine(a[0]))
    ensures ProcessFrom(o, a, prev) == ProcessOne(o, a[0], prev) + ProcessFrom(o, a[1..], BreaksLine(a[0]))
  {
    AppendHead(a, b);
  }

  /** The flag after the tail, started from the head's, is the flag after
      the whole. */
  lemma {:induction false} EndsAfterTail(a: seq<Arg>, prev: bool)
    requires a != []
    ensures EndsAfterObject(a[1..], BreaksLine(a[0])) == EndsAfterObject(a, prev)
  {
    if a[1..] != [] {
      assert a[1..][|a[1..]| - 1] == a[|a| - 1];
    }
  }

  /** Markers, strings and other primitives pass through unchanged when no
      object or error precedes them. */
  lemma {:induction false} ProcessPlainUnchanged(o: Options, args: seq<Arg>)
    requires forall i :: 0 <= i < |args| ==> args[i].Str? || args[i].Other? || args[i].Colorized? || args[i].Css?
    ensures ProcessFrom(o, args, false) == args
  {
    if args != [] {
      ProcessPlainUnchanged(o, args[1..]);
    }
  }

  /** The test suite's mix of strings, colorized markers and an object: the
      object becomes a `%o` between the styled pieces. */
  lemma {:induction false} OrderExample(o: Options, palette: Palette, h: Heap, root: nat)
    requires IsComplete(palette) && PaletteHex(palette, Log) == "#00ff00"
    ensures
      var first := Colorized("FIRST", "#ff0000");
      var second := Colorized("SECOND", "#0000ff");
      var meta := Obj(h, root);
      ApplyColors(palette, Log, ProcessArgs(o, [Str("pre"), first, Str("mid"), meta, second, Str("post")])) ==
        [Str("%cpre" + "%cFIRST" + "%cmid" + "%o" + "%cSECOND" + "%cpost"),
         Str("color:" + "#00ff00"), Str("color:" + "#ff0000"), Str("color:" + "#00ff00"), meta,
         Str("color:" + "#0000ff"), Str("color:" + "#00ff00")]
  {
    var first := Colorized("FIRST", "#ff0000");
    var second := Colorized("SECOND", "#0000ff");
    var meta := Obj(h, root);
    OrderProcessed(o, first, meta, second);
    OrderFormatted(palette, first, meta, second);
  }

  lemma {:induction false} OrderProcessed(o: Options, first: Arg, meta: Arg, second: Arg)
    requires first.Colorized? && second.Colorized? && meta.Obj?
    ensures ProcessArgs(o, [Str("pre"), first, Str("mid"), meta, second, Str("post")]) ==
      [Str("pre"), first, Str("mid"), BrowserObj(meta), second, Str("post")]
  {
    var a := [Str("pre"), first, Str("mid")];
    var b := [meta];
    var c := [second, Str("post")];
    ProcessPlainUnchanged(o, a);
    ColorizedAfterObject(o, second);
    ObjectWrapped(o, meta);
    ProcessAppend(o, a, b, false);
    ProcessAppend(o, a + b, c, false);
    assert EndsAfterObject(a + b, false) by {
      assert (a + b)[|a + b| - 1] == meta;
    }
    assert a + b + c == [Str("pre"), first, Str("mid"), meta, second, Str("post")];
  }

  /** Behind an object, a colorized argument and a string pass unchanged. */
  lemma {:induction false} ColorizedAfterObject(o: Options, second: Arg)
    requires second.Colorized?
    ensures ProcessFrom(o, [second, Str("post")], true) == [second, Str("post")]
  {
    ProcessPlainUnchanged(o, [Str("post")]);
    ProcessCons(o, second, [Str("post")], true);
    assert [second] + [Str("post")] == [second, Str("post")];
  }

  /** A lone object is wrapped for `%o`. */
  lemma {:induction false} ObjectWrapped(o: Options, meta: Arg)
    requires meta.Obj?
    ensures ProcessFrom(o, [meta], false) == [BrowserObj(meta)]
  {
    ProcessCons(o, meta, [], false);
    assert [meta] + [] == [meta];
  }

  lemma {:induction false} OrderFormatted(palette: Palette, first: Arg, meta: Arg, second: Arg)
    requires IsComplete(palette) && PaletteHex(palette, Log) == "#00ff00"
    requires first == Colorized("FIRST", "#ff0000") && second == Colorized("SECOND", "#0000ff") && meta.Obj?
    ensures ApplyColors(palette, Log, [Str("pre"), first, Str("mid"), BrowserObj(meta), second, Str("post")]) ==
        [Str("%cpre" + "%cFIRST" + "%cmid" + "%o" + "%cSECOND" + "%cpost"),
         Str("color:" + "#00ff00"), Str("color:" + "#ff0000"), Str("color:" + "#00ff00"), meta,
         Str("color:" + "#0000ff"), Str("color:" + "#00ff00")]
  {
    var p := [Str("pre"), first, Str("mid"), BrowserObj(meta), second, Str("post")];
    var r := ApplyColors(palette, Log, p);
    OrderFormatString(first, meta, second);
    assert r[0] == Str(FormatString(p));
    assert r[1] == FormatArg(p[0], "#00ff00");
    assert r[2] == FormatArg(p[1], "#00ff00");
    assert r[3] == FormatArg(p[2], "#00ff00");
    assert r[4] == FormatArg(p[3], "#00ff00");
    assert r[5] == FormatArg(p[4], "#00ff00");
    assert r[6] == FormatArg(p[5], "#00ff00");
  }

  lemma {:induction false} OrderFormatString(first: Arg, meta: Arg, second: Arg)
    requires first == Colorized("FIRST", "#ff0000") && second == Colorized("SECOND", "#0000ff") && meta.Obj?
    ensures FormatString([Str("pre"), first, Str("mid"), BrowserObj(meta), second, Str("post")]) ==
      "%cpre" + "%cFIRST" + "%cmid" + "%o" + "%cSECOND" + "%cpost"
  {
    FormatSix(Str("pre"), first, Str("mid"), BrowserObj(meta), second, Str("post"));
    OrderPlaceholders(first, meta, second);
    AppendSix("%cpre", "%cFIRST", "%cmid", "%o", "%cSECOND", "%cpost");
  }

  /** The format string of six arguments, placeholder by placeholder. */
  lemma {:induction false} FormatSix(a: Arg, b: Arg, c: Arg, d: Arg, e: Arg, f: Arg)
    ensures FormatString([a, b, c, d, e, f]) ==
      Placeholder(a) + (Placeholder(b) + (Placeholder(c) + (Placeholder(d) + (Placeholder(e) + (Placeholder(f) + "")))))
  {
    var q5, q4, q3, q2, q1, q0 := [f], [e, f], [d, e, f], [c, d, e, f], [b, c, d, e, f], [a, b, c, d, e, f];
    assert q5[1..] == [] && q4[1..] == q5 && q3[1..] == q4 && q2[1..] == q3 && q1[1..] == q2 && q0[1..] == q1;
    assert FormatString(q5) == Placeholder(f) + "";
    assert FormatString(q4) == Placeholder(e) + FormatString(q5);
    assert FormatString(q3) == Placeholder(d) + FormatString(q4);
    assert FormatString(q2) == Placeholder(c) + FormatString(q3);
    assert FormatString(q1) == Placeholder(b) + FormatString(q2);
    assert FormatString(q0) == Placeholder(a) + FormatString(q1);
  }

  lemma {:induction false} OrderPlaceholders(first: Arg, meta: Arg, second: Arg)
    requires first == Colorized("FIRST", "#ff0000") && second == Colorized("SECOND", "#0000ff") && meta.Obj?
    ensures Placeholder(Str("pre")) == "%cpre" && Placeholder(first) == "%cFIRST"
    ensures Placeholder(Str("mid")) == "%cmid" && Placeholder(BrowserObj(meta)) == "%o"
    ensures Placeholder(second) == "%cSECOND" && Placeholder(Str("post")) == "%cpost"
  {
    assert "%c" + "pre" == "%cpre" && "%c" + "FIRST" == "%cFIRST" && "%c" + "mid" == "%cmid";
    assert "%c" + "SECOND" == "%cSECOND" && "%c" + "post" == "%cpost";
  }

  /** `_processArgs` and then `_applyColors` turn a style made with `css`
      into `%c<text>` and its CSS. */
  lemma {:induction false} CssFormattedAsStyle(o: Options, level: Level, palette: Palette, m: ConsoleMethod, text: string, style: CssStyle)
    requires IsComplete(palette) && !IsColorless(level)
    ensures ApplyColors(palette, m, ProcessArgs(o, [ApplyCss(level, text, style)])) ==
      [Str("%c" + text), Str(NormalizeCssStyle(style))]
  {
    var a := ApplyCss(level, text, style);
    ProcessPlainUnchanged(o, [a]);
    assert ProcessArgs(o, [a]) == [a];
    assert [a][1..] == [];
    assert FormatString([a]) == Placeholder(a) + "";
    assert Placeholder(a) == "%c" + text;
    var r := ApplyColors(palette, m, [a]);
    assert |r| == 2;
    assert r[0] == Str("%c" + text);
    assert r[1] == FormatArg(a, PaletteHex(palette, m)) == Str(NormalizeCssStyle(style));
  }
}

=== FILE: colorino_node.dfy ===
/** The Node logger of the refactored generation: the ANSI prefix per
    colour level, colouring of string arguments, argument sequencing and
    the gradient guard. */
module ColorinoNode {
  import opened Wrappers
  import opened Text
  import opened Types
  import opened Values
  import opened TypeValidator
  import opened ColorConverter
  import opened AbstractColorino

  // ---------------------------------------------------------------
  // _toAnsiPrefix
  // ---------------------------------------------------------------

  /** The foreground colour an escape selects: 24-bit, 256-colour or one of
      the 16 basic codes. */
  datatype Foreground = Fg24(r: nat, g: nat, b: nat) | Fg256(code: nat) | Fg16(code: nat)

  /** The colour a level picks for a palette colour: the exact bytes in
      true colour, the nearest 256-colour index, or the nearest 16-colour
      code (the fallback for every other level). */
  function ForegroundOf(l: ColorLevel, hex: string): (f: Foreground)
    ensures l == TrueColor ==> f == Fg24(HexToRgb(hex).r, HexToRgb(hex).g, HexToRgb(hex).b)
    ensures l == Ansi256 ==> f.Fg256? && 16 <= f.code <= 255
    ensures l != TrueColor && l != Ansi256 ==> f.Fg16? && (30 <= f.code <= 37 || 90 <= f.code <= 97)
  {
    match l
    case TrueColor =>
      var c := HexToRgb(hex);
      Fg24(c.r, c.g, c.b)
    case Ansi256 => Fg256(HexToAnsi256(hex))
    case _ => Fg16(HexToAnsi16(hex))
  }

  /** The SGR parameters, as the template literals write them. */
  function Params(f: Foreground): seq<string> {
    match f
    case Fg24(r, g, b) => ["38", "2", NatToString(r), NatToString(g), NatToString(b)]
    case Fg256(code) => ["38", "5", NatToString(code)]
    case Fg16(code) => [NatToString(code)]
  }

  /** `ESC [ params m`. */
  function SgrPrefix(params: string): string {
    [ESC, '['] + params + "m"
  }

  predicate AllSgrParams(s: string) {
    forall j :: 0 <= j < |s| ==> IsSgrParam(s[j])
  }

  /** Every piece is a non-empty run of decimal digits. */
  predicate NumericParts(parts: seq<string>) {
    forall k :: 0 <= k < |parts| ==> parts[k] != "" && AllDigits(parts[k])
  }

  /** The foreground colour a list of `;`-separated parameters selects,
      if it is one of the three shapes the logger writes. */
  function DecodeParts(parts: seq<string>): Option<Foreground> {
    if !NumericParts(parts) then None
    else if |parts| == 5 && parts[0] == "38" && parts[1] == "2" then
      Some(Fg24(DigitsValue(parts[2]), DigitsValue(parts[3]), DigitsValue(parts[4])))
    else if |parts| == 3 && parts[0] == "38" && parts[1] == "5" then Some(Fg256(DigitsValue(parts[2])))
    else if |parts| == 1 then Some(Fg16(DigitsValue(parts[0])))
    else None
  }

  /** Reads the foreground colour back from an escape. */
  function DecodePrefix(p: string): Option<Foreground> {
    if |p| < 3 || p[0] != ESC || p[1] != '[' || p[|p| - 1] != 'm' then None
    else DecodeParts(Split(p[2..|p| - 1], ';'))
  }

  /** A digit string is made of parameter characters and holds no `;`. */
  lemma {:induction false} DigitsAreParams(s: string)
    requires AllDigits(s)
    ensures AllSgrParams(s) && ';' !in s
  {
    forall j | 0 <= j < |s| ensures IsSgrParam(s[j]) && s[j] != ';' {
      assert IsDigit(s[j]);
    }
  }

  /** Joining parameter pieces with `;` stays within parameter characters. */
  lemma {:induction false} JoinParams(parts: seq<string>)
    requires forall k :: 0 <= k < |parts| ==> AllSgrParams(parts[k])
    ensures AllSgrParams(Join(parts, ";"))
  {
    if |parts| > 1 {
      JoinParams(parts[1..]);
      var s := Join(parts, ";");
      var tail := Join(parts[1..], ";");
      assert s == parts[0] + ";" + tail;
      forall j | 0 <= j < |s| ensures IsSgrParam(s[j]) {
        if j < |parts[0]| {
          assert s[j] == parts[0][j];
        } else if j > |parts[0]| {
          assert s[j] == tail[j - |parts[0]| - 1];
        }
      }
    }
  }

  /** The pieces of a foreground's parameters are digit strings. */
  lemma {:induction false} ParamsPieces(f: Foreground)
    ensures |Params(f)| >= 1 && NumericParts(Params(f))
    ensures forall k :: 0 <= k < |Params(f)| ==> ';' !in Params(f)[k] && AllSgrParams(Params(f)[k])
  {
    var ps := Params(f);
    assert AllDigits("38") && AllDigits("2") && AllDigits("5");
    forall k | 0 <= k < |ps| ensures ';' !in ps[k] && AllSgrParams(ps[k]) {
      DigitsAreParams(ps[k]);
    }
  }

  /** The parameter string of a foreground colour. */
  function ForegroundParams(f: Foreground): (params: string)
    ensures AllSgrParams(params)
  {
    ParamsPieces(f);
    JoinParams(Params(f));
    Join(Params(f), ";")
  }

  /** The parameters decode to the colour they were written from. */
  lemma {:induction false} DecodeParams(f: Foreground)
    ensures DecodeParts(Params(f)) == Some(f)
  {
    ParamsPieces(f);
    match f
    case Fg24(r, g, b) =>
      DigitsValueOfNatToString(r);
      DigitsValueOfNatToString(g);
      DigitsValueOfNatToString(b);
    case Fg256(code) =>
      DigitsValueOfNatToString(code);
    case Fg16(code) =>
      DigitsValueOfNatToString(code);
  }

  /** Splitting the parameter string at `;` gives the pieces back. */
  lemma {:induction false} SplitParams(f: Foreground)
    ensures Split(ForegroundParams(f), ';') == Params(f)
  {
    ParamsPieces(f);
    SplitJoin(Params(f), ';');
  }

  /** Decoding undoes encoding. */
  lemma {:induction false} DecodeEncode(f: Foreground)
    ensures DecodePrefix(SgrPrefix(ForegroundParams(f))) == Some(f)
  {
    var params := ForegroundParams(f);
    var p := SgrPrefix(params);
    assert p[2..|p| - 1] == params;
    SplitParams(f);
    DecodeParams(f);
  }

  /** An escape of the shape `ESC [ params m`. */
  predicate IsSgrEscape(p: string) {
    |p| >= 3 && p[0] == ESC && p[1] == '[' && p[|p| - 1] == 'm' && AllSgrParams(p[2..|p| - 1])
  }

  /** `_toAnsiPrefix`: nothing without colour; otherwise an SGR escape. */
  function ToAnsiPrefix(level: Level, hex: string): (p: string)
    ensures p == "" <==> IsColorless(level)
    ensures !IsColorless(level) ==> IsSgrEscape(p)
  {
    if IsColorless(level) then ""
    else
      var params := ForegroundParams(ForegroundOf(level.level, hex));
      var p := SgrPrefix(params);
      assert p[2..|p| - 1] == params;
      p
  }

  /** The escape selects the level's foreground colour for the hex code:
      decoding it gives that colour back. */
  lemma {:induction false} ToAnsiPrefixDecodes(level: Level, hex: string)
    requires !IsColorless(level)
    ensures DecodePrefix(ToAnsiPrefix(level, hex)) == Some(ForegroundOf(level.level, hex))
  {
    DecodeEncode(ForegroundOf(level.level, hex));
  }

  /** An escape and the reset around a text make an ANSI-coloured string. */
  lemma {:induction false} PrefixedIsColored(p: string, text: string)
    requires IsSgrEscape(p)
    ensures IsAnsiColoredString(Str(p + text + Reset))
  {
    var params := p[2..|p| - 1];
    assert p == [ESC, '['] + params + "m";
    WrappedIsAnsiColored(params, text);
    assert p + text + Reset == [ESC, '['] + params + "m" + text + [ESC] + "[0m";
  }

  /** The escapes the template literals spell for each kind of colour. */
  lemma {:induction false} Fg24Escape(r: nat, g: nat, b: nat)
    ensures SgrPrefix(ForegroundParams(Fg24(r, g, b))) ==
      [ESC] + "[38;2;" + NatToString(r) + ";" + NatToString(g) + ";" + NatToString(b) + "m"
  {
    var x, y, z := NatToString(r), NatToString(g), NatToString(b);
    assert Params(Fg24(r, g, b)) == ["38", "2", x, y, z];
    JoinFive("38", "2", x, y, z, ";");
    JoinThree(x, y, z, ";");
    Fg24Text(x, y, z);
  }

  lemma {:induction false} Fg24Text(x: string, y: string, z: string)
    ensures SgrPrefix("38" + ";" + "2" + ";" + (x + ";" + y + ";" + z)) ==
      [ESC] + "[38;2;" + x + ";" + y + ";" + z + "m"
  {
    assert [ESC, '['] + "38" + ";" + "2" + ";" == [ESC] + "[38;2;";
  }

  lemma {:induction false} Fg256Escape(code: nat)
    ensures SgrPrefix(ForegroundParams(Fg256(code))) == [ESC] + "[38;5;" + NatToString(code) + "m"
  {
    var c := NatToString(code);
    assert Params(Fg256(code)) == ["38", "5", c];
    JoinThree("38", "5", c, ";");
    assert [ESC, '['] + "38" + ";" + "5" + ";" == [ESC] + "[38;5;";
  }

  lemma {:induction false} Fg16Escape(code: nat)
    ensures SgrPrefix(ForegroundParams(Fg16(code))) == [ESC] + "[" + NatToString(code) + "m"
  {
    assert Params(Fg16(code)) == [NatToString(code)];
  }

  /** The bytes of the test suite's colours. */
  lemma {:induction false} OrangeBytes()
    ensures HexToRgb("#ff5733") == Rgb(255, 87, 51)
  {
    assert "#ff5733" == "#" + "ff5733" + "";
    assert AllHex("ff5733");
    HexToRgbOfSixDigits("#", "ff5733", "");
  }

  lemma {:induction false} GreenBytes()
    ensures HexToRgb("#00ff00") == Rgb(0, 255, 0)
  {
    assert "#00ff00" == "#" + "00ff00" + "";
    assert AllHex("00ff00");
    HexToRgbOfSixDigits("#", "00ff00", "");
  }

  /** Green's 256-colour and 16-colour codes. */
  lemma {:induction false} GreenCodes()
    ensures RgbToAnsi256(Rgb(0, 255, 0)) == 46
    ensures RgbToAnsi16(Rgb(0, 255, 0)) == 92
  {
  }

  /** The colours the test suite's hex codes select at each level. */
  lemma {:induction false} TrueColorForeground()
    ensures ForegroundOf(TrueColor, "#ff5733") == Fg24(255, 87, 51)
  {
    OrangeBytes();
  }

  lemma {:induction false} Ansi256Foreground()
    ensures ForegroundOf(Ansi256, "#00ff00") == Fg256(46)
  {
    GreenBytes();
    GreenCodes();
  }

  lemma {:induction false} Ansi16Foreground()
    ensures ForegroundOf(Ansi, "#00ff00") == Fg16(92)
  {
    GreenBytes();
    GreenCodes();
  }

  /** The decimal renderings of the test suite's numbers. */
  lemma {:induction false} SuiteRenderings()
    ensures NatToString(255) == "255" && NatToString(87) == "87" && NatToString(51) == "51"
    ensures NatToString(46) == "46" && NatToString(92) == "92"
  {
  }

  /** The test suite's prefixes: `#ff5733` in true colour, `#00ff00` in 256 and
      16 colours. */
  lemma {:induction false} TrueColorPrefixExample()
    ensures ToAnsiPrefix(Known(TrueColor), "#ff5733") == [ESC] + "[38;2;" + "255" + ";" + "87" + ";" + "51" + "m"
  {
    TrueColorForeground();
    Fg24Escape(255, 87, 51);
    SuiteRenderings();
  }

  lemma {:induction false} Ansi256PrefixExample()
    ensures ToAnsiPrefix(Known(Ansi256), "#00ff00") == [ESC] + "[38;5;" + "46" + "m"
  {
    Ansi256Foreground();
    Fg256Escape(46);
    SuiteRenderings();
  }

  lemma {:induction false} Ansi16PrefixExample()
    ensures ToAnsiPrefix(Known(Ansi), "#00ff00") == [ESC] + "[" + "92" + "m"
  {
    Ansi16Foreground();
    Fg16Escape(92);
    SuiteRenderings();
  }

  // ---------------------------------------------------------------
  // _applyColors
  // ---------------------------------------------------------------

  /** One argument under a non-empty prefix: a string not yet coloured is
      wrapped, anything else is left alone. */
  function ColorArg(prefix: string, a: Arg): Arg {
    if a.Str? && !IsAnsiColoredString(a) then Str(prefix + a.s + Reset) else a
  }

  function ColorAll(prefix: string, args: seq<Arg>): (r: seq<Arg>)
    ensures |r| == |args|
    ensures forall i :: 0 <= i < |args| ==> r[i] == ColorArg(prefix, args[i])
  {
    if args == [] then [] else [ColorArg(prefix, args[0])] + ColorAll(prefix, args[1..])
  }

  /** `_applyColors`: with a prefix for the method's palette colour, every
      string that is not already ANSI-coloured is wrapped in it and the
      reset; nothing else changes, and without a prefix nothing does. */
  function ApplyColors(level: Level, palette: Palette, m: ConsoleMethod, args: seq<Arg>): (r: seq<Arg>)
    requires IsComplete(palette)
    ensures |r| == |args|
    ensures IsColorless(level) ==> r == args
    ensures forall i :: 0 <= i < |args| && !args[i].Str? ==> r[i] == args[i]
    ensures forall i :: 0 <= i < |args| && IsAnsiColoredString(args[i]) ==> r[i] == args[i]
    ensures !IsColorless(level) ==> forall i :: 0 <= i < |args| && args[i].Str? && !IsAnsiColoredString(args[i]) ==>
      r[i] == Str(ToAnsiPrefix(level, PaletteHex(palette, m)) + args[i].s + Reset)
    ensures !IsColorless(level) ==> forall i :: 0 <= i < |r| && r[i].Str? ==> IsAnsiColoredString(r[i])
  {
    var prefix := ToAnsiPrefix(level, PaletteHex(palette, m));
    if prefix == "" then args
    else
      var r := ColorAll(prefix, args);
      forall i | 0 <= i < |r| && r[i].Str? ensures IsAnsiColoredString(r[i]) {
        if !IsAnsiColoredString(args[i]) {
          PrefixedIsColored(ToAnsiPrefix(level, PaletteHex(palette, m)), args[i].s);
        }
      }
      r
  }

  /** Colouring twice is colouring once. */
  lemma {:induction false} ApplyColorsIdempotent(level: Level, palette: Palette, m: ConsoleMethod, args: seq<Arg>)
    requires IsComplete(palette)
    ensures ApplyColors(level, palette, m, ApplyColors(level, palette, m, args)) == ApplyColors(level, palette, m, args)
  {
    var once := ApplyColors(level, palette, m, args);
    var twice := ApplyColors(level, palette, m, once);
    if !IsColorless(level) {
      forall i | 0 <= i < |once| ensures twice[i] == once[i] {
        if once[i].Str? {
          assert IsAnsiColoredString(once[i]);
        }
      }
    }
  }

  // ---------------------------------------------------------------
  // _processArgs
  // ---------------------------------------------------------------

  /** Whether an argument makes the next string start on a new line. */
  predicate BreaksLine(a: Arg) {
    IsFormattableObject(a) || IsError(a)
  }

  /** What one argument becomes: an object its formatted text after a
      newline, an error a newline and the error as the base
      `cleanErrorStack` leaves it, a string right after either of them the
      string with a leading newline. */
  function ProcessOne(o: Options, render: Clean -> string, a: Arg, previousWasObject: bool): (r: seq<Arg>)
    requires WellFormed(a)
    ensures |r| == if a.Exception? then 2 else 1
    ensures forall i :: 0 <= i < |r| ==> !IsFormattableObject(r[i])
    ensures !BreaksLine(a) && !(a.Str? && previousWasObject) ==> r == [a]
    ensures a.Exception? ==> r == [Str("\n"), CleanErrorStackAsWritten(o, a)]
    ensures IsFormattableObject(a) ==> r == [Str("\n" + FormatValue(render, a, o))]
    ensures a.Str? && previousWasObject ==> r == [Str("\n" + a.s)]
  {
    if IsFormattableObject(a) then [Str("\n" + FormatValue(render, a, o))]
    else if IsError(a) then [Str("\n"), CleanErrorStackAsWritten(o, a)]
    else [if IsString(a) && previousWasObject then Str("\n" + a.s) else a]
  }

  /** `_processArgs` from a given `previousWasObject`: a left-to-right
      pass of `ProcessOne`. */
  function ProcessFrom(o: Options, render: Clean -> string, args: seq<Arg>, previousWasObject: bool): (r: seq<Arg>)
    requires AllWellFormed(args)
    ensures |r| == |args| + ErrorCount(args)
    ensures forall i :: 0 <= i < |r| ==> !IsFormattableObject(r[i])
  {
    if args == [] then []
    else ProcessOne(o, render, args[0], previousWasObject) + ProcessFrom(o, render, args[1..], BreaksLine(args[0]))
  }

  function ProcessArgs(o: Options, render: Clean -> string, args: seq<Arg>): seq<Arg>
    requires AllWellFormed(args)
  {
    ProcessFrom(o, render, args, false)
  }

  /** Whether the last argument was an object or an error. */
  function EndsAfterObject(args: seq<Arg>, previousWasObject: bool): bool {
    if args == [] then previousWasObject else BreaksLine(args[|args| - 1])
  }

  /** Processing is a left-to-right pass: a split of the arguments is
      processed piecewise, the flag carried across. */
  lemma {:induction false} ProcessAppend(o: Options, render: Clean -> string, a: seq<Arg>, b: seq<Arg>, prev: bool)
    requires AllWellFormed(a) && AllWellFormed(b)
    ensures AllWellFormed(a + b)
    ensures ProcessFrom(o, render, a + b, prev) ==
      ProcessFrom(o, render, a, prev) + ProcessFrom(o, render, b, EndsAfterObject(a, prev))
  {
    WellFormedAppend(a, b);
    if a == [] {
      assert a + b == b;
    } else {
      var p := BreaksLine(a[0]);
      var head := ProcessOne(o, render, a[0], prev);
      AppendHead(a, b);
      ProcessAppend(o, render, a[1..], b, p);
      EndsAfterTail(a, prev);
      var x := ProcessFrom(o, render, a[1..], p);
      var y := ProcessFrom(o, render, b, EndsAfterObject(a, prev));
      assert ProcessFrom(o, render, a + b, prev) == head + (x + y);
      AppendAssoc(head, x, y);
    }
  }

  /** The flag after the tail, started from the head's, is the flag after
      the whole. */
  lemma {:induction false} EndsAfterTail(a: seq<Arg>, prev: bool)
    requires a != []
    ensures EndsAfterObject(a[1..], BreaksLine(a[0])) == EndsAfterObject(a, prev)
  {
    if a[1..] != [] {
      assert a[1..][|a[1..]| - 1] == a[|a| - 1];
    }
  }

  lemma {:induction false} WellFormedAppend(a: seq<Arg>, b: seq<Arg>)
    requires AllWellFormed(a) && AllWellFormed(b)
    ensures AllWellFormed(a + b)
  {
    forall i | 0 <= i < |a + b| ensures WellFormed((a + b)[i]) {
      if i >= |a| {
        assert (a + b)[i] == b[i - |a|];
      }
    }
  }

  /** Arguments with no object or error pass through unchanged. */
  lemma {:induction false} ProcessPlainUnchanged(o: Options, render: Clean -> string, args: seq<Arg>)
    requires forall i :: 0 <= i < |args| ==> args[i].Str? || args[i].Other? || args[i].Colorized?
    ensures AllWellFormed(args)
    ensures ProcessFrom(o, render, args, false) == args
  {
    if args != [] {
      ProcessPlainUnchanged(o, render, args[1..]);
    }
  }

  /** An object followed by a string: both start on a new line. */
  lemma {:induction false} ObjectThenStringExample(o: Options, render: Clean -> string, h: Heap, root: nat, s: string)
    requires Closed(h) && root in h
    ensures AllWellFormed([Obj(h, root), Str(s)])
    ensures ProcessArgs(o, render, [Obj(h, root), Str(s)]) ==
      [Str("\n" + FormatValue(render, Obj(h, root), o)), Str("\n" + s)]
  {
    var args := [Obj(h, root), Str(s)];
    assert WellFormed(Obj(h, root));
    assert args[1..] == [Str(s)];
    assert [Str(s)][1..] == [];
    var tail := ProcessFrom(o, render, [Str(s)], true);
    assert tail == ProcessOne(o, render, Str(s), true) + ProcessFrom(o, render, [], false);
    assert tail == [Str("\n" + s)];
    assert ProcessOne(o, render, Obj(h, root), false) == [Str("\n" + FormatValue(render, Obj(h, root), o))];
  }

  /** An error becomes two entries and the string after it a new line. */
  lemma {:induction false} ErrorThenStringExample(o: Options, render: Clean -> string, e: Arg, s: string)
    requires e.Exception?
    ensures AllWellFormed([e, Str(s)])
    ensures ProcessArgs(o, render, [e, Str(s)]) == [Str("\n"), CleanErrorStackAsWritten(o, e), Str("\n" + s)]
  {
    var args := [e, Str(s)];
    assert args[1..] == [Str(s)];
    assert [Str(s)][1..] == [];
    var tail := ProcessFrom(o, render, [Str(s)], true);
    assert tail == ProcessOne(o, render, Str(s), true) + ProcessFrom(o, render, [], false);
    assert tail == [Str("\n" + s)];
  }

  /** `_processArgs` as written turns a thrown error with a single frame
      into a newline and the error with its message and an empty stack. */
  lemma {:induction false} OneFrameErrorLogged(o: Options, render: Clean -> string)
    ensures var e := Exception("boom", Some("Error: boom" + "\n" + "    at f (a.js:1:2)"));
      AllWellFormed([e]) && ProcessArgs(o, render, [e]) == [Str("\n"), Exception("boom", Some(""))]
  {
    var e := Exception("boom", Some("Error: boom" + "\n" + "    at f (a.js:1:2)"));
    OneFrameStackWipedExample(o);
    assert [e][1..] == [];
    assert ProcessFrom(o, render, [e], false) == ProcessOne(o, render, e, false) + ProcessFrom(o, render, [], true);
  }

  // ---------------------------------------------------------------
  // colorize and gradient
  // ---------------------------------------------------------------

  /** `colorize` as the refactored classes run it: the base class calls
      its own `toAnsiPrefix`, which is always empty, so text is never
      coloured. */
  function NodeColorizeAsWritten(level: Level, text: string, hex: string): (r: Arg)
    ensures r == Str(text)
  {
    Colorize(level, false, BaseToAnsiPrefix(hex), text, hex)
  }

  /** `colorize` with the Node prefix, as the legacy logger and the tests
      have it. */
  function NodeColorize(level: Level, text: string, hex: string): (r: Arg)
    ensures r.Str?
    ensures IsColorless(level) ==> r == Str(text)
    ensures !IsColorless(level) ==> r.s == ToAnsiPrefix(level, hex) + text + Reset && IsAnsiColoredString(r)
  {
    if !IsColorless(level) then
      PrefixedIsColored(ToAnsiPrefix(level, hex), text);
      Colorize(level, false, ToAnsiPrefix(level, hex), text, hex)
    else Colorize(level, false, ToAnsiPrefix(level, hex), text, hex)
  }

  /** In true colour, `colorize('OVERRIDE', '#ff5733')` as written returns
      the bare text, where the escape-wrapped text is meant. */
  lemma {:induction false} ColorizeFindingExample()
    ensures NodeColorizeAsWritten(Known(TrueColor), "OVERRIDE", "#ff5733") == Str("OVERRIDE")
    ensures NodeColorize(Known(TrueColor), "OVERRIDE", "#ff5733") ==
      Str([ESC] + "[38;2;" + "255" + ";" + "87" + ";" + "51" + "m" + "OVERRIDE" + Reset)
  {
    TrueColorPrefixExample();
  }

  /** Removes every `ESC [ params m` sequence. */
  function StripSgr(s: string): (r: string)
    decreases |s|
  {
    if s == [] then ""
    else if SgrStartsAt(s, 0) then StripSgr(s[2 + ParamRun(s, 2) + 1..])
    else [s[0]] + StripSgr(s[1..])
  }

  /** A parameter run ends at the first non-parameter character. */
  lemma {:induction false} ParamRunExact(s: string, p: nat, n: nat)
    requires p + n < |s|
    requires forall j :: p <= j < p + n ==> IsSgrParam(s[j])
    requires !IsSgrParam(s[p + n])
    ensures ParamRun(s, p) == n
    decreases n
  {
    if n > 0 {
      ParamRunExact(s, p + 1, n - 1);
    }
  }

  /** A leading escape is dropped whole. */
  lemma {:induction false} StripPrefix(params: string, rest: string)
    requires AllSgrParams(params)
    ensures StripSgr(SgrPrefix(params) + rest) == StripSgr(rest)
  {
    var s := SgrPrefix(params) + rest;
    assert s[2 + |params|] == 'm';
    ParamRunExact(s, 2, |params|);
    assert s[2 + |params| + 1..] == rest;
  }

  /** A character other than ESC is kept. */
  lemma {:induction false} StripChar(c: char, rest: string)
    requires c != ESC
    ensures StripSgr([c] + rest) == [c] + StripSgr(rest)
  {
    assert ([c] + rest)[1..] == rest;
  }

  /** The colour one gradient character is drawn in: exact in true
      colour, the nearest 256-colour index otherwise. */
  function GradientForeground(level: ColorLevel, c: Rgb): Foreground {
    if level == TrueColor then Fg24(c.r, c.g, c.b) else Fg256(RgbToAnsi256(c))
  }

  /** Characters `i..` of the text, each after its escape; missing colours
      are black. */
  function GradientChars(level: ColorLevel, text: string, colors: seq<Rgb>, i: nat): string
    requires i <= |text|
    decreases |text| - i
  {
    if i == |text| then ""
    else
      var c := if i < |colors| then colors[i] else Rgb(0, 0, 0);
      SgrPrefix(ForegroundParams(GradientForeground(level, c))) + [text[i]] + GradientChars(level, text, colors, i + 1)
  }

  /** `gradient`: plain text below 256 colours; otherwise one escape per
      character and a final reset. The colour list comes from the caller. */
  function Gradient(level: Level, text: string, colors: seq<Rgb>): (r: string)
    ensures IsColorless(level) || level == Known(Ansi) ==> r == text
    ensures !IsColorless(level) && level != Known(Ansi) ==> EndsWith(r, Reset)
  {
    if IsColorless(level) || level == Known(Ansi) then text
    else
      var body := GradientChars(level.level, text, colors, 0);
      assert (body + Reset)[|body + Reset| - |Reset|..] == Reset;
      body + Reset
  }

  /** Removing the escapes from a gradient gives the text back. */
  lemma {:induction false} GradientStripsToText(level: Level, text: string, colors: seq<Rgb>)
    requires ESC !in text
    ensures StripSgr(Gradient(level, text, colors)) == text
  {
    if !(IsColorless(level) || level == Known(Ansi)) {
      GradientCharsStrip(level.level, text, colors, 0);
      assert Gradient(level, text, colors) == GradientChars(level.level, text, colors, 0) + Reset;
      assert text[0..] == text;
    } else {
      StripPlain(text);
    }
  }

  /** Text without ESC is its own strip. */
  lemma {:induction false} StripPlain(t: string)
    requires ESC !in t
    ensures StripSgr(t) == t
  {
    if t != [] {
      assert t == [t[0]] + t[1..];
      StripChar(t[0], t[1..]);
      StripPlain(t[1..]);
    }
  }

  /** One gradient step: its escape is dropped and its character kept. */
  lemma {:induction false} StripStep(params: string, c: char, rest: string)
    requires AllSgrParams(params) && c != ESC
    ensures StripSgr(SgrPrefix(params) + [c] + rest) == [c] + StripSgr(rest)
  {
    assert SgrPrefix(params) + [c] + rest == SgrPrefix(params) + ([c] + rest);
    StripPrefix(params, [c] + rest);
    StripChar(c, rest);
  }

  /** The reset itself strips to nothing. */
  lemma {:induction false} StripReset()
    ensures StripSgr(Reset) == ""
  {
    assert AllSgrParams("0");
    assert Reset == SgrPrefix("0") + "";
    StripPrefix("0", "");
  }

  /** One gradient character unfolded, followed by any tail. */
  lemma {:induction false} GradientCharsStep(level: ColorLevel, text: string, colors: seq<Rgb>, i: nat, tail: string)
    requires i < |text|
    ensures GradientChars(level, text, colors, i) + tail ==
      SgrPrefix(ForegroundParams(GradientForeground(level, if i < |colors| then colors[i] else Rgb(0, 0, 0))))
      + [text[i]] + (GradientChars(level, text, colors, i + 1) + tail)
  {
  }

  lemma {:induction false} GradientCharsStrip(level: ColorLevel, text: string, colors: seq<Rgb>, i: nat)
    requires i <= |text| && ESC !in text
    ensures StripSgr(GradientChars(level, text, colors, i) + Reset) == text[i..]
    decreases |text| - i
  {
    if i == |text| {
      assert GradientChars(level, text, colors, i) + Reset == Reset;
      StripReset();
    } else {
      GradientCharsStrip(level, text, colors, i + 1);
      var c := if i < |colors| then colors[i] else Rgb(0, 0, 0);
      GradientCharsStep(level, text, colors, i, Reset);
      CharOfPlain(text, i);
      StripStepAt(GradientChars(level, text, colors, i) + Reset, ForegroundParams(GradientForeground(level, c)), text[i],
        GradientChars(level, text, colors, i + 1) + Reset, text[i + 1..]);
    }
  }

  /** A character of text without ESC is not ESC, and splits the suffix. */
  lemma {:induction false} CharOfPlain(text: string, i: nat)
    requires i < |text| && ESC !in text
    ensures text[i] != ESC
    ensures text[i..] == [text[i]] + text[i + 1..]
  {
    assert text[i] in text;
  }

  /** `StripStep` for a string already known to have that shape. */
  lemma {:induction false} StripStepAt(whole: string, params: string, c: char, rest: string, t: string)
    requires whole == SgrPrefix(params) + [c] + rest
    requires AllSgrParams(params) && c != ESC && StripSgr(rest) == t
    ensures StripSgr(whole) == [c] + t
  {
    StripStep(params, c, rest);
  }
}

=== FILE: determine_base_theme.dfy ===
/** `determineBaseTheme`: the built-in theme a logger starts from. */
module DetermineBaseTheme {
  import opened Types
  import opened Theme

  /** A theme name is taken as given; `light` and `dark` pick the matching
      default; anything else, `auto` included, follows the detected theme,
      light only when it was detected as light. */
  function DetermineBaseTheme(themeOpt: string, detectedTheme: string): (n: ThemeName)
    ensures IsThemeName(themeOpt) ==> ThemeKey(n) == themeOpt
    ensures themeOpt == "light" ==> n == DefaultLightTheme
    ensures themeOpt == "dark" ==> n == DefaultDarkTheme
    ensures !IsThemeName(themeOpt) && themeOpt != "light" && themeOpt != "dark" ==>
      (n == DefaultLightTheme <==> detectedTheme == "light") && n in {DefaultLightTheme, DefaultDarkTheme}
  {
    match ParseThemeName(themeOpt)
    case Some(n) => n
    case None =>
      OptionsAreNotThemeNames();
      if themeOpt == "light" then DefaultLightTheme
      else if themeOpt == "dark" then DefaultDarkTheme
      else if detectedTheme == "light" then DefaultLightTheme
      else DefaultDarkTheme
  }

  /** The result is always a key of `themePalettes`. */
  lemma {:induction false} BaseThemeIsThemeName(themeOpt: string, detectedTheme: string)
    ensures IsThemeName(ThemeKey(DetermineBaseTheme(themeOpt, detectedTheme)))
  {
    ThemeKeyRoundTrip(DetermineBaseTheme(themeOpt, detectedTheme));
  }

  /** An explicit choice ignores detection; only the remaining options
      depend on it. */
  lemma {:induction false} ExplicitChoiceIgnoresDetection(themeOpt: string, d1: string, d2: string)
    requires IsThemeName(themeOpt) || themeOpt == "light" || themeOpt == "dark"
    ensures DetermineBaseTheme(themeOpt, d1) == DetermineBaseTheme(themeOpt, d2)
  {
    match ParseThemeName(themeOpt)
    case Some(n) =>
    case None =>
  }

  /** With `auto`, a detected terminal theme picks the matching default,
      and `unknown` falls back to dark. */
  lemma {:induction false} AutoFollowsTerminal(t: TerminalTheme)
    ensures DetermineBaseTheme("auto", ThemeToken(t)) ==
      (if t == Light then DefaultLightTheme else DefaultDarkTheme)
  {
    OptionsAreNotThemeNames();
  }

  /** A theme name chosen as an option is kept whatever was detected. */
  lemma {:induction false} ThemeNameKept(n: ThemeName, detectedTheme: string)
    ensures DetermineBaseTheme(ThemeKey(n), detectedTheme) == n
  {
    ThemeKeyRoundTrip(n);
  }
}

=== FILE: events.dfy ===
/** The input side of an asynchronous terminal exchange: a trace of
    events, each a chunk of input arriving on stdin or the timer firing. */
module Events {
  /** One event seen by a `data` listener or a `setTimeout` callback. */
  datatype Event = Chunk(data: string) | Timeout

  /** The input an event delivers. */
  function Input(e: Event): string {
    if e.Chunk? then e.data else ""
  }

  /** The input a trace delivers, in order. */
  function Delivered(trace: seq<Event>): string
    decreases |trace|
  {
    if trace == [] then "" else Input(trace[0]) + Delivered(trace[1..])
  }

  predicate NoTimeout(trace: seq<Event>) {
    forall k :: 0 <= k < |trace| ==> trace[k].Chunk?
  }

  lemma {:induction false} DeliveredSnoc(trace: seq<Event>, d: string)
    ensures Delivered(trace + [Chunk(d)]) == Delivered(trace) + d
    decreases |trace|
  {
    var t := trace + [Chunk(d)];
    if trace == [] {
      assert t == [Chunk(d)];
      assert Delivered(t) == d + Delivered([]);
    } else {
      assert t[0] == trace[0];
      assert t[1..] == trace[1..] + [Chunk(d)];
      DeliveredSnoc(trace[1..], d);
      assert Delivered(t) == Input(trace[0]) + (Delivered(trace[1..]) + d);
    }
  }

  /** The prefixes of a trace extended by one event are its own prefixes
      and the whole extended trace. */
  lemma {:induction false} SnocPrefixes(pre: seq<Event>, e: Event)
    ensures forall k :: 0 <= k <= |pre| ==> (pre + [e])[..k] == pre[..k]
    ensures (pre + [e])[..|pre| + 1] == pre + [e]
    ensures NoTimeout(pre + [e]) <==> NoTimeout(pre) && e.Chunk?
  {
    var t := pre + [e];
    forall k | 0 <= k <= |pre| ensures t[..k] == pre[..k] {
    }
    assert forall k :: 0 <= k < |pre| ==> t[k] == pre[k];
    assert t[|pre|] == e;
    assert t[..|pre| + 1] == t;
  }
}

=== FILE: input_validator.dfy ===
/** Palette validation: every colour must be a `#rrggbb` string, possibly
    surrounded by white space. */
module InputValidator {
  import opened Wrappers
  import opened Text
  import opened Types
  import opened ColorConverter

  /** `/^#[0-9A-F]{6}$/i`: a `#` and exactly six hex digits. */
  predicate IsHexColor(s: string) {
    |s| == 7 && s[0] == '#' && AllHex(s[1..])
  }

  /** The error message quotes the input as given, before trimming. */
  function InvalidHexMessage(hex: string): string {
    "Invalid hex color: '" + hex + "'"
  }

  /** `validateHex`: the trimmed input must be a hex colour. */
  function ValidateHex(hex: string): (r: Result<bool, string>)
    ensures r.Ok? <==> IsHexColor(Trim(hex))
    ensures r.Ok? ==> r.value
    ensures r.Err? ==> r.error == InvalidHexMessage(hex)
  {
    if IsHexColor(Trim(hex)) then Ok(true) else Err(InvalidHexMessage(hex))
  }

  /** `validatePalette`: the first entry, in iteration order, that fails
      decides the error; with none the palette is accepted. */
  function ValidatePalette(p: Palette): (r: Result<bool, string>)
    ensures r.Ok? <==> AllValid(p)
    ensures r.Ok? ==> r.value
    ensures r.Err? ==> exists i :: 0 <= i < |p| && FirstInvalid(p, i) && r.error == InvalidHexMessage(p[i].value)
  {
    PaletteCheckFacts(p);
    PaletteCheck(p)
  }

  /** The loop over the entries: the first failing entry's error. */
  function PaletteCheck(p: Palette): Result<bool, string> {
    if p == [] then Ok(true)
    else if ValidateHex(p[0].value).Err? then Err(InvalidHexMessage(p[0].value))
    else PaletteCheck(p[1..])
  }

  lemma {:induction false} PaletteCheckFacts(p: Palette)
    ensures var r := PaletteCheck(p);
      && (r.Ok? <==> AllValid(p))
      && (r.Ok? ==> r.value)
      && (r.Err? ==> exists i :: 0 <= i < |p| && FirstInvalid(p, i) && r.error == InvalidHexMessage(p[i].value))
  {
    if p == [] {
    } else if ValidateHex(p[0].value).Err? {
      assert FirstInvalid(p, 0);
    } else {
      PaletteCheckFacts(p[1..]);
      AllValidTail(p);
      var r := PaletteCheck(p[1..]);
      if r.Err? {
        var i :| 0 <= i < |p[1..]| && FirstInvalid(p[1..], i) && r.error == InvalidHexMessage(p[1..][i].value);
        FirstInvalidTail(p, i);
      }
    }
  }

  /** Every entry of the palette is a valid hex colour. */
  predicate AllValid(p: Palette) {
    forall i :: 0 <= i < |p| ==> ValidateHex(p[i].value).Ok?
  }

  /** Behind a valid first entry, the palette is valid exactly when its tail is. */
  lemma {:induction false} AllValidTail(p: Palette)
    requires p != [] && ValidateHex(p[0].value).Ok?
    ensures AllValid(p) <==> AllValid(p[1..])
  {
    assert forall i :: 1 <= i < |p| ==> p[i] == p[1..][i - 1];
  }

  /** Behind a valid first entry, the tail's first invalid entry is the palette's. */
  lemma {:induction false} FirstInvalidTail(p: Palette, i: nat)
    requires p != [] && ValidateHex(p[0].value).Ok?
    requires i < |p[1..]| && FirstInvalid(p[1..], i)
    ensures FirstInvalid(p, i + 1) && p[1..][i] == p[i + 1]
  {
    var t := p[1..];
    assert p[i + 1] == t[i];
    forall j | 0 <= j < i + 1
      ensures ValidateHex(p[j].value).Ok?
    {
      if j > 0 {
        assert p[j] == t[j - 1];
      }
    }
  }

  /** Entry `i` is invalid and every entry before it is valid. */
  predicate FirstInvalid(p: Palette, i: int)
    requires 0 <= i < |p|
  {
    ValidateHex(p[i].value).Err? && forall j :: 0 <= j < i ==> ValidateHex(p[j].value).Ok?
  }

  /** Every formatted colour validates. */
  lemma {:induction false} FormatHexValidates(c: Rgb)
    ensures ValidateHex(FormatHex(c)).Ok?
  {
    var s := FormatHex(c);
    assert !IsJsSpace(s[0]) && !IsJsSpace(s[6]) by {
      assert IsHexDigit(s[1..][5]);
    }
    TrimNoSpace(s);
  }

  /** A `#` and six hex digits, padded with white space, is accepted. */
  lemma {:induction false} PaddedHexAccepted(ws1: string, d: string, ws2: string)
    requires forall i :: 0 <= i < |ws1| ==> IsJsSpace(ws1[i])
    requires forall i :: 0 <= i < |ws2| ==> IsJsSpace(ws2[i])
    requires |d| == 6 && AllHex(d)
    ensures ValidateHex(ws1 + ("#" + d) + ws2).Ok?
  {
    var w := "#" + d;
    assert w[1..] == d;
    assert IsHexDigit(d[5]) && w[6] == d[5];
    TrimPadded(ws1, w, ws2);
  }

  /** White space is not a hex digit. */
  lemma {:induction false} SpaceNotHex(c: char)
    requires IsJsSpace(c)
    ensures !IsHexDigit(c)
  {
  }

  /** A hex colour is `#` and its six digits. */
  lemma {:induction false} HashSplit(t: string)
    requires IsHexColor(t)
    ensures t == "#" + t[1..]
  {
  }

  /** White space and then `#`: no hex digit anywhere. */
  lemma {:induction false} HashPrefixNotHex(ws: string)
    requires forall i :: 0 <= i < |ws| ==> IsJsSpace(ws[i])
    ensures forall i :: 0 <= i < |ws + "#"| ==> !IsHexDigit((ws + "#")[i])
  {
    forall i | 0 <= i < |ws + "#"| ensures !IsHexDigit((ws + "#")[i]) {
      if i < |ws| {
        SpaceNotHex(ws[i]);
      }
    }
  }

  /** An accepted colour, padding and all, reads as the three bytes its
      six digits spell. */
  lemma {:induction false} ValidHexBytes(hex: string)
    requires ValidateHex(hex).Ok?
    ensures var d := Trim(hex)[1..];
      HexToRgb(hex) == Rgb(ByteOf(d[0], d[1]), ByteOf(d[2], d[3]), ByteOf(d[4], d[5]))
  {
    var k, rest := TrimParts(hex);
    var ws := hex[..k];
    assert forall i :: 0 <= i < |ws| ==> IsJsSpace(ws[i]);
    HashPrefixNotHex(ws);
    var t := Trim(hex);
    var d := t[1..];
    HashSplit(t);
    AppendAssoc(ws, "#", d);
    HexToRgbOfSixDigits(ws + "#", d, rest);
  }

  /** The test suite's inputs: a padded colour is accepted, a shorthand rejected
      with the input quoted. */
  lemma {:induction false} PaddedColorAccepted()
    ensures ValidateHex("  #AABBCC  ").Ok?
  {
    assert "  #AABBCC  " == "  " + ("#" + "AABBCC") + "  ";
    PaddedHexAccepted("  ", "AABBCC", "  ");
  }

  lemma {:induction false} ShorthandRejected()
    ensures ValidateHex("#123") == Err("Invalid hex color: '#123'")
  {
    TrimNoSpace("#123");
    assert !IsHexColor("#123");
    assert InvalidHexMessage("#123") == "Invalid hex color: '#123'";
  }

  /** The test suite's valid entry. */
  lemma {:induction false} WhiteAccepted()
    ensures ValidateHex("#ffffff").Ok?
  {
    TrimNoSpace("#ffffff");
    assert "#ffffff"[1..] == "ffffff";
  }

  /** The test suite's invalid entry. */
  lemma {:induction false} InvalidHexRejected()
    ensures ValidateHex("invalid-hex") == Err(InvalidHexMessage("invalid-hex"))
  {
    TrimNoSpace("invalid-hex");
    assert !IsHexColor("invalid-hex");
  }

  /** A palette with one bad colour is rejected with that colour's message. */
  lemma {:induction false} ValidatePaletteExample()
    ensures ValidatePalette([Entry("log", "#ffffff"), Entry("error", "invalid-hex")]) ==
      Err(InvalidHexMessage("invalid-hex"))
  {
    var p := [Entry("log", "#ffffff"), Entry("error", "invalid-hex")];
    WhiteAccepted();
    InvalidHexRejected();
    var q := p[1..];
    assert q == [Entry("error", "invalid-hex")];
    assert ValidatePalette(q) == Err(InvalidHexMessage("invalid-hex"));
    assert ValidatePalette(p) == ValidatePalette(q);
  }

}

=== FILE: js_number.dfy ===
/** JavaScript number helpers. `parseInt(s, 10)`: skip leading white space, read an optional
    sign, then the longest run of decimal digits; no digits means `NaN`,
    modelled as `None`. */
module JsNumber {
  import opened Wrappers
  import opened Text

  /** Length of the leading run of decimal digits. */
  function DigitRun(s: string): (n: nat)
    ensures n <= |s|
    ensures AllDigits(s[..n])
    ensures n < |s| ==> !IsDigit(s[n])
  {
    if s != [] && IsDigit(s[0]) then
      var k := DigitRun(s[1..]);
      assert s[..k + 1] == [s[0]] + s[1..][..k];
      k + 1
    else 0
  }

  /** What is left after the white space and the optional sign. */
  function Unsigned(s: string): string {
    var t := TrimStart(s);
    if t != [] && (t[0] == '-' || t[0] == '+') then t[1..] else t
  }

  predicate IsNegative(s: string) {
    var t := TrimStart(s);
    t != [] && t[0] == '-'
  }

  /** `parseInt(s, 10)`; `None` is `NaN`. */
  function ParseInt(s: string): (r: Option<int>)
    ensures r.Some? ==> exists i :: 0 <= i < |s| && IsDigit(s[i])
    ensures r.Some? && !IsNegative(s) ==> r.value >= 0
    ensures r.Some? && IsNegative(s) ==> r.value <= 0
  {
    var u := Unsigned(s);
    var n := DigitRun(u);
    if n == 0 then None
    else
      assert u == s[|s| - |u|..];
      assert s[|s| - |u|] == u[0];
      var v: int := DigitsValue(u[..n]);
      Some(if IsNegative(s) then -v else v)
  }

  /** A string without any digit is `NaN`, e.g. `"invalid"` and `""`. */
  lemma {:induction false} ParseIntNoDigits(s: string)
    requires forall i :: 0 <= i < |s| ==> !IsDigit(s[i])
    ensures ParseInt(s) == None
  {
  }

  lemma {:induction false} DigitRunOf(d: string, rest: string)
    requires |d| >= 1 && AllDigits(d)
    requires rest == [] || !IsDigit(rest[0])
    ensures DigitRun(d + rest) == |d|
    decreases |d|
  {
    if |d| > 1 {
      assert (d + rest)[1..] == d[1..] + rest;
      DigitRunOf(d[1..], rest);
    } else {
      assert (d + rest)[1..] == rest;
    }
  }

  /** Reading the digits that follow the sign. */
  lemma {:induction false} ParseIntOfUnsigned(s: string, d: string, rest: string)
    requires |d| >= 1 && AllDigits(d)
    requires rest == [] || !IsDigit(rest[0])
    requires Unsigned(s) == d + rest
    ensures ParseInt(s) == Some(if IsNegative(s) then -(DigitsValue(d) as int) else DigitsValue(d))
  {
    DigitRunOf(d, rest);
    assert (d + rest)[..|d|] == d;
  }

  lemma {:induction false} UnsignedOfRendering(ws: string, sign: string, d: string, rest: string)
    requires forall i :: 0 <= i < |ws| ==> IsJsSpace(ws[i])
    requires sign == "" || sign == "+" || sign == "-"
    requires |d| >= 1 && IsDigit(d[0])
    ensures Unsigned(ws + sign + d + rest) == d + rest
    ensures IsNegative(ws + sign + d + rest) == (sign == "-")
  {
    var x := sign + d + rest;
    assert ws + sign + d + rest == ws + x;
    if sign == "" {
      assert x == d + rest;
      assert x[0] == d[0];
    } else {
      assert x[0] == sign[0];
      assert x[1..] == d + rest;
    }
    TrimStartSpaces(ws, x);
  }

  /** Round trip with decimal rendering: leading white space, an optional
      sign, the digits of `n`, then anything that does not start with a
      digit, reads back as `n` with that sign. */
  lemma {:induction false} ParseIntOfRendering(ws: string, sign: string, n: nat, rest: string)
    requires forall i :: 0 <= i < |ws| ==> IsJsSpace(ws[i])
    requires sign == "" || sign == "+" || sign == "-"
    requires rest == [] || !IsDigit(rest[0])
    ensures ParseInt(ws + sign + NatToString(n) + rest) == Some(if sign == "-" then -(n as int) else n)
  {
    var d := NatToString(n);
    UnsignedOfRendering(ws, sign, d, rest);
    ParseIntOfUnsigned(ws + sign + d + rest, d, rest);
    DigitsValueOfNatToString(n);
  }

  /** `Math.round(n / d)` for a positive denominator: the integer nearest to
      `n / d`, halves rounding up. */
  function RoundDiv(n: int, d: int): (k: int)
    requires d > 0
    ensures d * (2 * k - 1) <= 2 * n < d * (2 * k + 1)
  {
    var k := (2 * n + d) / (2 * d);
    assert 2 * d * k <= 2 * n + d < 2 * d * k + 2 * d;
    k
  }
}

=== FILE: node_color_support_detector.dfy ===
/** The Node.js colour-support detector: a snapshot of seven environment
    variables and the stdout TTY flag, and the first-match-wins rule list
    that turns them into a colour level. */
module NodeColorSupportDetector {
  import opened Wrappers
  import opened Text
  import opened JsNumber
  import opened Types

  /** The defined variables of `process.env`. */
  type Env = map<string, string>

  /** What the detector reads from `process`. */
  datatype Process = Process(env: Env, stdoutIsTTY: bool)

  /** The detector's fields after construction. `None` is `undefined`. */
  datatype Detector = Detector(
    hasProcess: bool,
    forceColor: Option<string>,
    noColor: Option<string>,
    term: Option<string>,
    colorTerm: Option<string>,
    cliColor: Option<string>,
    cliColorForce: Option<string>,
    wtSession: Option<string>,
    isTTY: bool,
    theme: TerminalTheme)

  function Get(env: Env, name: string): (r: Option<string>)
    ensures r.Some? <==> name in env
    ensures r.Some? ==> r.value == env[name]
  {
    if name in env then Some(env[name]) else None
  }

  /** The constructor. Without a process nothing is read and the theme is
      `unknown`; an override theme is kept verbatim; a non-TTY stdout gives
      `unknown`. The remaining branch runs a live terminal query, which is
      not part of this model: its outcome is the input `liveTheme`. */
  function NewDetector(process: Option<Process>, overrideTheme: Option<TerminalTheme>, liveTheme: TerminalTheme): (d: Detector)
    ensures d.hasProcess <==> process.Some?
    ensures process.None? ==>
      && d.theme == Unknown && !d.isTTY && d.noColor.None? && d.forceColor.None?
      && d.cliColorForce.None? && d.term.None?
    ensures process.Some? ==>
      && d.isTTY == process.value.stdoutIsTTY
      && d.noColor == Get(process.value.env, "NO_COLOR")
      && d.forceColor == Get(process.value.env, "FORCE_COLOR")
      && d.term == Get(process.value.env, "TERM")
      && d.colorTerm == Get(process.value.env, "COLORTERM")
      && d.cliColor == Get(process.value.env, "CLICOLOR")
      && d.cliColorForce == Get(process.value.env, "CLICOLOR_FORCE")
      && d.wtSession == Get(process.value.env, "WT_SESSION")
    ensures process.Some? && overrideTheme.Some? ==> d.theme == overrideTheme.value
    ensures process.Some? && overrideTheme.None? && !process.value.stdoutIsTTY ==> d.theme == Unknown
  {
    match process
    case None => Detector(false, None, None, None, None, None, None, None, false, Unknown)
    case Some(p) =>
      var theme :=
        if overrideTheme.Some? then overrideTheme.value
        else if !p.stdoutIsTTY then Unknown
        else liveTheme;
      Detector(true, Get(p.env, "FORCE_COLOR"), Get(p.env, "NO_COLOR"), Get(p.env, "TERM"),
               Get(p.env, "COLORTERM"), Get(p.env, "CLICOLOR"), Get(p.env, "CLICOLOR_FORCE"),
               Get(p.env, "WT_SESSION"), p.stdoutIsTTY, theme)
  }

  predicate IsNodeEnv(d: Detector) { d.hasProcess }

  function GetTheme(d: Detector): TerminalTheme { d.theme }

  /** A defined, non-empty string (JavaScript truthiness of a string). */
  predicate Truthy(v: Option<string>) { v.Some? && v.value != "" }

  /** `/^xterm-kitty$/`, `/^xterm-ghostty$/`, `/^wezterm$/` or `endsWith('-truecolor')`. */
  predicate IsTrueColorTerm(term: string) {
    term == "xterm-kitty" || term == "xterm-ghostty" || term == "wezterm" || EndsWith(term, "-truecolor")
  }

  /** `/-256(color)?$/i`. */
  predicate Is256Term(term: string) {
    var t := Lower(term);
    EndsWith(t, "-256") || EndsWith(t, "-256color")
  }

  /** `/^screen|^xterm|^vt100|^vt220|^rxvt|color|ansi|cygwin|linux/i`. */
  predicate IsAnsiTerm(term: string) {
    var t := Lower(term);
    || StartsWith(t, "screen") || StartsWith(t, "xterm") || StartsWith(t, "vt100")
    || StartsWith(t, "vt220") || StartsWith(t, "rxvt")
    || Contains(t, "color") || Contains(t, "ansi") || Contains(t, "cygwin") || Contains(t, "linux")
  }

  /** The level `FORCE_COLOR` selects. */
  function ForcedLevel(v: string): ColorLevel {
    if v == "0" || v == "false" then NoColor
    else if v == "1" || v == "true" then Ansi
    else
      var n := ParseInt(v);
      if n.Some? && 0 <= n.value <= 3 then LevelOfRank(n.value) else Ansi
  }

  /** `CLICOLOR_FORCE` is defined and not `"0"`. */
  predicate IsForced(d: Detector) {
    d.cliColorForce.Some? && d.cliColorForce.value != "0"
  }

  /** `getColorLevel`: the precedence list, first match wins. */
  function GetColorLevel(d: Detector): (l: ColorLevel)
    ensures d.noColor.Some? ==> l == NoColor
    ensures d.noColor.None? && d.forceColor.Some? ==> l == ForcedLevel(d.forceColor.value)
    ensures d.noColor.None? && d.forceColor.None? && !d.isTTY && !IsForced(d) ==> l == NoColor
  {
    if d.noColor.Some? then NoColor
    else if d.forceColor.Some? then ForcedLevel(d.forceColor.value)
    else if !d.isTTY && !IsForced(d) then NoColor
    else if d.term == Some("dumb") then NoColor
    else if d.colorTerm == Some("truecolor") || d.colorTerm == Some("24bit") then TrueColor
    else if d.wtSession.Some? then TrueColor
    else if Truthy(d.term) && IsTrueColorTerm(d.term.value) then TrueColor
    else if Truthy(d.term) && Is256Term(d.term.value) then Ansi256
    else if Truthy(d.term) && IsAnsiTerm(d.term.value) then Ansi
    else if Truthy(d.colorTerm) then Ansi
    else if d.cliColor.Some? && d.cliColor.value != "0" then Ansi
    else if d.isTTY || IsForced(d) then Ansi
    else NoColor
  }

  /** Neither override variable is set and the TTY gate is passed. */
  predicate PastGate(d: Detector) {
    d.noColor.None? && d.forceColor.None? && (d.isTTY || IsForced(d))
  }

  /** `NO_COLOR` with any value, the empty string included, disables colour
      whatever else is set. */
  lemma {:induction false} NoColorWins(d: Detector, v: string)
    requires d.noColor == Some(v)
    ensures GetColorLevel(d) == NoColor
  {
  }

  /** `FORCE_COLOR` spelled as a level 0..3 followed by anything that is not
      a digit gives exactly that level, TTY or not, whatever `TERM` says. */
  lemma {:induction false} ForceColorLevel(d: Detector, n: nat, rest: string)
    requires n <= 3 && (rest == [] || !IsDigit(rest[0]))
    requires d.noColor.None? && d.forceColor == Some(NatToString(n) + rest)
    ensures GetColorLevel(d).Rank() == n
  {
    ForcedLevelOfDigits(n, rest);
  }

  lemma {:induction false} ForcedLevelOfDigits(n: nat, rest: string)
    requires n <= 3 && (rest == [] || !IsDigit(rest[0]))
    ensures ForcedLevel(NatToString(n) + rest).Rank() == n
  {
    var v := NatToString(n) + rest;
    ParseIntOfDigits(n, rest);
    assert IsDigit(v[0]) by {
      assert v[0] == NatToString(n)[0];
    }
    assert v != "false" && v != "true" by {
      assert "false"[0] == 'f' && "true"[0] == 't';
    }
    if v == "0" {
      ParseIntOfDigits(0, "");
      assert NatToString(0) + "" == "0";
    } else if v == "1" {
      ParseIntOfDigits(1, "");
      assert NatToString(1) + "" == "1";
    }
  }

  /** `ParseInt` of a rendering with no white space or sign. */
  lemma {:induction false} ParseIntOfDigits(n: nat, rest: string)
    requires rest == [] || !IsDigit(rest[0])
    ensures ParseInt(NatToString(n) + rest) == Some(n)
  {
    ParseIntOfRendering("", "", n, rest);
    EmptyPrefixes(NatToString(n), rest);
  }

  /** `"false"` disables colour and `"true"` gives ANSI. */
  lemma {:induction false} ForceColorWords(d: Detector)
    requires d.noColor.None? && d.forceColor.Some? && d.forceColor.value in ["false", "true"]
    ensures GetColorLevel(d) == (if d.forceColor.value == "false" then NoColor else Ansi)
  {
  }

  /** A `FORCE_COLOR` that does not read as a number in 0..3, such as
      `"invalid"`, `""` or `"7"`, gives ANSI. */
  lemma {:induction false} ForceColorOther(d: Detector)
    requires d.noColor.None? && d.forceColor.Some?
    requires d.forceColor.value !in ["0", "false", "1", "true"]
    requires ParseInt(d.forceColor.value).None? || ParseInt(d.forceColor.value).value !in {0, 1, 2, 3}
    ensures GetColorLevel(d) == Ansi
  {
  }

  /** Whatever `FORCE_COLOR` says, the level is one of the four and a
      non-TTY stdout does not matter. */
  lemma {:induction false} ForceColorIgnoresTTY(d: Detector)
    requires d.noColor.None? && d.forceColor.Some?
    ensures GetColorLevel(d) == GetColorLevel(d.(isTTY := !d.isTTY, term := Some("dumb")))
  {
  }

  /** Without `FORCE_COLOR`, a non-TTY stdout gives no colour unless
      `CLICOLOR_FORCE` is set to something other than `"0"`. */
  lemma {:induction false} NonTTYGate(d: Detector)
    requires d.noColor.None? && d.forceColor.None? && !d.isTTY
    ensures GetColorLevel(d) == NoColor <==> (!IsForced(d) || d.term == Some("dumb"))
  {
  }

  /** Past the TTY gate the result is colourless exactly for `TERM=dumb`:
      every later rule, the fallback included, gives at least ANSI. */
  lemma {:induction false} PastGateColorful(d: Detector)
    requires PastGate(d)
    ensures GetColorLevel(d) == NoColor <==> d.term == Some("dumb")
    ensures d.term != Some("dumb") ==> GetColorLevel(d).Rank() >= 1
  {
  }

  /** `COLORTERM=truecolor|24bit` and any `WT_SESSION` give truecolor, and
      they are consulted before any `TERM` rule other than `dumb`. */
  lemma {:induction false} TrueColorSignals(d: Detector)
    requires PastGate(d) && d.term != Some("dumb")
    requires d.colorTerm == Some("truecolor") || d.colorTerm == Some("24bit") || d.wtSession.Some?
    ensures GetColorLevel(d) == TrueColor
  {
  }

  /** The `TERM` rules in their order: truecolor names, then the 256-colour
      suffix, then the legacy ANSI families. */
  lemma {:induction false} TermRules(d: Detector, t: string)
    requires PastGate(d) && d.term == Some(t) && t != "dumb" && t != ""
    requires d.colorTerm != Some("truecolor") && d.colorTerm != Some("24bit") && d.wtSession.None?
    ensures IsTrueColorTerm(t) ==> GetColorLevel(d) == TrueColor
    ensures !IsTrueColorTerm(t) && Is256Term(t) ==> GetColorLevel(d) == Ansi256
    ensures !IsTrueColorTerm(t) && !Is256Term(t) && IsAnsiTerm(t) ==> GetColorLevel(d) == Ansi
    ensures !IsTrueColorTerm(t) && !Is256Term(t) ==> GetColorLevel(d) == Ansi
  {
  }

  /** Without a process nothing is read: no colour, unknown theme. */
  lemma {:induction false} NoProcess(overrideTheme: Option<TerminalTheme>, liveTheme: TerminalTheme)
    ensures var d := NewDetector(None, overrideTheme, liveTheme);
      !IsNodeEnv(d) && GetColorLevel(d) == NoColor && GetTheme(d) == Unknown
  {
  }

  /** A TTY with only `TERM` set. */
  function TermOnly(t: string): Detector {
    Detector(true, None, None, Some(t), None, None, None, None, true, Unknown)
  }

  lemma {:induction false} Xterm256Facts()
    ensures Is256Term("xterm" + "-256color") && !IsTrueColorTerm("xterm" + "-256color")
  {
    XtermLower();
    Xterm256Suffix();
    XtermNotTrueColor();
  }

  lemma {:induction false} XtermLower()
    ensures Lower("xterm" + "-256color") == "xterm" + "-256color"
  {
    LowerOfLower("xterm" + "-256color");
  }

  lemma {:induction false} Xterm256Suffix()
    ensures Is256Term("xterm" + "-256color")
  {
    XtermLower();
    EndsWithSuffix("xterm", "-256color");
  }

  lemma {:induction false} XtermNotTrueColor()
    ensures !IsTrueColorTerm("xterm" + "-256color")
  {
    var t := "xterm" + "-256color";
    assert t[|t| - 10..][0] == 'm';
  }

  /** `TERM=xterm-256color` on a TTY is ANSI256. */
  lemma {:induction false} ExampleXterm256()
    ensures GetColorLevel(TermOnly("xterm" + "-256color")) == Ansi256
  {
    var t := "xterm" + "-256color";
    Xterm256Facts();
    var d := TermOnly(t);
    assert d.term == Some(t) && t != "dumb" && t != "";
    TermRules(d, t);
  }

  /** `COLORTERM=truecolor` outranks `TERM=xterm-256color`. */
  lemma {:induction false} ExampleColorTermTrueColor()
    ensures GetColorLevel(TermOnly("xterm-256color").(colorTerm := Some("truecolor"))) == TrueColor
  {
  }

  /** Plain `TERM=xterm` is ANSI. */
  lemma {:induction false} ExampleXterm()
    ensures GetColorLevel(TermOnly("xterm")) == Ansi
  {
    var t := "xterm";
    assert Lower(t) == t;
    assert !IsTrueColorTerm(t);
    assert !Is256Term(t);
    assert StartsWith(Lower(t), "xterm");
  }

  /** `FORCE_COLOR=2` beats `TERM=dumb` and a non-TTY stdout. */
  lemma {:induction false} ExampleForceBeatsDumb()
    ensures GetColorLevel(TermOnly("dumb").(forceColor := Some("2"), isTTY := false)) == Ansi256
  {
    ForcedLevelOfDigits(2, "");
    assert NatToString(2) + "" == "2";
  }

  /** `CLICOLOR_FORCE=1` opens the gate of a non-TTY stdout. */
  lemma {:induction false} ExampleCliColorForce()
    ensures GetColorLevel(TermOnly("").(term := None, cliColorForce := Some("1"), isTTY := false)) == Ansi
  {
  }
}

=== FILE: osc_child_probe.dfy ===
/** The child-process probe behind the synchronous theme lookup. It asks
    the terminal for its background colour on stderr, waits for a
    terminated reply on stdin or for its 300 ms timer, and prints a single
    theme token on stdout. Stdin, the timer and `process.exit` are the
    event trace; exiting is the `done` flag, after which nothing runs. */
module OscChildProbe {
  import opened Text
  import opened Types
  import opened OscResponse
  import opened Events

  /** `ESC ] 11 ; ? BEL`, written to stderr. */
  const ProbeQuery: string := [ESC] + "]11;?" + [BEL]

  const ProbeTimeout: nat := 300

  /** The lines the probe may print. */
  const OutputTokens: seq<string> := ["dark\n", "light\n", "unknown\n"]

  /** What `onData` does with the accumulated buffer: return and wait for
      more, or call `finish` with a theme. */
  datatype Decision = Wait | Finish(theme: TerminalTheme)

  /** The buffer holds the `]11;rgb:` introducer and a BEL or `ESC \`
      terminator, in any order. */
  predicate Terminated(buffer: string) {
    Contains(buffer, "]11;rgb:") && (Contains(buffer, [BEL]) || Contains(buffer, [ESC, '\\']))
  }

  /** The probe's classification of three groups, each scaled by its
      digit count. */
  function ScaledTheme(c: Channels): TerminalTheme
    requires IsGroup(c.red) && IsGroup(c.green) && IsGroup(c.blue)
  {
    Classify(ScaleNormalize(c.red), ScaleNormalize(c.green), ScaleNormalize(c.blue))
  }

  /** `onData`'s decision on the buffer after a chunk. */
  function Decide(buffer: string): (d: Decision)
    ensures d == Wait <==> !Terminated(buffer)
    ensures d == Finish(Unknown) <==> Terminated(buffer) && MatchRgb(buffer).None?
  {
    if !Terminated(buffer) then Wait
    else
      match MatchRgb(buffer)
      case None => Finish(Unknown)
      case Some(c) => Finish(ScaledTheme(c))
  }

  /** On a terminated buffer the probe and the in-process querier agree on
      whether there is a reply; on replies whose groups have two digits they
      agree on the theme as well. */
  lemma {:induction false} DecideAgreesWithQuerier(buffer: string)
    requires Terminated(buffer)
    ensures Decide(buffer) == Finish(Unknown) <==> MatchRgb(buffer).None?
    ensures (MatchRgb(buffer).Some? && |MatchRgb(buffer).value.red| == 2
      && |MatchRgb(buffer).value.green| == 2 && |MatchRgb(buffer).value.blue| == 2) ==>
      Decide(buffer) == Finish(Classify(PadNormalize(MatchRgb(buffer).value.red),
        PadNormalize(MatchRgb(buffer).value.green), PadNormalize(MatchRgb(buffer).value.blue)))
  {
    if MatchRgb(buffer).Some? {
      var c := MatchRgb(buffer).value;
      NormalizationsClose(c.red);
      NormalizationsClose(c.green);
      NormalizationsClose(c.blue);
    }
  }

  /** A reply ended by BEL or `ESC \` is terminated. */
  lemma {:induction false} ReplyTerminated(c: Channels, terminator: string)
    requires terminator == [BEL] || terminator == [ESC, '\\']
    ensures Terminated(OscReply(c, terminator))
  {
    var s := OscReply(c, terminator);
    assert s == [ESC] + "]11;rgb:" + (Body(c) + terminator);
    ContainsInfix([ESC], "]11;rgb:", Body(c) + terminator);
    assert s == [ESC] + "]11;rgb:" + Body(c) + terminator + [];
    ContainsInfix([ESC] + "]11;rgb:" + Body(c), terminator, []);
  }

  /** A complete reply finishes with the classification of its scaled groups. */
  lemma {:induction false} DecideReply(c: Channels, terminator: string)
    requires IsGroup(c.red) && IsGroup(c.green) && IsGroup(c.blue)
    requires terminator == [BEL] || terminator == [ESC, '\\']
    ensures Decide(OscReply(c, terminator)) == Finish(ScaledTheme(c))
  {
    ReplyTerminated(c, terminator);
    ReplyParses(c, terminator);
  }

  /** A reply of full-intensity groups of any width reads as light. */
  lemma {:induction false} DecideWhiteReplies()
    ensures Decide(OscReply(Channels("ff", "ff", "ff"), [BEL])) == Finish(Light)
    ensures Decide(OscReply(Channels("ffff", "ffff", "ffff"), [BEL])) == Finish(Light)
  {
    DecideWhite("ff");
    DecideWhite("ffff");
  }

  lemma {:induction false} DecideWhite(g: string)
    requires g == "ff" || g == "ffff"
    ensures Decide(OscReply(Channels(g, g, g), [BEL])) == Finish(Light)
  {
    WhiteScaled(g);
    DecideReply(Channels(g, g, g), [BEL]);
  }

  lemma {:induction false} WhiteScaled(g: string)
    requires g == "ff" || g == "ffff"
    ensures IsGroup(g) && ScaledTheme(Channels(g, g, g)) == Light
  {
    FullIntensity();
  }

  /** The probe after setup: empty buffer, not finished, nothing printed. */
  datatype Probe = Probe(buffer: string, done: bool, output: string)

  const Start: Probe := Probe("", false, "")

  /** `finish`: the first call prints the token and exits; later calls
      return at once. */
  function FinishWith(p: Probe, theme: TerminalTheme): (q: Probe)
    ensures q.done
    ensures p.done ==> q == p
    ensures !p.done ==> q.output == p.output + ThemeToken(theme) + "\n"
  {
    if p.done then p
    else p.(done := true, output := p.output + ThemeToken(theme) + "\n")
  }

  /** One event. After `finish` the process has exited, so nothing more
      happens; before it, a chunk is appended and decided on and the timer
      finishes with `unknown`. */
  function ProbeStep(p: Probe, e: Event): Probe {
    if p.done then p
    else
      match e
      case Chunk(d) =>
        var buffer := p.buffer + d;
        (match Decide(buffer)
         case Wait => p.(buffer := buffer)
         case Finish(t) => FinishWith(p.(buffer := buffer), t))
      case Timeout => FinishWith(p, Unknown)
  }

  function ProbeRun(p: Probe, trace: seq<Event>): Probe
    decreases |trace|
  {
    if trace == [] then p else ProbeRun(ProbeStep(p, trace[0]), trace[1..])
  }

  /** What the probe process does: its stdout and its stderr writes. */
  datatype ProbeOutput = ProbeOutput(stdout: string, stderr: seq<string>)

  /** The whole script. Without a TTY or `setRawMode` it prints `unknown`
      and exits at once; otherwise it writes the query and runs the trace
      until the timer fires. */
  function ProbeMain(stdinIsTTY: bool, hasSetRawMode: bool, trace: seq<Event>): (o: ProbeOutput)
    ensures !stdinIsTTY || !hasSetRawMode ==> o == ProbeOutput("unknown\n", [])
    ensures stdinIsTTY && hasSetRawMode ==> o.stderr == [ProbeQuery]
  {
    if !stdinIsTTY || !hasSetRawMode then ProbeOutput("unknown\n", [])
    else ProbeOutput(ProbeRun(Start, trace + [Timeout]).output, [ProbeQuery])
  }

  /** The relation every reachable probe keeps: it has printed nothing
      until it finishes, and then exactly one token line. */
  predicate Printed(p: Probe) {
    if p.done then p.output in OutputTokens else p.output == ""
  }

  lemma {:induction false} TokenLine(t: TerminalTheme)
    ensures "" + ThemeToken(t) + "\n" in OutputTokens
  {
    match t
    case Dark => assert "" + "dark" + "\n" == OutputTokens[0];
    case Light => assert "" + "light" + "\n" == OutputTokens[1];
    case Unknown => assert "" + "unknown" + "\n" == OutputTokens[2];
  }

  lemma {:induction false} ProbeStepPrinted(p: Probe, e: Event)
    requires Printed(p)
    ensures Printed(ProbeStep(p, e))
  {
    var q := ProbeStep(p, e);
    if !p.done && q.done {
      TokenLine(if e.Timeout? then Unknown else Decide(p.buffer + e.data).theme);
    }
  }

  lemma {:induction false} ProbeRunPrinted(p: Probe, trace: seq<Event>)
    requires Printed(p)
    ensures Printed(ProbeRun(p, trace))
    decreases |trace|
  {
    if trace != [] {
      ProbeStepPrinted(p, trace[0]);
      ProbeRunPrinted(ProbeStep(p, trace[0]), trace[1..]);
    }
  }

  /** Once finished, later chunks and timer events change nothing. */
  lemma {:induction false} FinishOnce(p: Probe, trace: seq<Event>)
    requires p.done
    ensures ProbeRun(p, trace) == p
    decreases |trace|
  {
    if trace != [] {
      FinishOnce(ProbeStep(p, trace[0]), trace[1..]);
    }
  }

  lemma {:induction false} ProbeRunAppend(p: Probe, a: seq<Event>, b: seq<Event>)
    ensures ProbeRun(p, a + b) == ProbeRun(ProbeRun(p, a), b)
    decreases |a|
  {
    if a == [] {
      assert a + b == b;
    } else {
      assert (a + b)[0] == a[0];
      assert (a + b)[1..] == a[1..] + b;
      ProbeRunAppend(ProbeStep(p, a[0]), a[1..], b);
    }
  }

  /** The probe prints exactly one of `dark`, `light` or `unknown`, each
      followed by a newline, on every path. */
  lemma {:induction false} ProbeOutputIsToken(stdinIsTTY: bool, hasSetRawMode: bool, trace: seq<Event>)
    ensures ProbeMain(stdinIsTTY, hasSetRawMode, trace).stdout in OutputTokens
  {
    if stdinIsTTY && hasSetRawMode {
      ProbeRunPrinted(Start, trace);
      ProbeRunAppend(Start, trace, [Timeout]);
      var p := ProbeRun(Start, trace);
      ProbeStepPrinted(p, Timeout);
      assert ProbeRun(p, [Timeout]) == ProbeStep(p, Timeout);
    }
  }

  /** A trace during which the probe keeps waiting: no timer event, and no
      prefix of it leaves a terminated buffer. */
  predicate WaitingTrace(trace: seq<Event>) {
    && NoTimeout(trace)
    && forall k :: 1 <= k <= |trace| ==> Decide(Delivered(trace[..k])) == Wait
  }

  lemma {:induction false} WaitingTraceSnoc(pre: seq<Event>, e: Event)
    requires WaitingTrace(pre + [e])
    ensures WaitingTrace(pre) && e.Chunk?
    ensures Decide(Delivered(pre) + e.data) == Wait
    ensures Delivered(pre + [e]) == Delivered(pre) + e.data
  {
    var t := pre + [e];
    SnocPrefixes(pre, e);
    assert e == Chunk(e.data);
    DeliveredSnoc(pre, e.data);
    forall k | 1 <= k <= |pre| ensures Decide(Delivered(pre[..k])) == Wait {
      assert t[..k] == pre[..k];
    }
    assert Decide(Delivered(t[..|t|])) == Wait;
  }

  /** While waiting, the probe has printed nothing and its buffer holds all
      input delivered so far. */
  lemma {:induction false} WaitingRun(trace: seq<Event>)
    requires WaitingTrace(trace)
    ensures ProbeRun(Start, trace) == Probe(Delivered(trace), false, "")
    decreases |trace|
  {
    if trace != [] {
      var pre := trace[..|trace| - 1];
      var e := trace[|trace| - 1];
      assert trace == pre + [e];
      WaitingTraceSnoc(pre, e);
      WaitingRun(pre);
      ProbeRunAppend(Start, pre, [e]);
      assert ProbeRun(ProbeRun(Start, pre), [e]) == ProbeStep(ProbeRun(Start, pre), e);
    }
  }

  /** The first chunk that leaves a terminated buffer decides the output,
      whatever follows. */
  lemma {:induction false} FirstDecisionWins(pre: seq<Event>, d: string, post: seq<Event>)
    requires WaitingTrace(pre)
    requires Decide(Delivered(pre) + d).Finish?
    ensures ProbeRun(Start, pre + [Chunk(d)] + post).output ==
      ThemeToken(Decide(Delivered(pre) + d).theme) + "\n"
  {
    WaitingRun(pre);
    ProbeRunAppend(Start, pre + [Chunk(d)], post);
    ProbeRunAppend(Start, pre, [Chunk(d)]);
    RunOne(ProbeRun(Start, pre), Chunk(d));
    DecidingChunk(Delivered(pre), d);
    FinishOnce(ProbeRun(Start, pre + [Chunk(d)]), post);
  }

  /** A run of one event is that event's step. */
  lemma {:induction false} RunOne(p: Probe, e: Event)
    ensures ProbeRun(p, [e]) == ProbeStep(p, e)
  {
    assert [e][1..] == [];
  }

  /** A waiting probe given a chunk that completes a reply finishes and
      prints the decided token. */
  lemma {:induction false} DecidingChunk(buffer: string, d: string)
    requires Decide(buffer + d).Finish?
    ensures var q := ProbeStep(Probe(buffer, false, ""), Chunk(d));
      q.done && q.output == ThemeToken(Decide(buffer + d).theme) + "\n"
  {
    var t := Decide(buffer + d).theme;
    assert "" + ThemeToken(t) + "\n" == ThemeToken(t) + "\n";
  }

  /** The timer firing while the probe waits prints `unknown`, whatever
      follows. */
  lemma {:induction false} TimeoutPrintsUnknown(pre: seq<Event>, post: seq<Event>)
    requires WaitingTrace(pre)
    ensures ProbeRun(Start, pre + [Timeout] + post).output == "unknown\n"
  {
    WaitingRun(pre);
    ProbeRunAppend(Start, pre + [Timeout], post);
    ProbeRunAppend(Start, pre, [Timeout]);
    var y := ProbeRun(Start, pre + [Timeout]);
    assert y == ProbeStep(ProbeRun(Start, pre), Timeout);
    FinishOnce(y, post);
  }

  /** With no reply at all the probe prints `unknown`. */
  lemma {:induction false} SilentTerminalExample()
    ensures ProbeMain(true, true, []).stdout == "unknown\n"
  {
    assert WaitingTrace([]);
    assert [] + [Timeout] + [] == [] + [Timeout];
    TimeoutPrintsUnknown([], []);
  }

  /** A black background is dark under the scaled normalisation too. */
  lemma {:induction false} ScaledBlack()
    ensures ScaledTheme(Channels("00", "00", "00")) == Dark
  {
    GroupValue("00");
    assert ScaleNormalize("00") == 0;
  }

  /** A single `00/00/00` reply prints `dark`. */
  lemma {:induction false} BlackReplyExample()
    ensures ProbeMain(true, true, [Chunk(OscReply(Channels("00", "00", "00"), [BEL]))]).stdout == "dark\n"
  {
    var r := OscReply(Channels("00", "00", "00"), [BEL]);
    DecideReply(Channels("00", "00", "00"), [BEL]);
    ScaledBlack();
    assert WaitingTrace([]);
    assert Delivered([]) + r == r;
    assert [] + [Chunk(r)] + [Timeout] == [Chunk(r)] + [Timeout];
    FirstDecisionWins([], r, [Timeout]);
  }
}

=== FILE: osc_response.dfy ===
/** The reply to an OSC 11 background-colour query, as both the in-process
    querier and the child probe read it: the regular expression
    `/rgb:([0-9a-f]{2,4})\/([0-9a-f]{2,4})\/([0-9a-f]{2,4})/i`, the two ways
    of turning a channel's digits into a byte, and the luminance test. */
module OscResponse {
  import opened Wrappers
  import opened Text
  import opened JsNumber
  import opened Types

  /** The three captured digit groups. */
  datatype Channels = Channels(red: string, green: string, blue: string)

  /** A capture of `[0-9a-f]{2,4}`. */
  predicate IsGroup(g: string) { 2 <= |g| <= 4 && AllHex(g) }

  /** `rgb:` in any letter case starts at `i`. */
  predicate RgbTagAt(s: string, i: int) {
    && 0 <= i && i + 4 <= |s|
    && LowerChar(s[i]) == 'r' && LowerChar(s[i + 1]) == 'g' && LowerChar(s[i + 2]) == 'b'
    && s[i + 3] == ':'
  }

  /** Every character in `p .. q - 1` is a hex digit. */
  predicate HexSpan(s: string, p: int, q: int)
    requires 0 <= p <= q <= |s|
  {
    forall k :: p <= k < q ==> IsHexDigit(s[k])
  }

  lemma {:induction false} HexSpanSlice(s: string, p: int, q: int)
    requires 0 <= p <= q <= |s|
    ensures HexSpan(s, p, q) <==> AllHex(s[p..q])
  {
    if HexSpan(s, p, q) {
      forall k | 0 <= k < q - p ensures IsHexDigit(s[p..q][k]) {
        assert s[p..q][k] == s[p + k];
      }
    }
    if AllHex(s[p..q]) {
      forall k | p <= k < q ensures IsHexDigit(s[k]) {
        assert s[p..q][k - p] == s[k];
      }
    }
  }

  /** Length of the run of hex digits starting at `p`. */
  function HexRun(s: string, p: nat): (n: nat)
    requires p <= |s|
    ensures p + n <= |s| && HexSpan(s, p, p + n)
    ensures p + n == |s| || !IsHexDigit(s[p + n])
  {
    HexRunFacts(s, p);
    HexRunLength(s, p)
  }

  /** The scan behind `HexRun`. */
  function HexRunLength(s: string, p: nat): nat
    requires p <= |s|
    decreases |s| - p
  {
    if p < |s| && IsHexDigit(s[p]) then 1 + HexRunLength(s, p + 1) else 0
  }

  lemma {:induction false} HexRunFacts(s: string, p: nat)
    requires p <= |s|
    ensures var n := HexRunLength(s, p);
      && p + n <= |s| && HexSpan(s, p, p + n)
      && (p + n == |s| || !IsHexDigit(s[p + n]))
    decreases |s| - p
  {
    if p < |s| && IsHexDigit(s[p]) {
      HexRunFacts(s, p + 1);
    }
  }

  lemma {:induction false} HexRunAtLeast(s: string, p: nat, k: nat)
    requires p + k <= |s| && HexSpan(s, p, p + k)
    ensures HexRun(s, p) >= k
  {
  }

  /** A run of exactly `k` hex digits at `p`. */
  lemma {:induction false} HexRunExact(s: string, p: nat, k: nat)
    requires p + k <= |s| && HexSpan(s, p, p + k)
    requires p + k == |s| || !IsHexDigit(s[p + k])
    ensures HexRun(s, p) == k
  {
    HexRunAtLeast(s, p, k);
  }

  /** A group followed by `/`: greedy `{2,4}` backtracks onto the `/`, which
      is found only right after the whole run, so the run must be 2..4 long. */
  function SlashGroup(s: string, p: nat): (r: Option<nat>)
    requires p <= |s|
    ensures r.Some? ==> (2 <= r.value <= 4 && p + r.value < |s| && s[p + r.value] == '/'
      && HexSpan(s, p, p + r.value))
  {
    var n := HexRun(s, p);
    if 2 <= n <= 4 && p + n < |s| && s[p + n] == '/' then Some(n) else None
  }

  /** The last group: as many digits as there are, up to four, at least two. */
  function LastGroup(s: string, p: nat): (r: Option<nat>)
    requires p <= |s|
    ensures r.Some? ==> 2 <= r.value <= 4 && p + r.value <= |s| && HexSpan(s, p, p + r.value)
    ensures r.Some? ==> r.value == 4 || p + r.value == |s| || !IsHexDigit(s[p + r.value])
  {
    var n := HexRun(s, p);
    if n < 2 then None else Some(if n < 4 then n else 4)
  }

  /** The lengths of the three groups of the match attempt that starts at
      `i`, when it succeeds. */
  function GroupsAt(s: string, i: nat): (r: Option<(nat, nat, nat)>)
    requires i <= |s|
    ensures r.Some? ==> RgbTagAt(s, i)
    ensures r.Some? ==> var p1 := i + 4; var p2 := p1 + r.value.0 + 1; var p3 := p2 + r.value.1 + 1;
      && SlashGroup(s, p1) == Some(r.value.0) && p2 <= |s| && SlashGroup(s, p2) == Some(r.value.1)
      && p3 <= |s| && LastGroup(s, p3) == Some(r.value.2)
  {
    if !RgbTagAt(s, i) then None
    else
      var p1 := i + 4;
      match SlashGroup(s, p1)
      case None => None
      case Some(k1) =>
        var p2 := p1 + k1 + 1;
        match SlashGroup(s, p2)
        case None => None
        case Some(k2) =>
          var p3 := p2 + k2 + 1;
          match LastGroup(s, p3)
          case None => None
          case Some(k3) => Some((k1, k2, k3))
  }

  /** The captures delimited by three group lengths. */
  function Captures(s: string, i: nat, k1: nat, k2: nat, k3: nat): Channels
    requires i + 4 + k1 + 1 + k2 + 1 + k3 <= |s|
  {
    var p1 := i + 4;
    var p2 := p1 + k1 + 1;
    var p3 := p2 + k2 + 1;
    Channels(s[p1..p1 + k1], s[p2..p2 + k2], s[p3..p3 + k3])
  }

  /** The match attempt that starts at `i`. */
  function MatchAt(s: string, i: nat): (r: Option<Channels>)
    requires i <= |s|
    ensures r.Some? ==> IsGroup(r.value.red) && IsGroup(r.value.green) && IsGroup(r.value.blue)
  {
    match GroupsAt(s, i)
    case None => None
    case Some(k) =>
      var p1 := i + 4;
      var p2 := p1 + k.0 + 1;
      GroupOfSpan(s, p1, k.0);
      GroupOfSpan(s, p2, k.1);
      GroupOfSpan(s, p2 + k.1 + 1, k.2);
      Some(Captures(s, i, k.0, k.1, k.2))
  }

  /** The text of a match after `rgb:`. */
  function Body(c: Channels): string {
    c.red + "/" + c.green + "/" + c.blue
  }

  /** Declarative reading of the regular expression: `rgb:`, three groups
      separated by `/`, and a last group that stops at four digits or where
      the digits stop. */
  predicate IsMatchAt(s: string, i: int, c: Channels) {
    && RgbTagAt(s, i)
    && IsGroup(c.red) && IsGroup(c.green) && IsGroup(c.blue)
    && OccursAt(s, Body(c), i + 4)
    && var e := i + 4 + |Body(c)|;
       |c.blue| == 4 || e == |s| || !IsHexDigit(s[e])
  }

  /** A slice of an occurrence is the same slice of the occurring text. */
  lemma {:induction false} SliceOfOccurrence(s: string, t: string, i: int, x: int, y: int)
    requires OccursAt(s, t, i) && 0 <= x <= y <= |t|
    ensures s[i + x..i + y] == t[x..y]
    ensures x < |t| ==> s[i + x] == t[x]
  {
    forall k | 0 <= k < y - x ensures t[x..y][k] == s[i + x..i + y][k] {
      assert t[x + k] == s[i..i + |t|][x + k];
    }
    if x < |t| {
      assert t[x] == s[i..i + |t|][x];
    }
  }

  /** Where a body occurs, its first capture and slash lie at the start. */
  lemma {:induction false} RedAt(s: string, i: nat, c: Channels)
    requires OccursAt(s, Body(c), i)
    ensures s[i..i + |c.red|] == c.red && s[i + |c.red|] == '/'
  {
    var r := |c.red|;
    BodyPieces(c);
    SliceOfOccurrence(s, Body(c), i, 0, r);
    SliceOfOccurrence(s, Body(c), i, r, r + 1);
  }

  /** The second capture and slash follow the first slash. */
  lemma {:induction false} GreenAt(s: string, i: nat, c: Channels)
    requires OccursAt(s, Body(c), i)
    ensures var p2 := i + |c.red| + 1;
      s[p2..p2 + |c.green|] == c.green && s[p2 + |c.green|] == '/'
  {
    var r, g := |c.red|, |c.green|;
    BodyPieces(c);
    SliceOfOccurrence(s, Body(c), i, r + 1, r + 1 + g);
    SliceOfOccurrence(s, Body(c), i, r + 1 + g, r + 2 + g);
  }

  /** The third capture ends the body. */
  lemma {:induction false} BlueAt(s: string, i: nat, c: Channels)
    requires OccursAt(s, Body(c), i)
    ensures var p3 := i + |c.red| + 1 + |c.green| + 1; s[p3..p3 + |c.blue|] == c.blue
  {
    var r, g := |c.red|, |c.green|;
    BodyPieces(c);
    SliceOfOccurrence(s, Body(c), i, r + 2 + g, |Body(c)|);
  }

  /** Where the captures and the slashes lie in the body. */
  lemma {:induction false} BodyPieces(c: Channels)
    ensures var b := Body(c); var r, g := |c.red|, |c.green|;
      && |b| == r + g + |c.blue| + 2
      && b[..r] == c.red && b[r] == '/' && b[r + 1..r + 1 + g] == c.green
      && b[r + 1 + g] == '/' && b[r + g + 2..|b|] == c.blue
  {
    var b := Body(c);
    var r, g := |c.red|, |c.green|;
    assert b[..r] == c.red;
    assert b[r + 1..r + 1 + g] == c.green;
    assert b[r + g + 2..|b|] == c.blue;
  }

  /** The text from the first group to the end of the last is the body of
      the captures. */
  lemma {:induction false} BodyOfSlices(s: string, p1: nat, k1: nat, k2: nat, k3: nat)
    requires p1 + k1 + k2 + k3 + 2 <= |s|
    requires s[p1 + k1] == '/' && s[p1 + k1 + 1 + k2] == '/'
    ensures var p2 := p1 + k1 + 1; var p3 := p2 + k2 + 1;
      s[p1..p3 + k3] == Body(Channels(s[p1..p1 + k1], s[p2..p2 + k2], s[p3..p3 + k3]))
  {
    var p2 := p1 + k1 + 1;
    var p3 := p2 + k2 + 1;
    assert s[p1 + k1..p2] == "/" && s[p2 + k2..p3] == "/";
    SliceFive(s, p1, p1 + k1, p2, p2 + k2, p3, p3 + k3);
  }

  /** The captures found from the three group lengths form a match. */
  lemma {:induction false} GroupsMatch(s: string, i: nat, k1: nat, k2: nat, k3: nat, c: Channels)
    requires RgbTagAt(s, i)
    requires var p1 := i + 4; var p2 := p1 + k1 + 1; var p3 := p2 + k2 + 1;
      && 2 <= k1 <= 4 && 2 <= k2 <= 4 && 2 <= k3 <= 4 && p3 + k3 <= |s|
      && s[p1 + k1] == '/' && s[p2 + k2] == '/'
      && HexSpan(s, p1, p1 + k1) && HexSpan(s, p2, p2 + k2) && HexSpan(s, p3, p3 + k3)
      && (k3 == 4 || p3 + k3 == |s| || !IsHexDigit(s[p3 + k3]))
      && c == Channels(s[p1..p1 + k1], s[p2..p2 + k2], s[p3..p3 + k3])
    ensures IsMatchAt(s, i, c)
  {
    var p1 := i + 4;
    var p2 := p1 + k1 + 1;
    var p3 := p2 + k2 + 1;
    GroupOfSpan(s, p1, k1);
    GroupOfSpan(s, p2, k2);
    GroupOfSpan(s, p3, k3);
    GroupsOccur(s, p1, k1, k2, k3, c);
  }

  /** Two to four hex digits in a row are a group. */
  lemma {:induction false} GroupOfSpan(s: string, p: nat, k: nat)
    requires 2 <= k <= 4 && p + k <= |s| && HexSpan(s, p, p + k)
    ensures IsGroup(s[p..p + k])
  {
    HexSpanSlice(s, p, p + k);
  }

  /** The three slices with slashes between them are the body of the
      captures, occurring where the first slice starts. */
  lemma {:induction false} GroupsOccur(s: string, p1: nat, k1: nat, k2: nat, k3: nat, c: Channels)
    requires var p2 := p1 + k1 + 1; var p3 := p2 + k2 + 1;
      && p3 + k3 <= |s| && s[p1 + k1] == '/' && s[p2 + k2] == '/'
      && c == Channels(s[p1..p1 + k1], s[p2..p2 + k2], s[p3..p3 + k3])
    ensures OccursAt(s, Body(c), p1) && |Body(c)| == k1 + k2 + k3 + 2
  {
    BodyOfSlices(s, p1, k1, k2, k3);
    BodyPieces(c);
    OccursOfSlice(s, Body(c), p1, p1 + k1 + k2 + k3 + 2);
  }

  /** A slice occurs where it starts. */
  lemma {:induction false} OccursOfSlice(s: string, t: string, p: nat, q: nat)
    requires p <= q <= |s| && s[p..q] == t
    ensures OccursAt(s, t, p)
  {
  }

  /** A successful attempt is a match. */
  lemma {:induction false} MatchAtSound(s: string, i: nat, c: Channels)
    requires i <= |s| && MatchAt(s, i) == Some(c)
    ensures IsMatchAt(s, i, c)
  {
    var k := GroupsAt(s, i).value;
    FoundGroupsMatch(s, i, k.0, k.1, k.2, c);
  }

  /** The groups the attempt finds delimit a match. */
  lemma {:induction false} FoundGroupsMatch(s: string, i: nat, k1: nat, k2: nat, k3: nat, c: Channels)
    requires RgbTagAt(s, i)
    requires var p1 := i + 4; var p2 := p1 + k1 + 1; var p3 := p2 + k2 + 1;
      && p1 <= |s| && SlashGroup(s, p1) == Some(k1)
      && p2 <= |s| && SlashGroup(s, p2) == Some(k2)
      && p3 <= |s| && LastGroup(s, p3) == Some(k3)
      && c == Captures(s, i, k1, k2, k3)
    ensures IsMatchAt(s, i, c)
  {
    GroupsMatch(s, i, k1, k2, k3, c);
  }

  /** The attempt at `i` finds the captures the three group lengths delimit. */
  lemma {:induction false} AttemptOfGroups(s: string, i: nat, k1: nat, k2: nat, k3: nat, c: Channels)
    requires i <= |s| && RgbTagAt(s, i)
    requires var p1 := i + 4; var p2 := p1 + k1 + 1; var p3 := p2 + k2 + 1;
      && SlashGroup(s, p1) == Some(k1) && SlashGroup(s, p2) == Some(k2) && LastGroup(s, p3) == Some(k3)
      && c == Channels(s[p1..p1 + k1], s[p2..p2 + k2], s[p3..p3 + k3])
    ensures MatchAt(s, i) == Some(c)
  {
    FoundGroups(s, i, k1, k2, k3);
    assert Captures(s, i, k1, k2, k3) == c;
  }

  lemma {:induction false} FoundGroups(s: string, i: nat, k1: nat, k2: nat, k3: nat)
    requires i <= |s| && RgbTagAt(s, i)
    requires var p1 := i + 4; var p2 := p1 + k1 + 1; var p3 := p2 + k2 + 1;
      && SlashGroup(s, p1) == Some(k1) && SlashGroup(s, p2) == Some(k2) && LastGroup(s, p3) == Some(k3)
    ensures GroupsAt(s, i) == Some((k1, k2, k3))
  {
  }

  /** The first group of a match is the slash group the attempt finds. */
  lemma {:induction false} RedOfMatch(s: string, i: nat, c: Channels)
    requires IsMatchAt(s, i, c)
    ensures var p1 := i + 4;
      && p1 + |c.red| < |s| && s[p1..p1 + |c.red|] == c.red
      && SlashGroup(s, p1) == Some(|c.red|)
  {
    RedAt(s, i + 4, c);
    BodyPieces(c);
    SpanOfGroup(s, i + 4, c.red);
    SlashGroupOf(s, i + 4, |c.red|);
  }

  /** So is the second. */
  lemma {:induction false} GreenOfMatch(s: string, i: nat, c: Channels)
    requires IsMatchAt(s, i, c)
    ensures var p2 := i + 4 + |c.red| + 1;
      && p2 + |c.green| < |s| && s[p2..p2 + |c.green|] == c.green
      && SlashGroup(s, p2) == Some(|c.green|)
  {
    var p2 := i + 4 + |c.red| + 1;
    GreenAt(s, i + 4, c);
    BodyPieces(c);
    SpanOfGroup(s, p2, c.green);
    SlashGroupOf(s, p2, |c.green|);
  }

  /** The third group of a match is the last group the attempt finds. */
  lemma {:induction false} BlueOfMatch(s: string, i: nat, c: Channels)
    requires IsMatchAt(s, i, c)
    ensures var p3 := i + 4 + |c.red| + 1 + |c.green| + 1;
      && p3 + |c.blue| <= |s| && s[p3..p3 + |c.blue|] == c.blue
      && LastGroup(s, p3) == Some(|c.blue|)
  {
    var p3 := i + 4 + |c.red| + 1 + |c.green| + 1;
    BlueAt(s, i + 4, c);
    BodyPieces(c);
    SpanOfGroup(s, p3, c.blue);
    LastGroupOf(s, p3, |c.blue|);
  }

  /** Where a group lies, the text is hex digits. */
  lemma {:induction false} SpanOfGroup(s: string, p: nat, g: string)
    requires p + |g| <= |s| && s[p..p + |g|] == g && IsGroup(g)
    ensures HexSpan(s, p, p + |g|)
  {
    HexSpanSlice(s, p, p + |g|);
  }

  /** A match is what the attempt finds. */
  lemma {:induction false} MatchAtComplete(s: string, i: nat, c: Channels)
    requires i <= |s| && IsMatchAt(s, i, c)
    ensures MatchAt(s, i) == Some(c)
  {
    RedOfMatch(s, i, c);
    GreenOfMatch(s, i, c);
    BlueOfMatch(s, i, c);
    AttemptOfGroups(s, i, |c.red|, |c.green|, |c.blue|, c);
  }

  /** A run of two to four digits followed by `/` is a slash group. */
  lemma {:induction false} SlashGroupOf(s: string, p: nat, k: nat)
    requires 2 <= k <= 4 && p + k < |s| && HexSpan(s, p, p + k) && s[p + k] == '/'
    ensures SlashGroup(s, p) == Some(k)
  {
    HexRunExact(s, p, k);
  }

  /** A run of two to four digits ending where the digits stop, or at four,
      is the last group. */
  lemma {:induction false} LastGroupOf(s: string, p: nat, k: nat)
    requires 2 <= k <= 4 && p + k <= |s| && HexSpan(s, p, p + k)
    requires k == 4 || p + k == |s| || !IsHexDigit(s[p + k])
    ensures LastGroup(s, p) == Some(k)
  {
    HexRunAtLeast(s, p, k);
    if k < 4 {
      HexRunExact(s, p, k);
    }
  }

  /** The attempt at `i` succeeds with `c` exactly when `c` is a match at `i`. */
  lemma {:induction false} MatchAtCorrect(s: string, i: nat, c: Channels)
    requires i <= |s|
    ensures MatchAt(s, i) == Some(c) <==> IsMatchAt(s, i, c)
  {
    if MatchAt(s, i) == Some(c) {
      MatchAtSound(s, i, c);
    }
    if IsMatchAt(s, i, c) {
      MatchAtComplete(s, i, c);
    }
  }

  /** Index of the first present entry at or after `i`. */
  function FindFirst<T>(a: seq<Option<T>>, i: nat): (r: Option<nat>)
    requires i <= |a|
    ensures r.None? ==> forall k :: i <= k < |a| ==> a[k].None?
    ensures r.Some? ==> (i <= r.value < |a| && a[r.value].Some?
      && forall k :: i <= k < r.value ==> a[k].None?)
    decreases |a| - i
  {
    if i == |a| then None
    else if a[i].Some? then Some(i)
    else FindFirst(a, i + 1)
  }

  /** The first present entry is the one with none before it. */
  lemma {:induction false} FindFirstIs<T>(a: seq<Option<T>>, j: nat)
    requires j < |a| && a[j].Some?
    requires forall k :: 0 <= k < j ==> a[k].None?
    ensures FindFirst(a, 0) == Some(j)
  {
    var r := FindFirst(a, 0);
    assert r.Some?;
    assert !(r.value < j);
  }

  /** The outcome of the match attempt at every position `0 .. |s|`. */
  function Attempts(s: string): (a: seq<Option<Channels>>)
    ensures |a| == |s| + 1
    ensures forall k :: 0 <= k <= |s| ==> a[k] == MatchAt(s, k)
  {
    seq(|s| + 1, k requires 0 <= k <= |s| => MatchAt(s, k))
  }

  /** `buffer.match(...)`: the captures of the leftmost successful attempt. */
  function MatchRgb(s: string): (r: Option<Channels>)
    ensures r.Some? ==> IsGroup(r.value.red) && IsGroup(r.value.green) && IsGroup(r.value.blue)
  {
    var a := Attempts(s);
    match FindFirst(a, 0)
    case None => None
    case Some(i) => a[i]
  }

  /** A match found is the leftmost match. */
  lemma {:induction false} MatchRgbLeftmost(s: string)
    requires MatchRgb(s).Some?
    ensures exists i :: (0 <= i <= |s| && IsMatchAt(s, i, MatchRgb(s).value)
      && forall j, c :: 0 <= j < i ==> !IsMatchAt(s, j, c))
  {
    var c := MatchRgb(s).value;
    var i := FindFirst(Attempts(s), 0).value;
    assert MatchAt(s, i) == Some(c);
    MatchAtSound(s, i, c);
    NoEarlierMatch(s, i);
  }

  lemma {:induction false} NoEarlierMatch(s: string, i: nat)
    requires i <= |s|
    requires forall k :: 0 <= k < i ==> Attempts(s)[k].None?
    ensures forall j, c :: 0 <= j < i ==> !IsMatchAt(s, j, c)
  {
    forall j, d | 0 <= j < i ensures !IsMatchAt(s, j, d) {
      assert Attempts(s)[j] == MatchAt(s, j);
      if IsMatchAt(s, j, d) {
        MatchAtComplete(s, j, d);
      }
    }
  }

  /** No match found means no position holds a match. */
  lemma {:induction false} MatchRgbNone(s: string)
    requires MatchRgb(s).None?
    ensures forall i, c :: 0 <= i <= |s| ==> !IsMatchAt(s, i, c)
  {
    forall i, c | 0 <= i <= |s| ensures !IsMatchAt(s, i, c) {
      assert Attempts(s)[i] == MatchAt(s, i);
      if IsMatchAt(s, i, c) {
        MatchAtComplete(s, i, c);
      }
    }
  }

  /** The parser finds something iff some position of the buffer holds
      `rgb:` and three groups, and what it finds is the leftmost match. */
  lemma {:induction false} MatchRgbCorrect(s: string)
    ensures MatchRgb(s).Some? <==> exists i, c :: 0 <= i <= |s| && IsMatchAt(s, i, c)
    ensures MatchRgb(s).Some? ==> exists i :: (0 <= i <= |s| && IsMatchAt(s, i, MatchRgb(s).value)
      && forall j, c :: 0 <= j < i ==> !IsMatchAt(s, j, c))
  {
    if MatchRgb(s).Some? {
      MatchRgbLeftmost(s);
    } else {
      MatchRgbNone(s);
    }
  }

  /** The reply a terminal sends: `ESC ] 11 ; rgb:` and the three groups,
      then the terminator. */
  function OscReply(c: Channels, terminator: string): string {
    [ESC] + "]11;rgb:" + Body(c) + terminator
  }

  /** No attempt succeeds inside the `ESC ] 11 ;` introducer. */
  lemma {:induction false} IntroducerNoMatch(s: string)
    requires |s| >= 5 && s[..5] == [ESC, ']', '1', '1', ';']
    ensures forall k :: 0 <= k < 5 ==> Attempts(s)[k].None?
  {
    forall k | 0 <= k < 5 ensures Attempts(s)[k].None? {
      assert s[k] == s[..5][k];
      assert !RgbTagAt(s, k);
    }
  }

  lemma {:induction false} ReplyMatchAt(c: Channels, terminator: string)
    requires IsGroup(c.red) && IsGroup(c.green) && IsGroup(c.blue)
    requires terminator == [BEL] || terminator == [ESC, '\\']
    ensures IsMatchAt(OscReply(c, terminator), 5, c)
  {
    var s := OscReply(c, terminator);
    var b := Body(c);
    assert s == [ESC, ']', '1', '1', ';', 'r', 'g', 'b', ':'] + b + terminator;
    assert s[9..9 + |b|] == b;
    assert s[9 + |b|] == terminator[0];
    assert RgbTagAt(s, 5);
    assert OccursAt(s, b, 9);
  }

  /** A well-formed reply, ended by BEL or `ESC \`, parses to its own groups. */
  lemma {:induction false} ReplyParses(c: Channels, terminator: string)
    requires IsGroup(c.red) && IsGroup(c.green) && IsGroup(c.blue)
    requires terminator == [BEL] || terminator == [ESC, '\\']
    ensures MatchRgb(OscReply(c, terminator)) == Some(c)
  {
    var s := OscReply(c, terminator);
    ReplyMatchAt(c, terminator);
    MatchAtComplete(s, 5, c);
    ReplyIntroducer(c, terminator);
    IntroducerNoMatch(s);
    MatchRgbAt(s, 5, c);
  }

  lemma {:induction false} ReplyIntroducer(c: Channels, terminator: string)
    ensures var s := OscReply(c, terminator); |s| >= 5 && s[..5] == [ESC, ']', '1', '1', ';']
  {
    var s := OscReply(c, terminator);
    assert s == [ESC, ']', '1', '1', ';'] + ("rgb:" + Body(c) + terminator);
  }

  /** The first successful attempt gives the match. */
  lemma {:induction false} MatchRgbAt(s: string, j: nat, c: Channels)
    requires j <= |s| && MatchAt(s, j) == Some(c)
    requires forall k :: 0 <= k < j ==> Attempts(s)[k].None?
    ensures MatchRgb(s) == Some(c)
  {
    FindFirstIs(Attempts(s), j);
  }

  /** The querier's `_normalizeHex`: pad to four digits with `0`, keep the
      first two, read them as hex. Groups have at least two digits, so this
      is the byte spelled by the first two. */
  function PadNormalize(g: string): (v: int)
    requires IsGroup(g)
    ensures 0 <= v <= 255
    ensures v == 16 * HexValue(g[0]) + HexValue(g[1])
  {
    var padded := g + seq(4 - |g|, _ => '0');
    var top := padded[..2];
    assert top == [g[0], g[1]];
    HexPairValue(top);
    HexDigitsValue(top)
  }

  /** The child probe's `normalize`: the group's value scaled from
      `0 .. 16^n - 1` onto `0 .. 255` and rounded. */
  function ScaleNormalize(g: string): (v: int)
    requires IsGroup(g)
    ensures 0 <= v <= 255
  {
    var max := Pow16(|g|) - 1;
    HexBound(g);
    RoundDiv(HexDigitsValue(g) * 255, max)
  }

  function Pow16(n: nat): (p: nat)
    ensures p >= 1
  {
    if n == 0 then 1 else 16 * Pow16(n - 1)
  }

  lemma {:induction false} HexBound(g: string)
    requires AllHex(g)
    ensures HexDigitsValue(g) < Pow16(|g|)
    decreases |g|
  {
    if g != [] {
      HexBound(g[..|g| - 1]);
    }
  }

  /** The value of the first two digits and the rest, for groups of three
      and four digits. */
  lemma {:induction false} GroupValue(g: string)
    requires IsGroup(g)
    ensures var h := 16 * HexValue(g[0]) + HexValue(g[1]);
      && (|g| == 2 ==> HexDigitsValue(g) == h)
      && (|g| == 3 ==> HexDigitsValue(g) == 16 * h + HexValue(g[2]))
      && (|g| == 4 ==> HexDigitsValue(g) == 256 * h + 16 * HexValue(g[2]) + HexValue(g[3]))
  {
    HexPairValue(g[..2]);
    if |g| >= 3 {
      assert g[..3][..2] == g[..2];
    }
    if |g| == 4 {
      assert g[..4][..3] == g[..3];
    }
    assert g == g[..|g|];
  }

  /** The two normalisations agree on two-digit groups and on the largest
      value of any width, and never differ by more than one. */
  lemma {:induction false} NormalizationsClose(g: string)
    requires IsGroup(g)
    ensures |g| == 2 ==> PadNormalize(g) == ScaleNormalize(g)
    ensures -1 <= PadNormalize(g) - ScaleNormalize(g) <= 1
  {
    if |g| == 2 {
      NormalizeTwo(g);
    } else if |g| == 3 {
      NormalizeThree(g);
    } else {
      NormalizeFour(g);
    }
  }

  lemma {:induction false} NormalizeTwo(g: string)
    requires IsGroup(g) && |g| == 2
    ensures PadNormalize(g) == ScaleNormalize(g)
  {
    GroupValue(g);
    assert Pow16(2) - 1 == 255;
  }

  lemma {:induction false} NormalizeThree(g: string)
    requires IsGroup(g) && |g| == 3
    ensures -1 <= PadNormalize(g) - ScaleNormalize(g) <= 1
  {
    GroupValue(g);
    var v := HexDigitsValue(g);
    var k := ScaleNormalize(g);
    assert Pow16(3) - 1 == 4095;
    assert 4095 * (2 * k - 1) <= 2 * (v * 255) < 4095 * (2 * k + 1);
  }

  lemma {:induction false} NormalizeFour(g: string)
    requires IsGroup(g) && |g| == 4
    ensures -1 <= PadNormalize(g) - ScaleNormalize(g) <= 1
  {
    GroupValue(g);
    var v := HexDigitsValue(g);
    var k := ScaleNormalize(g);
    assert Pow16(4) - 1 == 65535;
    assert 65535 * (2 * k - 1) <= 2 * (v * 255) < 65535 * (2 * k + 1);
  }

  /** `ff`, `fff` and `ffff` are full intensity under both normalisations. */
  lemma {:induction false} FullIntensity()
    ensures PadNormalize("ff") == 255 && PadNormalize("fff") == 255 && PadNormalize("ffff") == 255
    ensures ScaleNormalize("ff") == 255 && ScaleNormalize("fff") == 255 && ScaleNormalize("ffff") == 255
  {
    GroupValue("ff");
    GroupValue("fff");
    GroupValue("ffff");
    assert Pow16(4) - 1 == 65535;
  }

  /** `luminance < 0.5` with luminance `(0.299 R + 0.587 G + 0.114 B) / 255`,
      in exact integer form. */
  predicate IsDark(r: int, g: int, b: int) {
    299 * r + 587 * g + 114 * b < 127500
  }

  function Classify(r: int, g: int, b: int): (t: TerminalTheme)
    ensures t == Dark <==> IsDark(r, g, b)
    ensures t != Unknown
  {
    if IsDark(r, g, b) then Dark else Light
  }

  /** Darkening any channel never turns a dark background light. */
  lemma {:induction false} ClassifyMonotone(r: int, g: int, b: int, r2: int, g2: int, b2: int)
    requires r2 <= r && g2 <= g && b2 <= b
    requires Classify(r, g, b) == Dark
    ensures Classify(r2, g2, b2) == Dark
  {
  }
}

=== FILE: osc_theme_querier.dfy ===
/** The in-process OSC 11 theme querier. The asynchronous exchange with the
    terminal is a state machine driven by a trace of events: a chunk of
    input arriving on stdin, or the timer firing. The clock reading `now`
    is a parameter. */
module OscThemeQuerier {
  import opened Wrappers
  import opened Text
  import opened Types
  import opened OscResponse
  import opened Events

  /** `ESC ] 11 ; ? ESC \`: ask the terminal for its background colour. */
  const OscQuery: string := [ESC] + "]11;?" + [ESC, '\\']

  const NotTtyMessage: string := "Not a TTY environment"
  const NoResponseMessage: string := "No valid OSC response found in buffer"
  const TimeoutMessage: string := "OSC query timeout - terminal did not respond"

  const DefaultTimeout: nat := 300
  const DefaultCacheTtl: int := 3600000

  /** `Result<TerminalTheme, OscQueryError>`; an error is its message. */
  type QueryResult = Result<TerminalTheme, string>

  /** `_parseResponse`: the leftmost `rgb:` reply in the buffer, each channel
      reduced to its first two digits, classified by luminance. */
  function ParseResponse(buffer: string): (r: QueryResult)
    ensures r.Err? <==> MatchRgb(buffer).None?
    ensures r.Err? ==> r.error == NoResponseMessage
    ensures r.Ok? ==> r.value != Unknown
  {
    match MatchRgb(buffer)
    case None => Err(NoResponseMessage)
    case Some(c) => Ok(Classify(PadNormalize(c.red), PadNormalize(c.green), PadNormalize(c.blue)))
  }

  /** A reply parses to the classification of the first two digits of each
      of its groups. */
  lemma {:induction false} ParseReply(c: Channels, terminator: string)
    requires IsGroup(c.red) && IsGroup(c.green) && IsGroup(c.blue)
    requires terminator == [BEL] || terminator == [ESC, '\\']
    ensures ParseResponse(OscReply(c, terminator)) ==
      Ok(Classify(PadNormalize(c.red), PadNormalize(c.green), PadNormalize(c.blue)))
  {
    ReplyParses(c, terminator);
  }

  /** The test suite's replies: `0a/0b/0c` and `00/00/00` are dark, `ff/fa/f1` light. */
  lemma {:induction false} ParseDarkExample()
    ensures ParseResponse(OscReply(Channels("0a", "0b", "0c"), [ESC, '\\'])) == Ok(Dark)
  {
    ParseReply(Channels("0a", "0b", "0c"), [ESC, '\\']);
  }

  lemma {:induction false} ParseBlackExample()
    ensures ParseResponse(OscReply(Channels("00", "00", "00"), [ESC, '\\'])) == Ok(Dark)
  {
    ParseReply(Channels("00", "00", "00"), [ESC, '\\']);
  }

  lemma {:induction false} ParseLightExample()
    ensures ParseResponse(OscReply(Channels("ff", "fa", "f1"), [ESC, '\\'])) == Ok(Light)
  {
    ParseReply(Channels("ff", "fa", "f1"), [ESC, '\\']);
  }

  /** The state of one `_performQuery`: the raw mode seen before it began,
      the accumulated input, whether `cleanup` ran, whether the data
      listener is attached, the current raw mode, and how the promise
      settled. */
  datatype Exchange = Exchange(
    originalRaw: bool,
    buffer: string,
    resolved: bool,
    listening: bool,
    rawMode: bool,
    outcome: Option<QueryResult>)

  /** The relations every reachable exchange keeps: it is settled exactly
      when cleaned up, listens exactly until then, and is in raw mode until
      cleanup restores the original mode. */
  predicate Valid(x: Exchange) {
    && (x.resolved <==> x.outcome.Some?)
    && (x.listening <==> !x.resolved)
    && x.rawMode == (if x.resolved then x.originalRaw else true)
  }

  /** After setup: the raw mode seen before kept for `cleanup`, raw mode
      on and the listener attached, nothing read and nothing settled. The
      timer is the `Timeout` event of the trace and the write is in `Query`. */
  function Begin(isRaw: bool): (x: Exchange)
    ensures Valid(x) && !x.resolved && x.buffer == ""
    ensures x.originalRaw == isRaw && x.rawMode && x.listening && x.outcome.None?
  {
    Exchange(isRaw, "", false, true, true, None)
  }

  /** `cleanup`: only the first call has an effect. */
  function Cleanup(x: Exchange): Exchange {
    if x.resolved then x
    else x.(resolved := true, listening := false, rawMode := x.originalRaw)
  }

  /** `resolve`: a promise settles once. */
  function Resolve(x: Exchange, r: QueryResult): Exchange {
    if x.outcome.Some? then x else x.(outcome := Some(r))
  }

  /** One event. A chunk reaches `onData` only while the listener is
      attached; the timer fires only while it is not cleared. */
  function Step(x: Exchange, e: Event): (y: Exchange)
    ensures y.originalRaw == x.originalRaw
    ensures Valid(x) && x.resolved ==> y == x
  {
    match e
    case Chunk(d) =>
      if !x.listening then x
      else
        var buffer := x.buffer + d;
        var parsed := ParseResponse(buffer);
        if parsed.Ok? then Resolve(Cleanup(x.(buffer := buffer)), parsed)
        else x.(buffer := buffer)
    case Timeout =>
      if x.resolved then x
      else Resolve(Cleanup(x), Err(TimeoutMessage))
  }

  function Run(x: Exchange, trace: seq<Event>): Exchange
    decreases |trace|
  {
    if trace == [] then x else Run(Step(x, trace[0]), trace[1..])
  }

  /** Every event keeps the exchange's invariant. */
  lemma {:induction false} StepValid(x: Exchange, e: Event)
    requires Valid(x)
    ensures Valid(Step(x, e))
  {
  }

  lemma {:induction false} RunValid(x: Exchange, trace: seq<Event>)
    requires Valid(x)
    ensures Valid(Run(x, trace)) && Run(x, trace).originalRaw == x.originalRaw
    decreases |trace|
  {
    if trace != [] {
      StepValid(x, trace[0]);
      RunValid(Step(x, trace[0]), trace[1..]);
    }
  }

  lemma {:induction false} RunAppend(x: Exchange, a: seq<Event>, b: seq<Event>)
    ensures Run(x, a + b) == Run(Run(x, a), b)
    decreases |a|
  {
    if a == [] {
      assert a + b == b;
    } else {
      assert (a + b)[0] == a[0];
      assert (a + b)[1..] == a[1..] + b;
      RunAppend(Step(x, a[0]), a[1..], b);
    }
  }

  /** Once settled, later chunks and timer events change nothing. */
  lemma {:induction false} SettledStays(x: Exchange, trace: seq<Event>)
    requires Valid(x) && x.resolved
    ensures Run(x, trace) == x
    decreases |trace|
  {
    if trace != [] {
      SettledStays(Step(x, trace[0]), trace[1..]);
    }
  }

  /** The raw mode the terminal is left in: while the exchange is pending
      the terminal is in raw mode; once it settled, by either path, the mode
      seen before the query is restored and the listener removed. */
  lemma {:induction false} RawModeRestored(isRaw: bool, trace: seq<Event>)
    ensures var x := Run(Begin(isRaw), trace);
      && (x.resolved ==> x.rawMode == isRaw && !x.listening && x.outcome.Some?)
      && (!x.resolved ==> x.rawMode && x.listening && x.outcome.None?)
  {
    RunValid(Begin(isRaw), trace);
  }

  /** Characterisation of a pending exchange: it has seen no timer event,
      its buffer is everything delivered, and the buffer after no chunk so
      far parsed. */
  predicate PendingTrace(trace: seq<Event>) {
    && NoTimeout(trace)
    && forall k :: 1 <= k <= |trace| ==> ParseResponse(Delivered(trace[..k])).Err?
  }

  /** A pending exchange stays pending on an event iff the event is a
      chunk after which the buffer still does not parse. */
  lemma {:induction false} StepPending(x: Exchange, e: Event)
    requires Valid(x) && !x.resolved
    ensures !Step(x, e).resolved <==> e.Chunk? && ParseResponse(x.buffer + e.data).Err?
    ensures !Step(x, e).resolved ==> Step(x, e).buffer == x.buffer + e.data
  {
  }

  /** Extending a trace by one event: it stays a pending trace iff the event
      is a chunk after which the delivered input still does not parse. */
  lemma {:induction false} PendingTraceSnoc(pre: seq<Event>, e: Event)
    ensures PendingTrace(pre + [e]) <==>
      PendingTrace(pre) && e.Chunk? && ParseResponse(Delivered(pre) + e.data).Err?
    ensures e.Chunk? ==> Delivered(pre + [e]) == Delivered(pre) + e.data
  {
    var t := pre + [e];
    SnocPrefixes(pre, e);
    if e.Chunk? {
      assert e == Chunk(e.data);
      DeliveredSnoc(pre, e.data);
      if PendingTrace(t) {
        forall k | 1 <= k <= |pre| ensures ParseResponse(Delivered(pre[..k])).Err? {
          assert t[..k] == pre[..k];
        }
        assert t[..|t|] == t;
      }
      if PendingTrace(pre) && ParseResponse(Delivered(pre) + e.data).Err? {
        forall k | 1 <= k <= |t| ensures ParseResponse(Delivered(t[..k])).Err? {
          if k <= |pre| {
            assert t[..k] == pre[..k];
          } else {
            assert t[..k] == t;
          }
        }
      }
    }
  }

  /** An exchange is still pending after a trace iff the trace has no timer
      event and no prefix of it delivered a parsable reply; the buffer then
      holds all the input delivered. */
  lemma {:induction false} PendingIff(isRaw: bool, trace: seq<Event>)
    ensures !Run(Begin(isRaw), trace).resolved <==> PendingTrace(trace)
    ensures PendingTrace(trace) ==> Run(Begin(isRaw), trace).buffer == Delivered(trace)
    decreases |trace|
  {
    if trace != [] {
      var pre := trace[..|trace| - 1];
      var e := trace[|trace| - 1];
      assert trace == pre + [e];
      PendingIff(isRaw, pre);
      RunAppend(Begin(isRaw), pre, [e]);
      var x := Run(Begin(isRaw), pre);
      RunValid(Begin(isRaw), pre);
      assert Run(Begin(isRaw), trace) == Step(x, e);
      PendingTraceSnoc(pre, e);
      if !x.resolved {
        StepPending(x, e);
      }
    } else {
      assert Run(Begin(isRaw), trace) == Begin(isRaw);
      assert PendingTrace(trace);
    }
  }

  /** The first chunk after which the accumulated input parses settles the
      query with that parse, whatever follows. */
  lemma {:induction false} FirstParseWins(isRaw: bool, pre: seq<Event>, d: string, post: seq<Event>)
    requires PendingTrace(pre)
    requires ParseResponse(Delivered(pre) + d).Ok?
    ensures Run(Begin(isRaw), pre + [Chunk(d)] + post).outcome ==
      Some(ParseResponse(Delivered(pre) + d))
  {
    PendingIff(isRaw, pre);
    RunValid(Begin(isRaw), pre);
    RunAppend(Begin(isRaw), pre + [Chunk(d)], post);
    RunAppend(Begin(isRaw), pre, [Chunk(d)]);
    var y := Run(Begin(isRaw), pre + [Chunk(d)]);
    RunValid(Begin(isRaw), pre + [Chunk(d)]);
    assert y.resolved;
    SettledStays(y, post);
  }

  /** A timer event while the exchange is pending settles it with the
      timeout error, whatever follows. */
  lemma {:induction false} TimeoutWins(isRaw: bool, pre: seq<Event>, post: seq<Event>)
    requires PendingTrace(pre)
    ensures Run(Begin(isRaw), pre + [Timeout] + post).outcome == Some(Err(TimeoutMessage))
  {
    PendingIff(isRaw, pre);
    RunValid(Begin(isRaw), pre);
    RunAppend(Begin(isRaw), pre + [Timeout], post);
    RunAppend(Begin(isRaw), pre, [Timeout]);
    var y := Run(Begin(isRaw), pre + [Timeout]);
    RunValid(Begin(isRaw), pre + [Timeout]);
    SettledStays(y, post);
  }

  /** The timeout error's message names the timeout. */
  lemma {:induction false} TimeoutMessageNamesTimeout()
    ensures Contains(TimeoutMessage, "timeout")
  {
    assert TimeoutMessage == "OSC query " + "timeout" + " - terminal did not respond";
    ContainsInfix("OSC query ", "timeout", " - terminal did not respond");
  }

  /** The timer always fires eventually, so the exchange always settles. */
  lemma {:induction false} Settles(isRaw: bool, trace: seq<Event>)
    ensures Run(Begin(isRaw), trace + [Timeout]).outcome.Some?
  {
    RunValid(Begin(isRaw), trace);
    RunAppend(Begin(isRaw), trace, [Timeout]);
    RunValid(Begin(isRaw), trace + [Timeout]);
  }

  /** `_performQuery`: set up, then run the trace until the timer fires. */
  function PerformQuery(isRaw: bool, trace: seq<Event>): (x: Exchange)
    ensures x.outcome.Some? && x.resolved && x.rawMode == isRaw && !x.listening
  {
    Settles(isRaw, trace);
    RunValid(Begin(isRaw), trace + [Timeout]);
    Run(Begin(isRaw), trace + [Timeout])
  }

  datatype CacheEntry = CacheEntry(result: QueryResult, stamp: int)

  /** A querier's configuration and its cache. */
  datatype Querier = Querier(timeout: nat, cacheTtl: int, cache: Option<CacheEntry>)

  /** `new OscThemeQuerier(stdin, stdout)` with the default timeout and TTL. */
  function NewQuerier(): (q: Querier)
    ensures q.timeout == 300 && q.cacheTtl == 3600000 && q.cache.None?
  {
    Querier(DefaultTimeout, DefaultCacheTtl, None)
  }

  /** What one call of `query` does: the querier afterwards, the result,
      what it wrote to stdout, and the raw mode stdin is left in. */
  datatype QueryCall = QueryCall(querier: Querier, result: QueryResult, writes: seq<string>, rawModeAfter: bool)

  predicate CacheFresh(q: Querier, now: int) {
    q.cache.Some? && now - q.cache.value.stamp < q.cacheTtl
  }

  /** `query()`. */
  function Query(q: Querier, stdoutIsTTY: bool, hasSetRawMode: bool, isRaw: bool, now: int, trace: seq<Event>): (c: QueryCall)
    ensures !stdoutIsTTY || !hasSetRawMode ==>
      c == QueryCall(q, Err(NotTtyMessage), [], isRaw)
    ensures stdoutIsTTY && hasSetRawMode && CacheFresh(q, now) ==>
      c == QueryCall(q, q.cache.value.result, [], isRaw)
    ensures stdoutIsTTY && hasSetRawMode && !CacheFresh(q, now) ==>
      && c.writes == [OscQuery]
      && c.querier == q.(cache := Some(CacheEntry(c.result, now)))
      && c.rawModeAfter == isRaw
  {
    if !stdoutIsTTY || !hasSetRawMode then QueryCall(q, Err(NotTtyMessage), [], isRaw)
    else if CacheFresh(q, now) then QueryCall(q, q.cache.value.result, [], isRaw)
    else
      var x := PerformQuery(isRaw, trace);
      var r := x.outcome.value;
      QueryCall(q.(cache := Some(CacheEntry(r, now))), r, [OscQuery], x.rawMode)
  }

  /** An uncached query answers with the first parsable reply, or with the
      timeout error when the timer fires first. */
  lemma {:induction false} QueryResultOfTrace(q: Querier, isRaw: bool, now: int, pre: seq<Event>, e: Event, post: seq<Event>)
    requires !CacheFresh(q, now)
    requires PendingTrace(pre)
    requires e.Chunk? ==> ParseResponse(Delivered(pre) + e.data).Ok?
    ensures var c := Query(q, true, true, isRaw, now, pre + [e] + post);
      c.result == (if e.Chunk? then ParseResponse(Delivered(pre) + e.data) else Err(TimeoutMessage))
  {
    var trace := pre + [e] + post;
    assert trace + [Timeout] == pre + [e] + (post + [Timeout]);
    if e.Chunk? {
      assert e == Chunk(e.data);
      FirstParseWins(isRaw, pre, e.data, post + [Timeout]);
    } else {
      TimeoutWins(isRaw, pre, post + [Timeout]);
    }
  }

  /** A second query within the TTL of the first answers from the cache,
      with the first answer, ok or error, and writes nothing. */
  lemma {:induction false} SecondQueryCached(q: Querier, raw1: bool, raw2: bool, t1: int, t2: int, tr1: seq<Event>, tr2: seq<Event>)
    requires q.cache.None?
    requires t2 - t1 < q.cacheTtl
    ensures var c1 := Query(q, true, true, raw1, t1, tr1);
      var c2 := Query(c1.querier, true, true, raw2, t2, tr2);
      && c1.writes == [OscQuery]
      && c2.result == c1.result && c2.writes == [] && c2.querier == c1.querier
  {
  }

  /** Past the TTL the query goes to the terminal again. */
  lemma {:induction false} ExpiredQueryRequeries(q: Querier, raw1: bool, raw2: bool, t1: int, t2: int, tr1: seq<Event>, tr2: seq<Event>)
    requires q.cache.None?
    requires t2 - t1 >= q.cacheTtl
    ensures var c1 := Query(q, true, true, raw1, t1, tr1);
      Query(c1.querier, true, true, raw2, t2, tr2).writes == [OscQuery]
  {
  }

  /** The TTY check comes before the cache: even a fresh cached answer is
      not returned without a TTY. */
  lemma {:induction false} NotTtyBeforeCache(q: Querier, isRaw: bool, now: int, trace: seq<Event>)
    requires CacheFresh(q, now)
    ensures Query(q, false, true, isRaw, now, trace).result == Err(NotTtyMessage)
    ensures Query(q, true, false, isRaw, now, trace).result == Err(NotTtyMessage)
  {
  }

  /** The test suite's dark and light replies, answered by a fresh querier. */
  lemma {:induction false} QueryReplyExamples(isRaw: bool, now: int)
    ensures Query(NewQuerier(), true, true, isRaw, now,
      [Chunk(OscReply(Channels("0a", "0b", "0c"), [ESC, '\\']))]).result == Ok(Dark)
    ensures Query(NewQuerier(), true, true, isRaw, now,
      [Chunk(OscReply(Channels("ff", "fa", "f1"), [ESC, '\\']))]).result == Ok(Light)
  {
    ParseDarkExample();
    ParseLightExample();
    assert PendingTrace([]);
    var r1 := OscReply(Channels("0a", "0b", "0c"), [ESC, '\\']);
    var r2 := OscReply(Channels("ff", "fa", "f1"), [ESC, '\\']);
    assert [] + [Chunk(r1)] + [] == [Chunk(r1)];
    assert [] + [Chunk(r2)] + [] == [Chunk(r2)];
    assert Delivered([]) + r1 == r1 && Delivered([]) + r2 == r2;
    QueryResultOfTrace(NewQuerier(), isRaw, now, [], Chunk(r1), []);
    QueryResultOfTrace(NewQuerier(), isRaw, now, [], Chunk(r2), []);
  }

  /** The test suite's cache hit: after `00/00/00` the second query answers dark
      and only one query was written. */
  lemma {:induction false} QueryCacheExample(isRaw: bool, now: int)
    ensures var c1 := Query(NewQuerier(), true, true, isRaw, now,
        [Chunk(OscReply(Channels("00", "00", "00"), [ESC, '\\']))]);
      var c2 := Query(c1.querier, true, true, isRaw, now, []);
      c2.result == Ok(Dark) && c1.writes + c2.writes == [OscQuery]
  {
    var r := OscReply(Channels("00", "00", "00"), [ESC, '\\']);
    FirstQueryBlack(isRaw, now);
    SecondQueryCached(NewQuerier(), isRaw, isRaw, now, now, [Chunk(r)], []);
  }

  /** The first query of a black reply answers dark. */
  lemma {:induction false} FirstQueryBlack(isRaw: bool, now: int)
    ensures Query(NewQuerier(), true, true, isRaw, now,
      [Chunk(OscReply(Channels("00", "00", "00"), [ESC, '\\']))]).result == Ok(Dark)
  {
    ParseBlackExample();
    assert PendingTrace([]);
    var r := OscReply(Channels("00", "00", "00"), [ESC, '\\']);
    assert [] + [Chunk(r)] + [] == [Chunk(r)];
    assert Delivered([]) + r == r;
    QueryResultOfTrace(NewQuerier(), isRaw, now, [], Chunk(r), []);
  }

  /** The test suite's silent terminal: no reply gives the timeout error. */
  lemma {:induction false} QueryTimeoutExample(isRaw: bool, now: int)
    ensures Query(NewQuerier(), true, true, isRaw, now, []).result == Err(TimeoutMessage)
  {
    assert PendingTrace([]);
    assert [] + [Timeout] + [] == [] + [Timeout];
    TimeoutWins(isRaw, [], []);
  }
}

=== FILE: osc_theme_sync.dfy ===
/** `getTerminalThemeSync`: run the probe as a child process, with a
    1500 ms limit, and read the theme from what it printed. Spawning is
    left to the caller; only the interpretation of its result is modelled. */
module OscThemeSync {
  import opened Wrappers
  import opened Text
  import opened Types
  import opened OscChildProbe
  import opened Events

  const SpawnTimeout: nat := 1500

  /** What `spawnSync` reports: whether it failed (including hitting the
      time limit), the exit status (`None` for `null`), and stdout. */
  datatype SpawnResult = SpawnResult(error: bool, status: Option<int>, stdout: string)

  /** Any spawn error or non-zero status is `unknown`; otherwise the trimmed
      output is the theme if it is `dark` or `light`, and `unknown` if not. */
  function ThemeOfSpawn(r: SpawnResult): (t: TerminalTheme)
    ensures r.error || r.status != Some(0) ==> t == Unknown
    ensures t != Unknown ==> ThemeToken(t) == Trim(r.stdout)
    ensures !r.error && r.status == Some(0) && Trim(r.stdout) in ["dark", "light"] ==>
      ThemeToken(t) == Trim(r.stdout)
  {
    if r.error || r.status != Some(0) then Unknown
    else
      var output := Trim(r.stdout);
      if output == "dark" then Dark
      else if output == "light" then Light
      else Unknown
  }

  /** A theme token with its newline trims to the token. */
  lemma {:induction false} TrimTokenLine(t: TerminalTheme)
    ensures Trim(ThemeToken(t) + "\n") == ThemeToken(t)
  {
    assert ThemeToken(t) + "\n" == "" + ThemeToken(t) + "\n";
    TrimPadded("", ThemeToken(t), "\n");
  }

  /** Each line the probe prints reads back as the theme it names. */
  lemma {:induction false} TokenLineRoundTrip(t: TerminalTheme)
    ensures ThemeOfSpawn(SpawnResult(false, Some(0), ThemeToken(t) + "\n")) == t
  {
    TrimTokenLine(t);
  }

  /** Whatever the probe did, a clean exit yields the theme it printed. */
  lemma {:induction false} SyncReadsProbe(stdinIsTTY: bool, hasSetRawMode: bool, trace: seq<Event>)
    ensures var out := ProbeMain(stdinIsTTY, hasSetRawMode, trace).stdout;
      exists t :: out == ThemeToken(t) + "\n" && ThemeOfSpawn(SpawnResult(false, Some(0), out)) == t
  {
    var out := ProbeMain(stdinIsTTY, hasSetRawMode, trace).stdout;
    ProbeOutputIsToken(stdinIsTTY, hasSetRawMode, trace);
    var t := if out == "dark\n" then Dark else if out == "light\n" then Light else Unknown;
    assert out == ThemeToken(t) + "\n";
    TokenLineRoundTrip(t);
  }

  /** The test suite's outputs: surrounding white space is ignored, and any
      other word is `unknown`. */
  lemma {:induction false} SyncPaddedLight()
    ensures ThemeOfSpawn(SpawnResult(false, Some(0), "  " + "light" + " \n")) == Light
  {
    TrimPadded("  ", "light", " \n");
  }

  lemma {:induction false} SyncOtherWord()
    ensures ThemeOfSpawn(SpawnResult(false, Some(0), "" + "dim" + "\n")) == Unknown
  {
    TrimPadded("", "dim", "\n");
  }
}

=== FILE: text.dfy ===
/** String helpers with JavaScript semantics: the character classes the
    library's regular expressions use, `String.prototype.trim`, `split` /
    `join` on a single separator character, ASCII case folding and decimal
    rendering of naturals (template-literal interpolation of a number). */
module Text {

  const ESC: char := '\U{1B}'
  const BEL: char := '\U{07}'

  predicate IsDigit(c: char) { '0' <= c <= '9' }

  predicate IsHexDigit(c: char) { IsDigit(c) || 'a' <= c <= 'f' || 'A' <= c <= 'F' }

  predicate AllDigits(s: string) { forall i :: 0 <= i < |s| ==> IsDigit(s[i]) }

  predicate AllHex(s: string) { forall i :: 0 <= i < |s| ==> IsHexDigit(s[i]) }

  /** The JavaScript `WhiteSpace` and `LineTerminator` code points removed by `trim()`. */
  predicate IsJsSpace(c: char) {
    || c == ' ' || c == '\t' || c == '\n' || c == '\r'
    || c == '\U{0B}' || c == '\U{0C}' || c == '\U{A0}' || c == '\U{1680}'
    || ('\U{2000}' <= c <= '\U{200A}')
    || c == '\U{2028}' || c == '\U{2029}' || c == '\U{202F}' || c == '\U{205F}'
    || c == '\U{3000}' || c == '\U{FEFF}'
  }

  function DigitValue(c: char): (v: nat)
    requires IsDigit(c)
    ensures v < 10
  {
    (c as int - '0' as int) as nat
  }

  function HexValue(c: char): (v: nat)
    requires IsHexDigit(c)
    ensures v < 16
    ensures IsDigit(c) ==> v == DigitValue(c)
  {
    if IsDigit(c) then DigitValue(c)
    else if 'a' <= c <= 'f' then (c as int - 'a' as int + 10) as nat
    else (c as int - 'A' as int + 10) as nat
  }

  /** Lower-case hexadecimal digit for a value below 16. */
  function HexChar(v: nat): (c: char)
    requires v < 16
    ensures IsHexDigit(c) && HexValue(c) == v
  {
    if v < 10 then ('0' as int + v) as char else ('a' as int + v - 10) as char
  }

  function DigitChar(v: nat): (c: char)
    requires v < 10
    ensures IsDigit(c) && DigitValue(c) == v
  {
    ('0' as int + v) as char
  }

  /** ASCII case folding, which is what the case-insensitive regular
      expressions of the library do for the ASCII letters they mention. */
  function LowerChar(c: char): char {
    if 'A' <= c <= 'Z' then (c as int + 32) as char else c
  }

  function Lower(s: string): (r: string)
    ensures |r| == |s|
    ensures forall i :: 0 <= i < |s| ==> r[i] == LowerChar(s[i])
  {
    if s == [] then [] else [LowerChar(s[0])] + Lower(s[1..])
  }

  predicate StartsWith(s: string, p: string) { |p| <= |s| && s[..|p|] == p }

  predicate EndsWith(s: string, p: string) { |p| <= |s| && s[|s| - |p|..] == p }

  /** `t` occurs in `s` starting at index `i`. */
  predicate OccursAt(s: string, t: string, i: int) {
    0 <= i <= |s| - |t| && s[i..i + |t|] == t
  }

  /** `s.includes(t)`. */
  predicate Contains(s: string, t: string) {
    exists i | 0 <= i <= |s| :: OccursAt(s, t, i)
  }

  lemma {:induction false} ContainsExtend(s: string, u: string, t: string)
    requires Contains(s, t)
    ensures Contains(s + u, t) && Contains(u + s, t)
  {
    var i :| 0 <= i <= |s| && OccursAt(s, t, i);
    assert (s + u)[i..i + |t|] == t;
    assert OccursAt(s + u, t, i);
    assert (u + s)[|u| + i..|u| + i + |t|] == t;
    assert OccursAt(u + s, t, |u| + i);
  }

  lemma {:induction false} ContainsInfix(a: string, t: string, b: string)
    ensures Contains(a + t + b, t)
  {
    assert (a + t + b)[|a|..|a| + |t|] == t;
    assert OccursAt(a + t + b, t, |a|);
  }

  function TrimStart(s: string): (r: string)
    ensures |r| <= |s| && r == s[|s| - |r|..]
    ensures r == [] || !IsJsSpace(r[0])
    ensures forall i :: 0 <= i < |s| - |r| ==> IsJsSpace(s[i])
  {
    if s != [] && IsJsSpace(s[0]) then
      var r := TrimStart(s[1..]);
      assert s[1..][|s| - 1 - |r|..] == s[|s| - |r|..];
      assert forall i :: 1 <= i < |s| - |r| ==> s[i] == s[1..][i - 1];
      r
    else s
  }

  function TrimEnd(s: string): (r: string)
    ensures |r| <= |s| && r == s[..|r|]
    ensures r == [] || !IsJsSpace(r[|r| - 1])
    ensures forall i :: |r| <= i < |s| ==> IsJsSpace(s[i])
  {
    if s != [] && IsJsSpace(s[|s| - 1]) then TrimEnd(s[..|s| - 1]) else s
  }

  /** `String.prototype.trim`: the infix left after dropping leading and
      trailing JavaScript white space. */
  function Trim(s: string): (r: string)
    ensures |r| <= |s|
    ensures r == [] || (!IsJsSpace(r[0]) && !IsJsSpace(r[|r| - 1]))
  {
    var a := TrimStart(s);
    var r := TrimEnd(a);
    assert r != [] ==> r[0] == a[0];
    r
  }

  /** Everything of `s` outside `s[i..j]` is JavaScript white space. */
  predicate TrimmedOnlySpace(s: string, i: int, j: int)
    requires 0 <= i <= j <= |s|
  {
    forall k :: 0 <= k < |s| && (k < i || j <= k) ==> IsJsSpace(s[k])
  }

  /** The trim is the infix of `s` between white-space runs. */
  lemma {:induction false} TrimInfix(s: string)
    ensures Contains(s, Trim(s))
  {
    var a := TrimStart(s);
    var r := TrimEnd(a);
    TrimInfixAt(s, a, r);
  }

  /** Trimming cuts nothing but white space: the trim is a slice of `s`
      with only white space around it. */
  lemma {:induction false} TrimDropsOnlySpace(s: string)
    ensures exists i, j :: 0 <= i <= j <= |s| && Trim(s) == s[i..j] && TrimmedOnlySpace(s, i, j)
  {
    var a := TrimStart(s);
    var r := TrimEnd(a);
    var i := |s| - |a|;
    var j := i + |r|;
    assert r == s[i..j];
    forall k | j <= k < |s| ensures IsJsSpace(s[k]) {
      assert s[k] == a[k - i];
    }
    assert TrimmedOnlySpace(s, i, j);
  }

  /** An infix of a suffix is an infix. */
  lemma {:induction false} TrimInfixAt(s: string, a: string, r: string)
    requires |a| <= |s| && a == s[|s| - |a|..]
    requires |r| <= |a| && r == a[..|r|]
    ensures Contains(s, r)
  {
    var i := |s| - |a|;
    assert s[i..i + |r|] == r;
    assert OccursAt(s, r, i);
  }

  /** A string without surrounding white space is its own trim. */
  lemma {:induction false} TrimNoSpace(s: string)
    requires s == [] || (!IsJsSpace(s[0]) && !IsJsSpace(s[|s| - 1]))
    ensures Trim(s) == s
  {
  }

  /** Leading white space is dropped up to the first other character. */
  lemma {:induction false} TrimStartSpaces(ws: string, w: string)
    requires forall i :: 0 <= i < |ws| ==> IsJsSpace(ws[i])
    requires w == [] || !IsJsSpace(w[0])
    ensures TrimStart(ws + w) == w
    decreases |ws|
  {
    if ws != [] {
      assert (ws + w)[1..] == ws[1..] + w;
      TrimStartSpaces(ws[1..], w);
    } else {
      assert ws + w == w;
    }
  }

  /** Trailing white space is dropped back to the last other character. */
  lemma {:induction false} TrimEndSpaces(w: string, ws: string)
    requires forall i :: 0 <= i < |ws| ==> IsJsSpace(ws[i])
    requires w == [] || !IsJsSpace(w[|w| - 1])
    ensures TrimEnd(w + ws) == w
    decreases |ws|
  {
    if ws != [] {
      assert (w + ws)[..|w + ws| - 1] == w + ws[..|ws| - 1];
      TrimEndSpaces(w, ws[..|ws| - 1]);
    } else {
      assert w + ws == w;
    }
  }

  /** A word padded with white space on both sides trims to the word. */
  lemma {:induction false} TrimPadded(ws1: string, w: string, ws2: string)
    requires forall i :: 0 <= i < |ws1| ==> IsJsSpace(ws1[i])
    requires forall i :: 0 <= i < |ws2| ==> IsJsSpace(ws2[i])
    requires w != [] && !IsJsSpace(w[0]) && !IsJsSpace(w[|w| - 1])
    ensures Trim(ws1 + w + ws2) == w
  {
    assert ws1 + w + ws2 == ws1 + (w + ws2);
    TrimStartSpaces(ws1, w + ws2);
    TrimEndSpaces(w, ws2);
  }

  /** A sequence is its prefix, a middle piece and the rest. */
  lemma {:induction false} SliceParts<T>(s: seq<T>, k: nat, m: nat)
    requires k + m <= |s|
    ensures s == s[..k] + s[k..k + m] + s[k + m..]
  {
  }

  /** A string is its leading white space, its trim, and the rest. */
  lemma {:induction false} TrimParts(s: string) returns (k: nat, rest: string)
    ensures k <= |s| && s == s[..k] + Trim(s) + rest
    ensures forall i :: 0 <= i < k ==> IsJsSpace(s[i])
  {
    var a := TrimStart(s);
    var r := TrimEnd(a);
    k := |s| - |a|;
    rest := s[k + |r|..];
    assert Trim(s) == r;
    assert r == s[k..k + |r|] by {
      assert a == s[k..];
      assert r == a[..|r|];
    }
    SliceParts(s, k, |r|);
  }

  /** Trimming twice trims nothing more. */
  lemma {:induction false} TrimIdempotent(s: string)
    ensures Trim(Trim(s)) == Trim(s)
  {
    TrimNoSpace(Trim(s));
  }

  /** Index of the first occurrence of `c`. */
  function IndexOf(s: string, c: char): (i: nat)
    requires c in s
    ensures i < |s| && s[i] == c && c !in s[..i]
  {
    if s[0] == c then 0 else 1 + IndexOf(s[1..], c)
  }

  /** The first occurrence is the one with no occurrence before it. */
  lemma {:induction false} IndexOfUnique(s: string, c: char, j: nat)
    requires j < |s| && s[j] == c && c !in s[..j]
    ensures IndexOf(s, c) == j
  {
    var i := IndexOf(s, c);
    forall k | 0 <= k < j ensures s[k] != c {
      assert s[..j][k] == s[k];
    }
    forall k | 0 <= k < i ensures s[k] != c {
      assert s[..i][k] == s[k];
    }
  }

  /** `s.split(sep)` for a one-character separator: never empty, pieces
      free of the separator. */
  function Split(s: string, sep: char): (r: seq<string>)
    ensures |r| >= 1
    ensures forall k :: 0 <= k < |r| ==> sep !in r[k]
    decreases |s|
  {
    if sep !in s then [s]
    else
      var i := IndexOf(s, sep);
      [s[..i]] + Split(s[i + 1..], sep)
  }

  /** `parts.join(sep)`. */
  function Join(parts: seq<string>, sep: string): string {
    if |parts| == 0 then ""
    else if |parts| == 1 then parts[0]
    else parts[0] + sep + Join(parts[1..], sep)
  }

  /** Concatenation is associative. */
  lemma {:induction false} AppendAssoc<T>(a: seq<T>, b: seq<T>, c: seq<T>)
    ensures a + (b + c) == (a + b) + c
  {
  }

  /** A slice cut at four points is the concatenation of the five pieces. */
  lemma {:induction false} SliceFive<T>(s: seq<T>, a: int, b: int, c: int, d: int, x: int, e: int)
    requires 0 <= a <= b <= c <= d <= x <= e <= |s|
    ensures s[a..e] == s[a..b] + s[b..c] + s[c..d] + s[d..x] + s[x..e]
  {
    assert s[a..e] == s[a..x] + s[x..e];
    assert s[a..x] == s[a..d] + s[d..x];
    assert s[a..d] == s[a..c] + s[c..d];
    assert s[a..c] == s[a..b] + s[b..c];
  }

  /** Six strings concatenated, grouped to the right or to the left. */
  lemma {:induction false} AppendSix<T>(a: seq<T>, b: seq<T>, c: seq<T>, d: seq<T>, e: seq<T>, f: seq<T>)
    ensures a + (b + (c + (d + (e + (f + []))))) == a + b + c + d + e + f
  {
    assert f + [] == f;
    AppendAssoc(e, f, []);
    AppendAssoc(d, e, f);
    AppendAssoc(c, d, e + f);
    AppendAssoc(c, d + e, f);
    AppendAssoc(d, e, f);
    AppendAssoc(b, c + (d + e), f);
    AppendAssoc(a, b + (c + (d + e)), f);
    assert a + (b + (c + (d + e))) == a + b + c + d + e;
  }

  /** Two empty prefixes change nothing. */
  lemma {:induction false} EmptyPrefixes<T>(a: seq<T>, b: seq<T>)
    ensures [] + [] + a + b == a + b
  {
  }

  /** Text without upper-case letters is its own lower case. */
  lemma {:induction false} LowerOfLower(s: string)
    requires forall i :: 0 <= i < |s| ==> !('A' <= s[i] <= 'Z')
    ensures Lower(s) == s
  {
  }

  /** A string ends with its own last part. */
  lemma {:induction false} EndsWithSuffix(a: string, b: string)
    ensures EndsWith(a + b, b)
  {
    assert (a + b)[|a + b| - |b|..] == b;
  }

  /** An element put in front of or between two sequences adds itself to
      their multiset. */
  lemma {:induction false} MultisetFront<T>(x: T, a: seq<T>, b: seq<T>)
    ensures multiset([x] + a + b) == multiset{x} + multiset(a + b)
  {
    assert [x] + a + b == [x] + (a + b);
  }

  lemma {:induction false} MultisetMiddle<T>(x: T, a: seq<T>, b: seq<T>)
    ensures multiset(a + ([x] + b)) == multiset{x} + multiset(a + b)
  {
  }

  /** The head and tail of a sequence built from them. */
  lemma {:induction false} HeadAndTail<T>(x: T, t: seq<T>)
    ensures ([x] + t)[0] == x && ([x] + t)[1..] == t
  {
  }

  /** The first element and the rest of a non-empty concatenation. */
  lemma {:induction false} AppendHead<T>(a: seq<T>, b: seq<T>)
    requires a != []
    ensures (a + b)[0] == a[0] && (a + b)[1..] == a[1..] + b
  {
  }

  /** Joining three parts puts the separator between each neighbouring pair. */
  lemma {:induction false} JoinThree(a: string, b: string, c: string, sep: string)
    ensures Join([a, b, c], sep) == a + sep + b + sep + c
  {
    var ps := [a, b, c];
    assert ps[1..] == [b, c];
    assert ps[1..][1..] == [c];
    assert Join([c], sep) == c;
    assert Join([b, c], sep) == b + sep + c;
    AppendAssoc(a + sep, b + sep, c);
    AppendAssoc(a + sep, b, sep);
  }

  /** Joining five parts: the first two, then the other three. */
  lemma {:induction false} JoinFive(a: string, b: string, c: string, d: string, e: string, sep: string)
    ensures Join([a, b, c, d, e], sep) == a + sep + b + sep + Join([c, d, e], sep)
  {
    var ps := [a, b, c, d, e];
    assert ps[1..] == [b, c, d, e];
    assert ps[1..][1..] == [c, d, e];
  }

  /** Concatenation of a sequence of strings, `parts.join('')`. */
  function Concat(parts: seq<string>): string {
    if parts == [] then "" else parts[0] + Concat(parts[1..])
  }

  lemma {:induction false} ConcatAppend(a: seq<string>, b: seq<string>)
    ensures Concat(a + b) == Concat(a) + Concat(b)
  {
    if a == [] {
      assert a + b == b;
    } else {
      assert (a + b)[0] == a[0];
      assert (a + b)[1..] == a[1..] + b;
      ConcatAppend(a[1..], b);
    }
  }

  /** Joining the pieces of a split restores the string. */
  lemma {:induction false} JoinSplit(s: string, sep: char)
    ensures Join(Split(s, sep), [sep]) == s
    decreases |s|
  {
    if sep in s {
      var i := IndexOf(s, sep);
      JoinSplit(s[i + 1..], sep);
      var rest := Split(s[i + 1..], sep);
      assert Split(s, sep) == [s[..i]] + rest;
      assert ([s[..i]] + rest)[1..] == rest;
      assert s == s[..i] + [sep] + s[i + 1..];
    }
  }

  /** Splitting a join of separator-free pieces gives the pieces back. */
  lemma {:induction false} SplitJoin(parts: seq<string>, sep: char)
    requires |parts| >= 1
    requires forall k :: 0 <= k < |parts| ==> sep !in parts[k]
    ensures Split(Join(parts, [sep]), sep) == parts
  {
    if |parts| == 1 {
    } else {
      var s := Join(parts, [sep]);
      var tail := Join(parts[1..], [sep]);
      assert s == parts[0] + [sep] + tail;
      assert s[|parts[0]|] == sep;
      assert s[..|parts[0]|] == parts[0];
      assert sep in s;
      IndexOfUnique(s, sep, |parts[0]|);
      assert s[|parts[0]| + 1..] == tail;
      SplitJoin(parts[1..], sep);
    }
  }

  /** Decimal rendering of a natural number, as `${n}` writes it. */
  function NatToString(n: nat): (r: string)
    ensures |r| >= 1 && AllDigits(r)
    ensures |r| > 1 ==> r[0] != '0'
  {
    if n < 10 then [DigitChar(n)]
    else NatToString(n / 10) + [DigitChar(n % 10)]
  }

  /** Value of a string of decimal digits. */
  function DigitsValue(s: string): nat
    requires AllDigits(s)
  {
    if s == [] then 0 else 10 * DigitsValue(s[..|s| - 1]) + DigitValue(s[|s| - 1])
  }

  /** Value of a string of hexadecimal digits, `parseInt(s, 16)`. */
  function HexDigitsValue(s: string): nat
    requires AllHex(s)
  {
    if s == [] then 0 else 16 * HexDigitsValue(s[..|s| - 1]) + HexValue(s[|s| - 1])
  }

  /** Value of two hex digits. */
  lemma {:induction false} HexPairValue(s: string)
    requires |s| == 2 && AllHex(s)
    ensures HexDigitsValue(s) == 16 * HexValue(s[0]) + HexValue(s[1])
  {
    assert s[..|s| - 1] == s[..1];
    assert s[..1][..0] == [];
    assert HexDigitsValue(s[..1]) == HexValue(s[0]);
  }

  /** Reading back a decimal rendering gives the number. */
  lemma {:induction false} DigitsValueOfNatToString(n: nat)
    ensures DigitsValue(NatToString(n)) == n
  {
    if n >= 10 {
      DigitsValueOfNatToString(n / 10);
      var s := NatToString(n);
      assert s[..|s| - 1] == NatToString(n / 10);
    }
  }

  /** Rendering is injective, so distinct codes give distinct escape texts. */
  lemma {:induction false} NatToStringInjective(m: nat, n: nat)
    requires NatToString(m) == NatToString(n)
    ensures m == n
  {
    DigitsValueOfNatToString(m);
    DigitsValueOfNatToString(n);
  }

  /** `a` is `b` with some elements left out, order kept. */
  predicate IsSubsequence<T(==)>(a: seq<T>, b: seq<T>) {
    if a == [] then true
    else if b == [] then false
    else (a[0] == b[0] && IsSubsequence(a[1..], b[1..])) || IsSubsequence(a, b[1..])
  }
}

=== FILE: theme.dfy ===
/** The built-in themes: the keys of `themePalettes` and the two defaults.
    The palettes themselves are data outside this model. */
module Theme {
  import opened Wrappers

  datatype ThemeName =
    | CatppuccinMocha | CatppuccinLatte | Dracula | GithubLight | MinimalDark | MinimalLight

  /** A theme's key in `themePalettes`. */
  function ThemeKey(n: ThemeName): string {
    match n
    case CatppuccinMocha => "catppuccin-mocha"
    case CatppuccinLatte => "catppuccin-latte"
    case Dracula => "dracula"
    case GithubLight => "github-light"
    case MinimalDark => "minimal-dark"
    case MinimalLight => "minimal-light"
  }

  /** The keys of `themePalettes`, in declaration order. */
  const ThemeKeys: seq<string> :=
    ["catppuccin-mocha", "catppuccin-latte", "dracula", "github-light", "minimal-dark", "minimal-light"]

  const DefaultDarkTheme: ThemeName := MinimalDark
  const DefaultLightTheme: ThemeName := MinimalLight

  /** `isThemeName`: membership among the six keys. */
  predicate IsThemeName(s: string) {
    s in ThemeKeys
  }

  /** Reads a theme back from its key. */
  function ParseThemeName(s: string): (r: Option<ThemeName>)
    ensures r.Some? <==> IsThemeName(s)
    ensures r.Some? ==> ThemeKey(r.value) == s
  {
    if s == "catppuccin-mocha" then Some(CatppuccinMocha)
    else if s == "catppuccin-latte" then Some(CatppuccinLatte)
    else if s == "dracula" then Some(Dracula)
    else if s == "github-light" then Some(GithubLight)
    else if s == "minimal-dark" then Some(MinimalDark)
    else if s == "minimal-light" then Some(MinimalLight)
    else None
  }

  /** Every theme's key is a theme name and reads back as that theme. */
  lemma {:induction false} ThemeKeyRoundTrip(n: ThemeName)
    ensures IsThemeName(ThemeKey(n))
    ensures ParseThemeName(ThemeKey(n)) == Some(n)
  {
    match n
    case CatppuccinMocha =>
    case CatppuccinLatte =>
    case Dracula =>
    case GithubLight =>
    case MinimalDark =>
    case MinimalLight =>
  }

  /** Each theme name is the key of exactly one theme, and appears once
      among the keys. */
  lemma {:induction false} ThemeKeysUnique(s: string)
    requires IsThemeName(s)
    ensures forall n: ThemeName :: ThemeKey(n) == s <==> ParseThemeName(s) == Some(n)
    ensures forall i, j :: 0 <= i < j < |ThemeKeys| ==> ThemeKeys[i] != ThemeKeys[j]
  {
    forall n: ThemeName ensures ThemeKey(n) == s <==> ParseThemeName(s) == Some(n) {
      ThemeKeyRoundTrip(n);
    }
  }

  /** The defaults are `minimal-dark` and `minimal-light`, both theme names. */
  lemma {:induction false} DefaultsAreThemeNames()
    ensures ThemeKey(DefaultDarkTheme) == "minimal-dark" && IsThemeName(ThemeKey(DefaultDarkTheme))
    ensures ThemeKey(DefaultLightTheme) == "minimal-light" && IsThemeName(ThemeKey(DefaultLightTheme))
  {
  }

  /** The theme options `dark`, `light` and `auto` are not theme names. */
  lemma {:induction false} OptionsAreNotThemeNames()
    ensures !IsThemeName("dark") && !IsThemeName("light") && !IsThemeName("auto")
  {
    assert "dark" != ThemeKeys[2] && "light" != ThemeKeys[3];
  }
}

=== FILE: type_validator.dfy ===
/** The run-time type tests the loggers branch on. The plain ones
    (`isString`, `isError`, the marker tests) are constructor tests on
    `Arg`; the two that read a string are scanners, each proved equal to
    the regular expression it stands for. */
module TypeValidator {
  import opened Wrappers
  import opened Text
  import opened Values

  predicate IsString(a: Arg) { a.Str? }

  predicate IsError(a: Arg) { a.Exception? }

  /** `typeof value === 'object' && value !== null`. */
  predicate IsObject(a: Arg) { !a.Str? && !a.Other? }

  predicate IsBrowserColorizedArg(a: Arg) { a.Colorized? }

  predicate IsBrowserCssArg(a: Arg) { a.Css? }

  predicate IsBrowserObjectArg(a: Arg) { a.BrowserObj? }

  /** `isFormattableObject`: an object that is neither an error, nor a
      colorized marker, nor a string. The CSS and `%o` markers pass. */
  function IsFormattableObject(a: Arg): (r: bool)
    ensures r <==> a.Obj? || a.Css? || a.BrowserObj?
    ensures r ==> !IsError(a) && !IsBrowserColorizedArg(a) && !IsString(a)
  {
    IsObject(a) && !IsError(a) && !IsBrowserColorizedArg(a) && !IsString(a)
  }

  // ---------------------------------------------------------------
  // `/\x1b\[[0-9;]*m/`
  // ---------------------------------------------------------------

  predicate IsSgrParam(c: char) { IsDigit(c) || c == ';' }

  /** The expression matches `s[i..k + 1]`: ESC, `[`, parameters, `m`. */
  predicate SgrAt(s: string, i: int, k: int) {
    0 <= i && i + 2 <= k < |s| && s[i] == ESC && s[i + 1] == '[' && s[k] == 'm' &&
    forall j :: i + 2 <= j < k ==> IsSgrParam(s[j])
  }

  /** Length of the run of parameter characters starting at `p`. */
  function ParamRun(s: string, p: nat): (n: nat)
    requires p <= |s|
    ensures p + n <= |s|
    ensures forall j :: p <= j < p + n ==> IsSgrParam(s[j])
    ensures p + n == |s| || !IsSgrParam(s[p + n])
    decreases |s| - p
  {
    if p < |s| && IsSgrParam(s[p]) then 1 + ParamRun(s, p + 1) else 0
  }

  /** ESC `[` at `i`, then the whole parameter run, then `m`. */
  predicate SgrStartsAt(s: string, i: nat) {
    i + 1 < |s| && s[i] == ESC && s[i + 1] == '[' &&
    var e := i + 2 + ParamRun(s, i + 2);
    e < |s| && s[e] == 'm'
  }

  /** A match starting at `i` can only end after the whole parameter run. */
  lemma {:induction false} SgrStartsAtIff(s: string, i: nat)
    ensures SgrStartsAt(s, i) <==> exists k :: SgrAt(s, i, k)
  {
    if SgrStartsAt(s, i) {
      assert SgrAt(s, i, i + 2 + ParamRun(s, i + 2));
    }
    if k :| SgrAt(s, i, k) {
      assert k == i + 2 + ParamRun(s, i + 2);
    }
  }

  /** First position at or after `i` where a sequence starts. */
  function FindSgr(s: string, i: nat): (r: Option<nat>)
    requires i <= |s|
    ensures r.Some? ==> i <= r.value < |s| && SgrStartsAt(s, r.value)
    ensures r.None? ==> forall j :: i <= j < |s| ==> !SgrStartsAt(s, j)
    decreases |s| - i
  {
    if i == |s| then None
    else if SgrStartsAt(s, i) then Some(i)
    else FindSgr(s, i + 1)
  }

  /** `isAnsiColoredString`: a string holding at least one SGR sequence. */
  function IsAnsiColoredString(a: Arg): (r: bool)
    ensures r <==> a.Str? && exists i, k :: SgrAt(a.s, i, k)
  {
    if !a.Str? then false
    else
      var found := FindSgr(a.s, 0);
      if found.Some? then
        SgrStartsAtIff(a.s, found.value);
        true
      else
        assert forall i, k :: !SgrAt(a.s, i, k) by {
          forall i, k | SgrAt(a.s, i, k) ensures false {
            SgrStartsAtIff(a.s, i);
          }
        }
        false
  }

  /** A colour prefix and its reset make a string ANSI-coloured. */
  lemma {:induction false} WrappedIsAnsiColored(params: string, text: string)
    requires forall j :: 0 <= j < |params| ==> IsSgrParam(params[j])
    ensures IsAnsiColoredString(Str([ESC, '['] + params + "m" + text + [ESC] + "[0m"))
  {
    var s := [ESC, '['] + params + "m" + text + [ESC] + "[0m";
    assert SgrAt(s, 0, |params| + 2) by {
      forall j | 2 <= j < |params| + 2 ensures IsSgrParam(s[j]) {
        assert s[j] == params[j - 2];
      }
    }
  }

  /** A string with no escape character is never ANSI-coloured. */
  lemma {:induction false} NoEscNotColored(s: string)
    requires ESC !in s
    ensures !IsAnsiColoredString(Str(s))
  {
  }

  // ---------------------------------------------------------------
  // `isStackLikeString`
  // ---------------------------------------------------------------

  predicate DigitsBetween(t: string, a: int, b: int)
    requires 0 <= a <= b <= |t|
  {
    forall k :: a <= k < b ==> IsDigit(t[k])
  }

  /** `/:\d+:\d+\)?$/` matches with its colons at `p` and `q` and its
      second number ending at `e`: the end of the line, or just before a
      closing parenthesis that ends it. */
  predicate PositionAt(t: string, p: int, q: int, e: int) {
    (e == |t| || (e == |t| - 1 && 0 <= e && t[e] == ')')) &&
    0 <= p && p + 1 < q && q + 1 < e &&
    t[p] == ':' && t[q] == ':' &&
    DigitsBetween(t, p + 1, q) && DigitsBetween(t, q + 1, e)
  }

  /** Number of digits immediately before index `e`. */
  function TrailingDigits(t: string, e: nat): (n: nat)
    requires e <= |t|
    ensures n <= e
    ensures DigitsBetween(t, e - n, e)
    ensures n == e || !IsDigit(t[e - n - 1])
  {
    if e > 0 && IsDigit(t[e - 1]) then 1 + TrailingDigits(t, e - 1) else 0
  }

  /** The digits between a non-digit at `a - 1` and `e` are exactly the
      trailing run. */
  lemma {:induction false} TrailingDigitsExact(t: string, a: nat, e: nat)
    requires 0 < a <= e <= |t|
    requires DigitsBetween(t, a, e) && !IsDigit(t[a - 1])
    ensures TrailingDigits(t, e) == e - a
    decreases e
  {
    if a < e {
      TrailingDigitsExact(t, a, e - 1);
    }
  }

  /** The scanner for `/:\d+:\d+\)?$/`: drop one closing parenthesis, then
      read two colon-prefixed digit runs backwards. */
  predicate HasPositionSuffix(t: string) {
    var e := if |t| > 0 && t[|t| - 1] == ')' then |t| - 1 else |t|;
    var n2 := TrailingDigits(t, e);
    n2 > 0 && n2 < e && t[e - n2 - 1] == ':' &&
    var q := e - n2 - 1;
    var n1 := TrailingDigits(t, q);
    n1 > 0 && n1 < q && t[q - n1 - 1] == ':'
  }

  /** The scanner agrees with the regular expression. */
  lemma {:induction false} PositionSuffixIff(t: string)
    ensures HasPositionSuffix(t) <==> exists p, q, e :: PositionAt(t, p, q, e)
  {
    if HasPositionSuffix(t) {
      PositionSuffixFound(t);
    }
    if p, q, e :| PositionAt(t, p, q, e) {
      PositionSuffixScanned(t, p, q, e);
    }
  }

  /** The scanner's colons and end are a match of the expression. */
  lemma {:induction false} PositionSuffixFound(t: string)
    requires HasPositionSuffix(t)
    ensures exists p, q, e :: PositionAt(t, p, q, e)
  {
    var e := if |t| > 0 && t[|t| - 1] == ')' then |t| - 1 else |t|;
    var q := e - TrailingDigits(t, e) - 1;
    var p := q - TrailingDigits(t, q) - 1;
    assert PositionAt(t, p, q, e);
  }

  /** Any match of the expression is the one the scanner finds. */
  lemma {:induction false} PositionSuffixScanned(t: string, p: int, q: int, e: int)
    requires PositionAt(t, p, q, e)
    ensures HasPositionSuffix(t)
  {
    var e0 := if |t| > 0 && t[|t| - 1] == ')' then |t| - 1 else |t|;
    if e == |t| {
      assert IsDigit(t[e - 1]);
    }
    assert e == e0;
    TrailingDigitsExact(t, q + 1, e);
    TrailingDigitsExact(t, p + 1, q);
  }

  /** A trimmed line counts as a stack frame if it starts with `at ` or
      ends with a `:line:column` position. */
  predicate IsFrameLine(line: string) {
    StartsWith(line, "at ") || HasPositionSuffix(line)
  }

  /** Number of lines that are frames once trimmed. */
  function FrameCount(lines: seq<string>): (n: nat)
    ensures n <= |lines|
  {
    if lines == [] then 0
    else FrameCount(lines[..|lines| - 1]) + (if IsFrameLine(Trim(lines[|lines| - 1])) then 1 else 0)
  }

  /** The reference definition: a multi-line string with two frame lines. */
  predicate StackLike(s: string) {
    '\n' in s && FrameCount(Split(s, '\n')) >= 2
  }

  lemma {:induction false} FrameCountAppend(a: seq<string>, b: seq<string>)
    ensures FrameCount(a + b) == FrameCount(a) + FrameCount(b)
    decreases |b|
  {
    if b == [] {
      assert a + b == a;
    } else {
      var b' := b[..|b| - 1];
      assert (a + b)[..|a + b| - 1] == a + b';
      FrameCountAppend(a, b');
    }
  }

  /** Counting one more line. */
  lemma {:induction false} FrameCountSnoc(lines: seq<string>, i: nat)
    requires i < |lines|
    ensures FrameCount(lines[..i + 1]) ==
      FrameCount(lines[..i]) + (if IsFrameLine(Trim(lines[i])) then 1 else 0)
  {
    assert lines[..i + 1][..i] == lines[..i];
  }

  /** A prefix has no more frame lines than the whole. */
  lemma {:induction false} FrameCountPrefix(lines: seq<string>, j: nat)
    requires j <= |lines|
    ensures FrameCount(lines[..j]) <= FrameCount(lines)
    ensures j == |lines| ==> FrameCount(lines[..j]) == FrameCount(lines)
  {
    assert lines == lines[..j] + lines[j..];
    FrameCountAppend(lines[..j], lines[j..]);
  }

  /** `isStackLikeString`: scans the trimmed lines and stops at the second
      frame line. */
  method IsStackLikeString(value: Arg) returns (r: bool)
    ensures r <==> value.Str? && StackLike(value.s)
  {
    if !value.Str? {
      return false;
    }
    var text := value.s;
    if '\n' !in text {
      return false;
    }
    var lines := Split(text, '\n');
    var frames := 0;
    for i := 0 to |lines|
      invariant frames == FrameCount(lines[..i]) && frames < 2
    {
      FrameCountSnoc(lines, i);
      var line := Trim(lines[i]);
      if line != "" {
        if StartsWith(line, "at ") {
          frames := frames + 1;
        } else if HasPositionSuffix(line) {
          frames := frames + 1;
        }
        if frames >= 2 {
          FrameCountPrefix(lines, i + 1);
          return true;
        }
      }
    }
    FrameCountPrefix(lines, |lines|);
    return false;
  }

  /** Blank lines never count, wherever they are inserted. */
  lemma {:induction false} BlankLinesIgnored(a: seq<string>, blank: string, b: seq<string>)
    requires Trim(blank) == ""
    ensures FrameCount(a + [blank] + b) == FrameCount(a + b)
  {
    FrameCountAppend(a + [blank], b);
    FrameCountAppend(a, [blank]);
    FrameCountAppend(a, b);
    BlankLineCount(blank);
  }

  lemma {:induction false} BlankLineCount(blank: string)
    requires Trim(blank) == ""
    ensures FrameCount([blank]) == 0
  {
    assert [blank][..0] == [];
  }

  /** The count depends only on which lines there are, not on their order. */
  lemma {:induction false} FrameCountPermutation(a: seq<string>, b: seq<string>)
    requires multiset(a) == multiset(b)
    ensures FrameCount(a) == FrameCount(b)
    decreases |a|
  {
    if a == [] {
      assert |b| == |multiset(b)| == 0;
    } else {
      var x := a[|a| - 1];
      var a' := a[..|a| - 1];
      assert a == a' + [x];
      assert x in multiset(b);
      var j :| 0 <= j < |b| && b[j] == x;
      var b' := b[..j] + b[j + 1..];
      assert b == b[..j] + [x] + b[j + 1..];
      assert multiset(b) == multiset(b[..j]) + multiset([x]) + multiset(b[j + 1..]);
      assert multiset(a) == multiset(a') + multiset([x]);
      assert multiset(b') == multiset(b[..j]) + multiset(b[j + 1..]);
      assert multiset(a') == multiset(a) - multiset([x]);
      assert multiset(b') == multiset(b) - multiset([x]);
      FrameCountPermutation(a', b');
      FrameCountAppend(b[..j] + [x], b[j + 1..]);
      FrameCountAppend(b[..j], [x]);
      FrameCountAppend(b[..j], b[j + 1..]);
      FrameCountAppend(a', [x]);
    }
  }

  /** A line made of spaces and then `at ...` is a frame. */
  lemma {:induction false} IndentedAtLine(ws: string, rest: string)
    requires forall i :: 0 <= i < |ws| ==> IsJsSpace(ws[i])
    requires rest != [] && !IsJsSpace(rest[|rest| - 1])
    ensures IsFrameLine(Trim(ws + "at " + rest))
  {
    var w := "at " + rest;
    assert ws + "at " + rest == ws + w + "";
    assert w[|w| - 1] == rest[|rest| - 1];
    TrimPadded(ws, w, "");
    assert Trim(ws + "at " + rest)[..3] == "at ";
  }

  lemma {:induction false} FrameCountSingle(x: string)
    ensures FrameCount([x]) == if IsFrameLine(Trim(x)) then 1 else 0
  {
    assert [x][..0] == [];
  }

  /** Lines joined with newlines are stack-like iff two of them are frames. */
  lemma {:induction false} StackLikeJoin(parts: seq<string>)
    requires |parts| >= 2
    requires forall k :: 0 <= k < |parts| ==> '\n' !in parts[k]
    ensures StackLike(Join(parts, "\n")) <==> FrameCount(parts) >= 2
  {
    SplitJoin(parts, '\n');
    var s := Join(parts, "\n");
    assert s == parts[0] + "\n" + Join(parts[1..], "\n");
    assert s[|parts[0]|] == '\n';
  }

  /** Three lines joined by newlines: a message and two frames make a
      stack. */
  lemma {:induction false} TwoFramesMakeStack(m: string, f: string, g: string)
    requires '\n' !in m && '\n' !in f && '\n' !in g
    requires IsFrameLine(Trim(f)) && IsFrameLine(Trim(g))
    ensures StackLike(m + "\n" + f + "\n" + g)
  {
    var parts := [m, f, g];
    JoinThree(m, f, g, "\n");
    StackLikeJoin(parts);
    FrameCountSingle(f);
    FrameCountSingle(g);
    FrameCountThree(m, f, g);
  }

  lemma {:induction false} FrameCountThree(a: string, b: string, c: string)
    ensures FrameCount([a, b, c]) == FrameCount([a]) + FrameCount([b]) + FrameCount([c])
  {
    assert [a, b, c] == [a] + [b] + [c];
    FrameCountAppend([a] + [b], [c]);
    FrameCountAppend([a], [b]);
  }

  /** A message and one more line are never a stack, even if that line is
      a frame. */
  lemma {:induction false} OneFrameNoStack(m: string, f: string)
    requires '\n' !in m && '\n' !in f
    requires !IsFrameLine(Trim(m))
    ensures !StackLike(m + "\n" + f)
  {
    var parts := [m, f];
    assert parts[1..] == [f];
    assert Join(parts, "\n") == m + "\n" + f;
    StackLikeJoin(parts);
    assert parts == [m] + [f];
    FrameCountSingle(m);
    FrameCountAppend([m], [f]);
  }

  /** A string without a newline is never a stack. */
  lemma {:induction false} SingleLineNoStack(s: string)
    requires '\n' !in s
    ensures !StackLike(s)
  {
  }

  /** Indented `at` lines are frames, and so is a bare `file:line:column`;
      a message is not. */
  lemma {:induction false} IndentedFrameExample()
    ensures IsFrameLine(Trim("    at f (a.js:1:2)"))
  {
    assert "    at f (a.js:1:2)" == "    " + "at " + "f (a.js:1:2)";
    IndentedAtLine("    ", "f (a.js:1:2)");
  }

  lemma {:induction false} BareFrameExample()
    ensures IsFrameLine("a.js:10:5")
  {
    PositionSuffixIff("a.js:10:5");
    assert PositionAt("a.js:10:5", 4, 7, 9);
  }

  lemma {:induction false} MessageNotFrameExample()
    ensures !IsFrameLine("Error: boom")
  {
    var t := "Error: boom";
    assert t[..3][0] == 'E';
    assert t[10] == 'm';
    assert TrailingDigits(t, 11) == 0;
  }
}

=== FILE: types.dfy ===
/** The shared vocabulary of the library: colour levels, terminal themes,
    console methods and palettes. */
module Types {
  import opened Wrappers

  /** Colour capability tiers, ordered by rank 0..3. */
  datatype ColorLevel = NoColor | Ansi | Ansi256 | TrueColor {
    function Rank(): (n: nat)
      ensures n <= 3
    {
      match this
      case NoColor => 0
      case Ansi => 1
      case Ansi256 => 2
      case TrueColor => 3
    }
  }

  /** The level with a given rank (the enum value behind `level as ColorLevel`). */
  function LevelOfRank(n: int): (l: ColorLevel)
    requires 0 <= n <= 3
    ensures l.Rank() == n
  {
    if n == 0 then NoColor else if n == 1 then Ansi else if n == 2 then Ansi256 else TrueColor
  }

  lemma {:induction false} RankInjective(a: ColorLevel, b: ColorLevel)
    requires a.Rank() == b.Rank()
    ensures a == b
  {
    match a
    case NoColor =>
    case Ansi =>
    case Ansi256 =>
    case TrueColor =>
  }

  /** A logger's level: a detected colour level, or `'UnknownEnv'` when no
      detector could run. */
  datatype Level = Known(level: ColorLevel) | UnknownEnv

  /** The two levels at which loggers emit no colour at all. */
  predicate IsColorless(l: Level) {
    l == UnknownEnv || l == Known(NoColor)
  }

  /** `'dark' | 'light' | 'unknown'`. */
  datatype TerminalTheme = Dark | Light | Unknown

  function ThemeToken(t: TerminalTheme): (s: string)
    ensures s in ["dark", "light", "unknown"]
  {
    match t
    case Dark => "dark"
    case Light => "light"
    case Unknown => "unknown"
  }

  lemma {:induction false} ThemeTokenInjective(a: TerminalTheme, b: TerminalTheme)
    requires ThemeToken(a) == ThemeToken(b)
    ensures a == b
  {
    match a
    case Dark => assert ThemeToken(b)[0] == 'd';
    case Light => assert ThemeToken(b)[0] == 'l';
    case Unknown => assert ThemeToken(b)[0] == 'u';
  }

  /** The console methods a logger exposes. */
  datatype ConsoleMethod = Log | Info | Warn | Error | Trace | Debug

  function MethodName(m: ConsoleMethod): string {
    match m
    case Log => "log"
    case Info => "info"
    case Warn => "warn"
    case Error => "error"
    case Trace => "trace"
    case Debug => "debug"
  }

  const ConsoleMethodNames: seq<string> := ["log", "info", "warn", "error", "trace", "debug"]

  /** `isConsoleMethod`: membership in the six method names. */
  predicate IsConsoleMethod(level: string) {
    level in ConsoleMethodNames
  }

  /** Reads a console method back from its name. */
  function ParseConsoleMethod(level: string): (r: Option<ConsoleMethod>)
    ensures r.Some? <==> IsConsoleMethod(level)
    ensures r.Some? ==> MethodName(r.value) == level
  {
    if level == "log" then Some(Log)
    else if level == "info" then Some(Info)
    else if level == "warn" then Some(Warn)
    else if level == "error" then Some(Error)
    else if level == "trace" then Some(Trace)
    else if level == "debug" then Some(Debug)
    else None
  }

  /** Each method's name is a console method name and reads back as that method. */
  lemma {:induction false} MethodNameRoundTrip(m: ConsoleMethod)
    ensures IsConsoleMethod(MethodName(m))
    ensures ParseConsoleMethod(MethodName(m)) == Some(m)
  {
    match m
    case Log =>
    case Info =>
    case Warn =>
    case Error =>
    case Trace =>
    case Debug =>
  }

  /** A JavaScript object with string values, as its own enumerable
      entries in insertion order (`for ... in` order). */
  datatype Entry = Entry(key: string, value: string)

  type Palette = seq<Entry>

  /** Object keys are unique. */
  predicate DistinctKeys(p: Palette) {
    forall i, j :: 0 <= i < j < |p| ==> p[i].key != p[j].key
  }

  function Keys(p: Palette): seq<string> {
    if p == [] then [] else [p[0].key] + Keys(p[1..])
  }

  /** `p[key]`, `None` for `undefined`. */
  function Lookup(p: Palette, key: string): (r: Option<string>)
    ensures r.Some? <==> key in Keys(p)
  {
    if p == [] then None
    else if p[0].key == key then Some(p[0].value)
    else Lookup(p[1..], key)
  }

  /** A key among the keys is the key of some entry. */
  lemma {:induction false} KeyIndex(p: Palette, k: string)
    requires k in Keys(p)
    ensures exists i :: 0 <= i < |p| && p[i].key == k
  {
    if p[0].key != k {
      KeyIndex(p[1..], k);
      var i :| 0 <= i < |p[1..]| && p[1..][i].key == k;
      assert p[i + 1].key == k;
    }
  }

  /** A palette that has an entry for every console method. */
  predicate IsComplete(p: Palette) {
    forall m: ConsoleMethod :: Lookup(p, MethodName(m)).Some?
  }

  /** `palette[consoleMethod]` for a complete palette. */
  function PaletteHex(p: Palette, m: ConsoleMethod): string
    requires IsComplete(p)
  {
    Lookup(p, MethodName(m)).value
  }

  /** `obj[key] = value`: an existing key keeps its place, a new one goes last. */
  function Assign(p: Palette, key: string, value: string): (r: Palette)
    ensures Lookup(r, key) == Some(value)
    ensures forall k :: k != key ==> Lookup(r, k) == Lookup(p, k)
  {
    if p == [] then [Entry(key, value)]
    else if p[0].key == key then [Entry(key, value)] + p[1..]
    else [p[0]] + Assign(p[1..], key, value)
  }

  /** `{ ...base, ...over }`: the entries of `over` assigned onto those of `base`. */
  function Spread(base: Palette, over: Palette): Palette
    decreases |over|
  {
    if over == [] then base
    else Spread(Assign(base, over[0].key, over[0].value), over[1..])
  }

  /** A key of `over` takes its value from `over`; any other key keeps the
      value it had in `base`. */
  lemma {:induction false} SpreadLookup(base: Palette, over: Palette, k: string)
    requires DistinctKeys(over)
    ensures Lookup(Spread(base, over), k) ==
      (if Lookup(over, k).Some? then Lookup(over, k) else Lookup(base, k))
    decreases |over|
  {
    if over != [] {
      assert over[0].key == k ==> k !in Keys(over[1..]) by {
        if over[0].key == k && k in Keys(over[1..]) {
          KeyIndex(over[1..], k);
        }
      }
      SpreadLookup(Assign(base, over[0].key, over[0].value), over[1..], k);
    }
  }
}

=== FILE: values.dfy ===
/** The JavaScript values a logger is handed, reduced to what the logger
    asks of them: strings, other primitives, plain objects and arrays
    (a reference into a heap of objects, so that sharing and cycles are
    visible), errors, and the marker objects the library itself creates. */
module Values {
  import opened Wrappers

  /** A property value or array element: a primitive, shown by its
      rendering, or a reference to an object. */
  datatype Value = Prim(repr: string) | Ref(id: nat)

  /** One own enumerable property, in `for ... in` order. */
  datatype Field = Field(key: string, value: Value)

  /** An array or a plain object. */
  datatype Obj = ArrayObj(items: seq<Value>) | RecordObj(fields: seq<Field>)

  /** Object identity is the heap address. */
  type Heap = map<nat, Obj>

  /** Every reference stored in an object of the heap points into the heap. */
  predicate Closed(h: Heap) {
    forall id | id in h :: ObjClosed(h, h[id])
  }

  predicate ObjClosed(h: Heap, o: Obj) {
    match o
    case ArrayObj(items) => forall i :: 0 <= i < |items| ==> ValueIn(h, items[i])
    case RecordObj(fields) => forall i :: 0 <= i < |fields| ==> ValueIn(h, fields[i].value)
  }

  predicate ValueIn(h: Heap, v: Value) {
    v.Ref? ==> v.id in h
  }

  /** A console argument.
      - `Str`: a string.
      - `Other`: any other primitive, shown by its rendering.
      - `Obj`: a plain object or array, the root of a heap.
      - `Exception`: an `Error`, with its message and its optional stack.
      - `Colorized`: the `{ text, hex }` marker made by `colorize`.
      - `Css`: the `{ text, css }` marker made by `css` and `gradient`.
      - `BrowserObj`: the marker wrapping an object for `%o`. */
  datatype Arg =
    | Str(s: string)
    | Other(repr: string)
    | Obj(heap: Heap, root: nat)
    | Exception(message: string, stack: Option<string>)
    | Colorized(text: string, hex: string)
    | Css(text: string, css: string)
    | BrowserObj(value: Arg)
}

=== FILE: wrappers.dfy ===
/** Failure-compatible wrappers used throughout the model: `Option` for the
    JavaScript `undefined` / `NaN` cases and `Result` for the `neverthrow`
    results (`ok(...)` / `err(...)`) the library returns. */
module Wrappers {

  datatype Option<+T> = None | Some(value: T) {
    predicate IsFailure() { None? }

    function PropagateFailure<U>(): Option<U>
      requires None?
    {
      None
    }

    function Extract(): T
      requires Some?
    {
      value
    }
  }

  datatype Result<+R, +E> = Ok(value: R) | Err(error: E) {
    predicate IsFailure() { Err? }

    function PropagateFailure<U>(): Result<U, E>
      requires Err?
    {
      Err(error)
    }

    function Extract(): R
      requires Ok?
    {
      value
    }
  }
}
